=== FILE: README.md ===
# OSG Search front end: a Dafny model

OSG Search is a React front end that searches an OpenSearch index of
documents ingested with Apache Tika. This project models its core in
Dafny and proves properties of that model. The core covers:

- **The document normaliser** (`extractDocumentData`). It turns a stored
  document (`_source`, with a `raw_content` JSON string) into a title, a
  link, a snippet, images, a place, coordinates, a price and a currency.
  It falls back to the root fields when the JSON cannot be read.
- **The search service.** This covers the date-range filter, the sort keys,
  the tab-to-index map, pagination offsets, the `search`,
  `advancedSearch` and `getDocument` requests, and the shaping of the
  replies (the result list, the total and the page count).
- **The results page logic.** This covers the page size, the page-change
  guard, the window of page buttons, the per-tab result counts, the filter
  summary and the listing snippet.
- **The advanced search form.** This covers the query assembly from four
  word fields, the navigation parameters and the Clear button.
- **The filter panel.** This is the draft filter state, edited by events
  and applied or reset.
- **The document page helpers.** This covers the file-type badge, sentence
  and paragraph splitting, the sections of a structured document, the
  reading time, and the choice of body.

JavaScript values are modelled by `JsValue.Value`, which covers undefined,
null, booleans, numbers, strings, arrays and objects. JavaScript's
truthiness and `||` chains are modelled exactly. Numbers are
`JsNumber.Num`: NaN, a signed infinity, or an exact real. `parseFloat` and
`Number(string)` are written out over the decimal grammar.

Three things are parameters:

- `JSON.parse`, as `parse: Value -> ParseOutcome`;
- the clock's ISO formatting, as `iso: int -> string` with the current time
  as an integer `now`;
- the HTTP round trip, as `send: Request -> Reply`.

An exception is a `None` result, or an `Interrupted` outcome where the
source catches it. Within the modelled operations it occurs at exactly the
points where the source would throw; rendering is not modelled, so a
throw inside React's rendering is not.

Some quirks of the source are modelled as written and stated as lemmas:

- a latitude of 0 is skipped by `||` (`Normalizer.EquatorLatitudeSkipped`);
- a `null` price becomes 0 (`Normalizer.NullPriceIsZero`);
- a nullish `full_text` gives the snippet `"undefined..."`, so the root
  `content` never supplies the snippet while the JSON is readable
  (`Normalizer.Excerpt`, `Normalizer.PayloadSnippet`);
- an unusable `"lat Long"` string hides the `Coordinates` array
  (`Normalizer.EmptyLatLongHidesArray`);
- a custom date typed while another range is selected would break the draft
  invariant; the panel prevents this only by hiding the inputs
  (`FilterPanel.HiddenInputsMatter`);
- leaving the custom range forgets the typed dates
  (`FilterPanel.LeavingCustomForgetsDates`).

Modules: `Wrappers`, `JsString`, `JsNumber`, `JsValue`, `Normalizer`,
`QueryBuilder`, `Gateway`, `ResultsPage`, `AdvancedForm`, `FilterPanel` and
`ContentViewer`, one file each.

## Model

| member | source | states |
|---|---|---|
| `JsValue.Chain` | src/services/opensearchService.ts:115-117 | `a \|\| b \|\| …` yields the first truthy operand, or the last operand when none is truthy |
| `JsValue.ChainTruthy` | src/services/opensearchService.ts:115 | an `\|\|` chain is truthy exactly when one of its operands is |
| `Normalizer.Payload` | src/services/opensearchService.ts:114 | a missing or empty `raw_content` parses as the empty object `{}`; a truthy one is whatever `JSON.parse` makes of it |
| `Normalizer.Excerpt` | src/services/opensearchService.ts:117 | `x?.substring(0, 200) + '...'`: a string of up to 200 characters is kept whole and a longer one is cut at exactly 200, each followed by `...`; nullish gives `"undefined..."`; anything else throws |
| `Normalizer.Title` | src/services/opensearchService.ts:115 | the title is always truthy: payload `title`, else root `file_name`, else `Untitled` |
| `Normalizer.Url` | src/services/opensearchService.ts:116 | the link is always truthy: payload `url`, else `#` |
| `Normalizer.PayloadSnippet` | src/services/opensearchService.ts:117 | the snippet is always truthy: the `summary` when truthy, else the `full_text` excerpt (that excerpt's text), which is never falsy, so the `content` excerpt after it is never reached; it throws exactly when `summary` is falsy and `full_text` is neither nullish nor a string |
| `Normalizer.PayloadImages` | src/services/opensearchService.ts:120-132 | image URL: `image_url`, else `thumbnail`, else `thumbnail_url`; only when none of them is truthy, the first entry of `images`: a string is the URL, an object gives `url`, else `src`, else `href`; base64: `image_base64`, else the object's `base64`, else `data`; thumbnail: `thumbnail`, else `thumbnail_url`, else the object's `thumbnail`, else `thumb`; undefined where nothing applies |
| `Normalizer.FirstImage` | src/services/opensearchService.ts:123-124 | the first image is consulted exactly when `images` is a non-empty array, and it is `images[0]` |
| `Normalizer.RootImages` | src/services/opensearchService.ts:170-172 | a truthy image field from the payload is kept; a falsy one takes the root document's chain: `image_url`, then `thumbnail_url`, then `imageUrl` for the URL; `image_base64`, then `imageBase64`; `thumbnail_url`, then `thumbnailUrl` for the thumbnail (the last field whatever its value) |
| `Normalizer.FallbackImages` | src/services/opensearchService.ts:177-179 | when the JSON cannot be read, each image field is the root document's chain alone: `image_url`, `thumbnail_url`, `imageUrl`; `image_base64`, `imageBase64`; `thumbnail_url`, `thumbnailUrl` |
| `Normalizer.FallbackImagesAreRootImages` | src/services/opensearchService.ts:170-179 | the image fields of the fallback path equal those of the payload path's root fallback applied to no payload images |
| `Normalizer.PayloadImageWins` | src/services/opensearchService.ts:170-172 | a truthy payload `image_url` is never replaced by a root field |
| `Normalizer.LatLongText` | src/services/opensearchService.ts:144-150 | a `"lat Long"` text gives coordinates exactly when it splits at commas and white space into at least two pieces whose first two both read as numbers, and the coordinates are those two numbers |
| `Normalizer.Coordinates` | src/services/opensearchService.ts:138-159 | numeric latitude and longitude fields win; otherwise a `"lat Long"` string decides alone; otherwise a `Coordinates` array of two or more entries gives its first two entries read with `parseFloat`, exactly when both are numbers; a produced pair never holds NaN |
| `Normalizer.Address` | src/services/opensearchService.ts:135 | the address is the first truthy of `Address`, `address`, `Location` and `location`, else undefined |
| `Normalizer.Country` | src/services/opensearchService.ts:136 | the country is `Country` when truthy, else `country` when truthy, else undefined |
| `Normalizer.EquatorLatitudeSkipped` | src/services/opensearchService.ts:138-143 | a `Lat` of 0 is falsy, so a document with `Lat` 0 and `Long` 10 gets no coordinates |
| `Normalizer.EmptyLatLongHidesArray` | src/services/opensearchService.ts:144-151 | an empty `"lat Long"` string gives no coordinates, however the `Coordinates` array looks |
| `Normalizer.Price` | src/services/opensearchService.ts:162-167 | no price without a `price` key; a string keeps only digits, `.` and `-` and gives the `parseFloat` of that, no price when it is NaN; any other value gives `Number(value)`, no price when that is NaN |
| `Normalizer.NonStringPrices` | src/services/opensearchService.ts:162-167 | `Number` decides non-string prices: `true` is 1, `false` and `[]` are 0, `[7]` is 7, and a two-element array or an object gives no price |
| `Normalizer.NullPriceIsZero` | src/services/opensearchService.ts:162-163 | `price: null` passes the `!== undefined` test and becomes 0 |
| `Normalizer.FirstCurrency` | src/services/opensearchService.ts:168 | the leftmost position at or after a start where the currency pattern matches, none exactly when no later position matches |
| `Normalizer.CurrencyMatch` | src/services/opensearchService.ts:168 | `/[€$£]\|USD\|EUR\|GBP/i` finds the leftmost symbol or code, a non-empty token, none exactly when no position matches |
| `Normalizer.Currency` | src/services/opensearchService.ts:168 | a truthy `currency` wins; otherwise a string price supplies its first currency token, exactly the matched text; otherwise undefined |
| `JsString.KeepNumericConcat` | src/services/opensearchService.ts:163 | the price filter works character by character: filtering a concatenation filters each part |
| `JsString.KeepAroundSeparator` | src/services/opensearchService.ts:163 | a leading currency symbol and a thousands separator are dropped from a price and its digits kept as they are |
| `Normalizer.FormattedPrice` | src/services/opensearchService.ts:163 | `"$1,299.00"` is read as the price 1299 |
| `Normalizer.FormattedPriceCurrency` | src/services/opensearchService.ts:168 | `"$1,299.00"` gives the currency `"$"` |
| `Normalizer.PayloadPath` | src/services/opensearchService.ts:113-172 | the `try` block completes exactly when the source is not nullish, its JSON parses to a non-nullish payload and the snippet does not throw; its fields are then the title, link, snippet, root-completed images, coordinates, address, country, price and currency of the payload; otherwise it is interrupted with link `#` before the link is read, or with the payload's link after |
| `Normalizer.FallbackPath` | src/services/opensearchService.ts:173-180 | the `catch` block keeps the link reached so far; title `file_name`, else `Untitled`; snippet the `content` excerpt; images from the root; no coordinates, price or country; it throws when `content` is neither nullish nor a string |
| `Normalizer.Extract` | src/services/opensearchService.ts:97-197 | the normaliser fails for a nullish source; a completed `try` block is returned as is, an interrupted one becomes the `catch` block's result for the link reached; every result is consistent and has a truthy title, link and snippet |
| `Normalizer.UnparseableUsesFallback` | src/services/opensearchService.ts:173-180 | an unparseable `raw_content` gives link `#`, the root `file_name` or `Untitled`, and no coordinates or price |
| `Normalizer.InterruptedSnippetKeepsLink` | src/services/opensearchService.ts:116-180 | when the snippet throws after the link was read, the fallback result keeps the payload's link |
| `QueryBuilder.TimeFrameMillis` | src/services/opensearchService.ts:235-240 | the time frames last one hour, 24 hours, 7 days and 30 days, in milliseconds |
| `QueryBuilder.DateOnly` | src/services/opensearchService.ts:212 | `iso.split('T')[0]`: the prefix of the ISO text before its first `T` (all of it when there is none) |
| `JsString.SplitHead` | src/services/opensearchService.ts:212 | the first piece of `split(c)` is the prefix before the first `c`, and it holds no `c` |
| `JsString.SplitGaps` | src/components/ContentViewer.tsx:28 | the runs a regular-expression split cuts out are each at least `minRun` separator characters long |
| `JsString.SplitRunsWeave` | src/components/ContentViewer.tsx:28 | a split at runs of separators loses nothing: the pieces, with the cut-out runs put back between them, give the input again |
| `JsString.SplitRunsNoLongRun` | src/components/ContentViewer.tsx:28 | every run of `minRun` or more separators is cut: no piece holds one (for `/\n{2,}/`, no piece holds two line feeds in a row) |
| `JsString.SplitRunsMaximal` | src/components/ContentViewer.tsx:28 | the regular expression matches greedily: a piece after a cut does not start with a separator, a piece before one does not end with one, and a piece between two cuts is not empty |
| `QueryBuilder.PresetBounds` | src/services/opensearchService.ts:210-230 | `all` and `custom` set no bounds; `today` sets both bounds to today's date; `week`, `month` and `year` run from the date 7, 30 and 365 days ago to today's date |
| `QueryBuilder.DateRangeFilter` | src/services/opensearchService.ts:199-259 | a filter appears exactly when both bounds are non-empty; a time frame overrides the date range and spans back its length from now; a custom range passes its bounds through; `today` gives today's date twice; `week`, `month` and `year` give a filter exactly when both dates are non-empty |
| `QueryBuilder.TimeFrameOverridesDateRange` | src/services/opensearchService.ts:234-245 | with a time frame, the date range and custom dates make no difference |
| `QueryBuilder.TimeFrameRefinesPreset` | src/services/opensearchService.ts:215-245 | the last-week and last-month time frames cover the same dates as the week and month presets: each preset bound is the date part of the time frame's bound |
| `QueryBuilder.SortKeys` | src/services/opensearchService.ts:261-280 | two distinct keys; score is always descending; score comes first exactly for relevance; the date is ascending exactly for oldest |
| `QueryBuilder.ServiceIndex` | src/services/opensearchService.ts:57 | the configured index, or `file_index` when none is configured |
| `QueryBuilder.IndexForTab` | src/services/opensearchService.ts:282-284 | a mapped tab uses its index; any other tab uses the service index |
| `QueryBuilder.DocumentTabs` | src/services/opensearchService.ts:60-69 | among the mapped tabs, exactly `all`, `net`, `maps` and `shopping` search `file_index` |
| `QueryBuilder.PagesTile` | src/services/opensearchService.ts:294 | page 1 starts at offset 0 and each page starts one page size after the previous one |
| `QueryBuilder.SearchRequest` | src/services/opensearchService.ts:286-337 | a fuzzy multi-match on the tab's index, with the page offset and size, the sort keys, and a date filter exactly when one applies |
| `QueryBuilder.AdvancedRequest` | src/services/opensearchService.ts:414-489 | a phrase match exactly when `exactPhrase` is set, relevance order, and a range filter first and a `file_path` term exactly when a source is given |
| `Gateway.SourceLabel` | src/services/opensearchService.ts:352 | the listed source is `file_path` when truthy, else `Unknown` |
| `Gateway.ShapeHit` | src/services/opensearchService.ts:340-364 | a hit becomes a result exactly when it and its normalisation exist; title, link and snippet are the normalised ones, content and timestamp come from the stored document, and the source label from `file_path`; the full shape carries the normalised images, place, coordinates, price and currency, the advanced shape none of them |
| `Gateway.MapAll` | src/services/opensearchService.ts:340 | mapping a throwing function fails exactly when one call fails; otherwise result i is the call on item i |
| `Gateway.MapHits` | src/services/opensearchService.ts:340 | `hits.map(...)` fails exactly when one hit fails; otherwise result i is hit i shaped |
| `Gateway.TotalOf` | src/services/opensearchService.ts:366 | a numeric `total`, else a truthy `total.value`, else 0 |
| `Gateway.TotalPages` | src/services/opensearchService.ts:372 | `Math.ceil(total / size)`: the least whole number of pages of `size` that hold `total` |
| `Gateway.Respond` | src/services/opensearchService.ts:339-375 | the response is missing exactly when the reply or its `hits` is nullish, `hits.hits` is not an array, or a hit fails to shape; otherwise it echoes query and page and carries the total, its page count and `took` |
| `Gateway.Search` | src/services/opensearchService.ts:286-380 | a transport failure fails the search; a delivered reply is shaped from the request built for the query |
| `Gateway.AdvancedSearch` | src/services/opensearchService.ts:414-522 | a transport failure fails the search; a delivered reply is shaped as `search` shapes it, with results that carry no images, coordinates or price |
| `Gateway.NoHitsNoPages` | src/services/opensearchService.ts:366-372 | a total of 0 gives 0 pages |
| `Gateway.GetDocument` | src/services/opensearchService.ts:382-412 | no document on failure or a falsy `_source`; with a truthy `_source`, a document exactly when normalisation succeeds, with the hit's `_id`, the normalised title, link and snippet, the stored content and timestamp, the source label, score 0, and no images, place or price |
| `Gateway.RawJsonIsPayload` | src/services/opensearchService.ts:393-395 | a readable `raw_content` is kept as the document's JSON |
| `ResultsPage.PageSize` | src/components/ResultsPage.tsx:43 | 50 results a page on the images tab, 10 elsewhere |
| `ResultsPage.PageRequest` | src/components/ResultsPage.tsx:43-44 | a results page asks the tab's index for its page at the tab's page size |
| `ResultsPage.ApplyingFiltersKeepsSearch` | src/components/ResultsPage.tsx:118-121 | applying filters asks the same index for the same query and page size from offset 0, with the new sort keys and a date filter exactly when the new filters give one |
| `ResultsPage.Select` | src/components/ResultsPage.tsx:253-258 | every kept result is in the facet and none is added (see `SelectMultiplicity` and `SelectConcat` for order and multiplicity) |
| `ResultsPage.SelectMultiplicity` | src/components/ResultsPage.tsx:253-258 | a result occurs in the filtered list as often as in the page when it is in the facet, and not at all otherwise |
| `ResultsPage.SelectConcat` | src/components/ResultsPage.tsx:253-258 | filtering keeps the page's order: filtering a concatenation filters each part |
| `ResultsPage.SelectOne` | src/components/ResultsPage.tsx:253-258 | a single result is kept exactly when it is in the facet |
| `ResultsPage.Counts` | src/components/ResultsPage.tsx:251-259 | the counts fail exactly when some result has a non-nullish source that is not a string (`toLowerCase` throws); otherwise the web tab gets the total (0 when falsy), the image, map, shopping and book tabs the number of page results in their facet, and the videos and news tabs the total only when active |
| `ResultsPage.NumericPathBreaksCounts` | src/components/ResultsPage.tsx:258 | a result whose source is the number 42 makes the counts throw |
| `ResultsPage.SelectAll` | src/components/ResultsPage.tsx:253-258 | when every result is in the facet, the filter keeps them all |
| `ResultsPage.AllForSaleCounted` | src/components/ResultsPage.tsx:255 | when every result has a numeric price, the shopping count, whenever the counts exist, is the page's result count |
| `ResultsPage.FacetsOverlap` | src/components/ResultsPage.tsx:253-258 | one result can be counted on the image, map, shopping and book tabs at once |
| `ResultsPage.PageLimit` | src/components/ResultsPage.tsx:112 | `totalPages || 1`: the page count when truthy, else 1; never NaN or 0 |
| `ResultsPage.HandlePageChange` | src/components/ResultsPage.tsx:111-116 | a move happens exactly to a page from 1 up to the page limit |
| `ResultsPage.OnlyFirstPageWithoutPages` | src/components/ResultsPage.tsx:112 | without a response, or with 0 or NaN pages, only page 1 can be moved to |
| `ResultsPage.PageGuardRange` | src/components/ResultsPage.tsx:112 | with n pages, exactly pages 1 to n can be moved to |
| `ResultsPage.PageWindow` | src/components/ResultsPage.tsx:394-396 | at most five consecutive page buttons from `max(1, current - 2)`, all within the page count, including the current page |
| `ResultsPage.SummaryParts` | src/components/ResultsPage.tsx:137-152 | one label for each non-default choice: the sort label first, then the date-range label, and the time-frame label last |
| `ResultsPage.FilterSummary` | src/components/ResultsPage.tsx:153 | `All Results` exactly when sort, date range and time frame are the defaults; otherwise the labels joined by ` • ` |
| `ResultsPage.DisplaySnippet` | src/components/ResultsPage.tsx:345 | a snippet of up to 150 characters is shown whole; a longer one is cut to 150 characters plus `...` |
| `ResultsPage.LongTextListing` | src/components/ResultsPage.tsx:345 | a long `full_text` without a summary is listed as its first 150 characters plus `...` |
| `AdvancedForm.Cleared` | src/components/AdvancedSearch.tsx:213-220 | Clear empties every field, the date bounds included |
| `AdvancedForm.Negated` | src/components/AdvancedSearch.tsx:45 | every space-separated word gets a leading minus sign |
| `AdvancedForm.PhraseSegment` | src/components/AdvancedSearch.tsx:36-38 | the phrase part is empty for an empty field, else a space and the phrase in double quotes |
| `AdvancedForm.AnySegment` | src/components/AdvancedSearch.tsx:40-43 | the any-words part is empty for an empty field, else a space and a parenthesised group that splits back into the words with `OR` between them |
| `AdvancedForm.NoneSegment` | src/components/AdvancedSearch.tsx:45-48 | the none-words part is empty for an empty field, else a space and text that splits back into the negated words and gives the field back without the minus signs |
| `AdvancedForm.BuildQuery` | src/components/AdvancedSearch.tsx:30-48 | the query is the all-words text, then the phrase, any-words and none-words parts, each present only for a non-empty field; it is empty exactly when all four word fields are |
| `AdvancedForm.Params` | src/components/AdvancedSearch.tsx:51-64 | parameters `q` and `advanced=true` first, then `from`, `to` and `source` each exactly when non-empty, with its value, in that order and nothing else |
| `AdvancedForm.OptionalParams` | src/components/AdvancedSearch.tsx:57-65 | `from`, `to` and `source`, each exactly when non-empty, with its value, in that order |
| `AdvancedForm.HandleSearch` | src/components/AdvancedSearch.tsx:26-69 | navigation happens exactly when the query is not blank, with the trimmed query |
| `AdvancedForm.NavigatesIffWords` | src/components/AdvancedSearch.tsx:30-53 | navigation happens exactly when the all-words field has a non-space character or another word field is non-empty |
| `AdvancedForm.ClearedFormStays` | src/components/AdvancedSearch.tsx:213-220 | a cleared form does not navigate |
| `AdvancedForm.JoinOr` | src/components/AdvancedSearch.tsx:40 | joining with ` OR ` equals interleaving the words with `OR` and joining with spaces |
| `AdvancedForm.AnyWordsGroupTokens` | src/components/AdvancedSearch.tsx:39-42 | the any-words group, split at spaces, is the typed words with `OR` between them |
| `AdvancedForm.NoneWordsRoundTrip` | src/components/AdvancedSearch.tsx:44-47 | the none-words part splits back into the negated words, and dropping the minus signs restores the typed text |
| `FilterPanel.SetBound` | src/components/FilterPanel.tsx:42-50 | a typed bound is set and the other bound kept, or absent when there was no range |
| `FilterPanel.Shown` | src/components/FilterPanel.tsx:229 | `customDateRange?.[field] || ''`: the typed bound when there is one, else nothing |
| `FilterPanel.Step` | src/components/FilterPanel.tsx:30-68 | each handler changes only its own field; a typed date sets that bound of the custom range and keeps the other; leaving the custom range drops it; Apply emits the draft and closes; Reset emits and keeps the defaults and stays open |
| `FilterPanel.TypedDateIsShown` | src/components/FilterPanel.tsx:42-50 | a typed date shows in its input and the other input is unchanged |
| `FilterPanel.StepKeepsWellFormed` | src/components/FilterPanel.tsx:34-50 | a possible event keeps "a custom range only with the custom date range" and emits only such options |
| `FilterPanel.RunKeepsWellFormed` | src/components/FilterPanel.tsx:30-68 | any sequence of possible events keeps the draft and everything it applies well formed |
| `FilterPanel.HiddenInputsMatter` | src/components/FilterPanel.tsx:42-50 | typing a date while another range is selected would break the invariant |
| `FilterPanel.LeavingCustomForgetsDates` | src/components/FilterPanel.tsx:34-39 | switching away from the custom range and back shows empty date inputs |
| `FilterPanel.ResetThenApply` | src/components/FilterPanel.tsx:56-68 | Reset then Apply emits the defaults twice and leaves the defaults |
| `ContentViewer.Extension` | src/components/ContentViewer.tsx:101 | `split('.').pop()` is the dot-free suffix after the last dot, or the whole name |
| `ContentViewer.ExtensionAfterLastDot` | src/components/ContentViewer.tsx:101 | the extension of `p.e` is `e` for every dot-free `e` |
| `ContentViewer.FileType` | src/components/ContentViewer.tsx:99-113 | `Unknown` for a falsy source; the table's badge for the lower-cased extension, else `Document`; a truthy non-string throws |
| `ContentViewer.FileTypeFollowsLastExtension` | src/components/ContentViewer.tsx:101-112 | only the final extension decides the badge |
| `ContentViewer.CollapseSpace` | src/components/ContentViewer.tsx:19 | every white-space character left is a single space, never next to another; the text is empty exactly when the input is (see `CollapseKeepsText` for the characters kept and `CollapseJoinsPieces` for where each run stays) |
| `ContentViewer.CollapseKeepsText` | src/components/ContentViewer.tsx:19 | collapsing keeps every character that is not white space, in order |
| `ContentViewer.CollapseJoinsPieces` | src/components/ContentViewer.tsx:19 | the collapsed text is the white-space-free pieces between the runs of white space, joined by single spaces: each run stays, as one space, where it was |
| `ContentViewer.SplitSentences` | src/components/ContentViewer.tsx:20 | there is always a piece, and text that does not follow a sentence end starts with a non-empty piece |
| `ContentViewer.SentenceBoundariesSplit` | src/components/ContentViewer.tsx:20 | no piece contains a sentence end, one space and a sentence start: every such boundary is split at |
| `ContentViewer.SentenceStarts` | src/components/ContentViewer.tsx:20 | each piece after the first is non-empty and starts with an upper-case letter, a digit, a quote or an opening bracket |
| `ContentViewer.SentenceEnds` | src/components/ContentViewer.tsx:20 | each non-empty piece before the last ends with `.`, `!` or `?` |
| `ContentViewer.JoinSentences` | src/components/ContentViewer.tsx:20 | the pieces joined with single spaces give the text back |
| `ContentViewer.NonBlank` | src/components/ContentViewer.tsx:21 | no kept part is blank (see `NonBlankMembers`, `NonBlankConcat` and `NonBlankOne` for which parts are kept, in which order) |
| `ContentViewer.NonBlankMembers` | src/components/ContentViewer.tsx:21 | a part is kept exactly when it is not blank |
| `ContentViewer.NonBlankConcat` | src/components/ContentViewer.tsx:21 | filtering keeps the order and multiplicity of the parts: filtering a concatenation filters each part |
| `ContentViewer.NonBlankOne` | src/components/ContentViewer.tsx:21 | a single part is kept exactly when it is not blank |
| `ContentViewer.Sentences` | src/components/ContentViewer.tsx:16-22 | no sentence is blank, and each is a piece of the collapsed text |
| `ContentViewer.SentencesReadBack` | src/components/ContentViewer.tsx:16-22 | when no piece is blank, the sentences joined with spaces are the collapsed text |
| `ContentViewer.Groups` | src/components/ContentViewer.tsx:38-42 | `ceil(n/3)` groups: g groups hold between 3g - 2 and 3g sentences |
| `ContentViewer.GroupsAt` | src/components/ContentViewer.tsx:38-42 | group i joins sentences 3i to 3i + 2 with spaces, fewer in the last group |
| `ContentViewer.GroupsReadBack` | src/components/ContentViewer.tsx:38-42 | the groups joined with spaces equal the sentences joined with spaces |
| `ContentViewer.BlankLineParagraphs` | src/components/ContentViewer.tsx:28 | the pieces between runs of two or more line feeds, each trimmed, with the empty ones dropped in order; each paragraph is non-empty, trimmed, and holds no two line feeds in a row |
| `ContentViewer.FilledConcat` | src/components/ContentViewer.tsx:28 | `filter(Boolean)` keeps the order and multiplicity of the paragraphs: filtering a concatenation filters each part |
| `ContentViewer.FilledOne` | src/components/ContentViewer.tsx:28 | a single trimmed piece is kept exactly when it is not empty |
| `ContentViewer.Paragraphs` | src/components/ContentViewer.tsx:24-48 | two or more sentences give `ceil(n/3)` groups, group i joining sentences 3i to 3i + 2 with spaces; otherwise the blank-line paragraphs when there are two or more; otherwise the text as one paragraph |
| `ContentViewer.SectionBodyOf` | src/components/ContentViewer.tsx:263-272 | a section exactly for a truthy string, array or object: the string's paragraphs, the array's items as a list, or the object as a tree |
| `ContentViewer.Candidate` | src/components/ContentViewer.tsx:275-283 | the value each heading offers: Summary takes `summary`, else `description`, else `overview`; Title takes `title`; Author `author` else `byline`; Published `published`, else `date`, else `created_at`; Keywords `keywords` else `tags`; Address `Address` else `address`; Location `Location` else `location`; Content `full_text` else `content`; Images takes `images` |
| `ContentViewer.Found` | src/components/ContentViewer.tsx:263-283 | a body for exactly the headings whose `\|\|` chain gives a section, that section's body |
| `ContentViewer.SectionsFor` | src/components/ContentViewer.tsx:263-283 | sections for exactly the listed headings that have a body, each showing that body |
| `ContentViewer.SectionsInOrder` | src/components/ContentViewer.tsx:275-283 | headings listed in the page's order give sections in that order |
| `ContentViewer.StructuredBody` | src/components/ContentViewer.tsx:261-288 | the whole JSON exactly when no heading has a section; otherwise the sections, in the fixed order Summary to Images |
| `ContentViewer.SummaryBeforeDescription` | src/components/ContentViewer.tsx:275 | a non-empty `summary` string is what the Summary heading shows, whatever `description` and `overview` hold |
| `ContentViewer.ReadingMinutes` | src/components/ContentViewer.tsx:304 | the least whole number of minutes at 500 characters a minute |
| `ContentViewer.ProseParagraphs` | src/components/ContentViewer.tsx:308-313 | blank-line paragraphs when there are two or more, else the sentence paragraphs |
| `ContentViewer.DocumentBody` | src/components/ContentViewer.tsx:251-314 | the structured view for truthy JSON; else, for truthy string content, its prose paragraphs with the reading time of its length; else the snippet preview; it throws exactly for truthy non-string content |

## Left out

- HTTP (`makeRequest`, `fetch`), the development proxy, the connection test script and the environment configuration are left out. These are I/O; a request is handed to the `send` parameter and the configured index to `ServiceIndex`.
- The clock and `toISOString` are parameters (`now`, `iso`). The `RangeError` that `toISOString` raises for an out-of-range date is not modelled.
- `JSON.parse` is a parameter. `JSON.stringify` of list items and trees is kept as the raw value.
- The highlight section of the request bodies is left out, and so are the `fields` and `type` of the match clauses. These are constant and do not depend on any input.
- React rendering, JSX, CSS, the theme toggle, the Leaflet map, the calculator, SearchTools and the "I'm Feeling Lucky" redirect are left out. They are presentation, or not part of the modelled core.
- Strings are sequences of code points, not UTF-16 code units. Lengths and `substring` differ only outside the Basic Multilingual Plane. `toLowerCase` is modelled for ASCII letters only.
- Numbers are exact reals, not binary64. `parseFloat` and `Number` give the exact decimal value, without rounding.
- Property lookup sees own keys only. Keys inherited from `Object.prototype` (such as `constructor`), and objects with their own `toString` or `valueOf`, are not modelled.
- `ContentViewer.FileType`: a source named after a prototype key (`x.constructor`) would find a function in the table. The model answers `Document` for it.
- `ResultsPage.HandlePageChange`, `QueryBuilder.PageOffset` and `ResultsPage.PageWindow`: the page number read from the URL with `parseInt` (ResultsPage.tsx:62) may be NaN. The model takes an integer page.
- `AdvancedForm.Params`: the URL encoding of `URLSearchParams.toString` is not modelled; parameters are kept as key/value pairs.
- Rendering a snippet, content or source, and the `formatDate` and `formatUrl` display helpers, are left out. They are presentation. React throws for an object rendered as a child, and the model does not say where this happens.
- `ResultsPage.DisplaySnippet` takes a string. `PayloadSnippet` can give a truthy non-string `summary`, such as 42. Then `(result.snippet || '').slice` throws at ResultsPage.tsx:345 and :367, and the model does not say so.
- The relevance badge, the result-count line and the search-page handlers are left out: `handleSearch`, `handleTabChange` and the form edit handlers outside the filter panel and the advanced form.
- The filter panel's draft is initialised once from the current filters (`useState`). Later changes to the current filters do not reach an open panel, and this is not modelled.

=== FILE: advancedform.dfy ===
/** The advanced search form: it assembles a query string from four word
    fields (all of these words, an exact phrase, any of these words, none
    of these words) and navigates to the results page with the query and
    the optional date bounds and source as URL parameters. */
module AdvancedForm {
  import opened JsString

  /** The form's fields; every field starts, and is cleared, as "". */
  datatype Form = Form(
    allWords: string,
    exactPhrase: string,
    anyWords: string,
    noneWords: string,
    from: string,
    to: string,
    source: string)

  /** The Clear button: every field, both date bounds included, empty. */
  function Cleared(): (f: Form)
    ensures f.allWords == "" && f.exactPhrase == "" && f.anyWords == "" && f.noneWords == ""
    ensures f.from == "" && f.to == "" && f.source == ""
  {
    Form("", "", "", "", "", "", "")
  }

  /** `words.split(' ').map(w => '-' + w)`: every space-separated token
      with a minus sign in front. */
  function Negated(words: string): (r: seq<string>)
    ensures |r| == |Split(words, ' ')|
    ensures forall i :: 0 <= i < |r| ==> r[i] == "-" + Split(words, ' ')[i]
  {
    var ws := Split(words, ' ');
    seq(|ws|, i requires 0 <= i < |ws| => "-" + ws[i])
  }

  /** The exact-phrase part: nothing for an empty field, otherwise a
      space and the phrase in double quotes. */
  function PhraseSegment(phrase: string): (s: string)
    ensures phrase == "" ==> s == ""
    ensures phrase != "" ==>
      |s| == |phrase| + 3 && s[..2] == " \"" && s[2..|s| - 1] == phrase && s[|s| - 1] == '"'
  {
    if phrase != "" then " \"" + phrase + "\"" else ""
  }

  /** The any-words part: nothing for an empty field, otherwise a space
      and a parenthesised group which, split at spaces, is the typed words
      with the keyword OR between each two. */
  function AnySegment(words: string): (s: string)
    ensures words == "" ==> s == ""
    ensures words != "" ==>
      && |s| >= 3 && s[..2] == " (" && s[|s| - 1] == ')'
      && Split(s[2..|s| - 1], ' ') == Interleave(Split(words, ' '), "OR")
  {
    if words != "" then
      var group := Join(Split(words, ' '), " OR ");
      AnyWordsGroupTokens(words);
      var s := " (" + group + ")";
      assert s[2..|s| - 1] == group;
      s
    else ""
  }

  /** The none-words part: nothing for an empty field, otherwise a space
      and text which, split at spaces, is the typed words each with a minus
      sign, and which gives the field back when the signs are dropped. */
  function NoneSegment(words: string): (s: string)
    ensures words == "" ==> s == ""
    ensures words != "" ==>
      && |s| >= 2 && s[0] == ' ' && s[1] == '-'
      && Split(s[1..], ' ') == Negated(words)
      && Join(Unnegate(Split(s[1..], ' ')), " ") == words
  {
    if words != "" then
      var neg := Negated(words);
      NoneWordsRoundTrip(words);
      JoinHead(neg, " ");
      var s := " " + Join(neg, " ");
      assert s[1..] == Join(neg, " ");
      s
    else ""
  }

  /** The query text: the all-words text as typed, then the phrase, the
      any-words and the none-words parts, in that order. */
  function BuildQuery(f: Form): (q: string)
    ensures q == f.allWords + PhraseSegment(f.exactPhrase) + AnySegment(f.anyWords) + NoneSegment(f.noneWords)
    ensures q == "" <==> f.allWords == "" && f.exactPhrase == "" && f.anyWords == "" && f.noneWords == ""
  {
    f.allWords
    + (if f.exactPhrase != "" then " \"" + f.exactPhrase + "\"" else "")
    + (if f.anyWords != "" then " (" + Join(Split(f.anyWords, ' '), " OR ") + ")" else "")
    + (if f.noneWords != "" then " " + Join(Negated(f.noneWords), " ") else "")
  }

  /** What submitting the form does. */
  datatype Outcome = Stay | Navigate(params: seq<(string, string)>)

  /** A URL parameter that is set only when its value is non-empty. */
  function Optional(key: string, value: string): (r: seq<(string, string)>)
    ensures forall k, v :: (k, v) in r <==> value != "" && k == key && v == value
  {
    if value != "" then [(key, value)] else []
  }

  /** The position of a parameter name in the URL: `q`, `advanced`,
      `from`, `to`, `source`. */
  function KeyRank(key: string): nat
  {
    if key == "q" then 0
    else if key == "advanced" then 1
    else if key == "from" then 2
    else if key == "to" then 3
    else 4
  }

  /** The date bounds and the source, each only when set, in that order. */
  function OptionalParams(f: Form): (ps: seq<(string, string)>)
    ensures |ps| == (if f.from != "" then 1 else 0) + (if f.to != "" then 1 else 0) + (if f.source != "" then 1 else 0)
    ensures Ascending(ps) && forall i :: 0 <= i < |ps| ==> KeyRank(ps[i].0) >= 2
    ensures forall v :: ("from", v) in ps <==> f.from != "" && v == f.from
    ensures forall v :: ("to", v) in ps <==> f.to != "" && v == f.to
    ensures forall v :: ("source", v) in ps <==> f.source != "" && v == f.source
  {
    OptionalOrdered(f);
    OptionalMembers(f);
    Optional("from", f.from) + Optional("to", f.to) + Optional("source", f.source)
  }

  /** The optional parameters come in the order `from`, `to`, `source`. */
  lemma OptionalOrdered(f: Form)
    ensures var ps := Optional("from", f.from) + Optional("to", f.to) + Optional("source", f.source);
      Ascending(ps) && forall i :: 0 <= i < |ps| ==> KeyRank(ps[i].0) >= 2
  {
    var from := Optional("from", f.from);
    AppendHigher(from, "to", f.to);
    AppendHigher(from + Optional("to", f.to), "source", f.source);
  }

  /** Each optional parameter is present exactly when its field is set. */
  lemma OptionalMembers(f: Form)
    ensures var ps := Optional("from", f.from) + Optional("to", f.to) + Optional("source", f.source);
      forall k, v :: (k, v) in ps <==>
        (k, v) in Optional("from", f.from) || (k, v) in Optional("to", f.to) || (k, v) in Optional("source", f.source)
  {
    var from, to, source := Optional("from", f.from), Optional("to", f.to), Optional("source", f.source);
    forall k, v
      ensures (k, v) in from + to + source <==> (k, v) in from || (k, v) in to || (k, v) in source
    {
      InConcat([], from, to, source, (k, v));
      assert [] + from + to + source == from + to + source;
    }
  }

  /** The navigation parameters for the trimmed query `q`, in order. */
  function Params(q: string, f: Form): (ps: seq<(string, string)>)
    ensures |ps| >= 2 && ps[0] == ("q", q) && ps[1] == ("advanced", "true")
    ensures |ps| == 2 + (if f.from != "" then 1 else 0) + (if f.to != "" then 1 else 0) + (if f.source != "" then 1 else 0)
    ensures Ascending(ps)
    ensures forall v :: ("from", v) in ps <==> f.from != "" && v == f.from
    ensures forall v :: ("to", v) in ps <==> f.to != "" && v == f.to
    ensures forall v :: ("source", v) in ps <==> f.source != "" && v == f.source
  {
    FixedFirst(q, OptionalParams(f));
    [("q", q), ("advanced", "true")] + OptionalParams(f)
  }

  /** `q` and `advanced` go in front of the optional parameters without
      disturbing their order or their values. */
  lemma FixedFirst(q: string, tail: seq<(string, string)>)
    requires Ascending(tail) && forall i :: 0 <= i < |tail| ==> KeyRank(tail[i].0) >= 2
    ensures Ascending([("q", q), ("advanced", "true")] + tail)
    ensures forall k, v :: KeyRank(k) >= 2 ==>
      ((k, v) in [("q", q), ("advanced", "true")] + tail <==> (k, v) in tail)
  {
    var fixed := [("q", q), ("advanced", "true")];
    assert KeyRank(fixed[0].0) == 0 && KeyRank(fixed[1].0) == 1;
    PrependLower(fixed, tail);
  }

  /** Parameters that all come before those of `tail` keep the whole list
      in order, and the names `tail` uses keep their values. */
  lemma PrependLower(fixed: seq<(string, string)>, tail: seq<(string, string)>)
    requires Ascending(fixed) && Ascending(tail)
    requires forall i :: 0 <= i < |fixed| ==> KeyRank(fixed[i].0) < 2
    requires forall i :: 0 <= i < |tail| ==> KeyRank(tail[i].0) >= 2
    ensures Ascending(fixed + tail)
    ensures forall k, v :: KeyRank(k) >= 2 ==> ((k, v) in fixed + tail <==> (k, v) in tail)
  {
    var ps := fixed + tail;
    forall i, j | 0 <= i < j < |ps|
      ensures KeyRank(ps[i].0) < KeyRank(ps[j].0)
    {
      if j < |fixed| {
      } else if i >= |fixed| {
        assert ps[i] == tail[i - |fixed|] && ps[j] == tail[j - |fixed|];
      } else {
        assert ps[j] == tail[j - |fixed|];
      }
    }
    forall k, v | KeyRank(k) >= 2
      ensures (k, v) in ps <==> (k, v) in tail
    {
    }
  }

  lemma InConcat<T>(a: seq<T>, b: seq<T>, c: seq<T>, d: seq<T>, x: T)
    ensures x in a + b + c + d <==> x in a || x in b || x in c || x in d
  {
  }

  /** The parameter names occur in their URL order, each at most once. */
  predicate Ascending(ps: seq<(string, string)>)
  {
    forall i, j :: 0 <= i < j < |ps| ==> KeyRank(ps[i].0) < KeyRank(ps[j].0)
  }

  /** Setting a parameter that comes after all those already set keeps
      them in order. */
  lemma AppendHigher(ps: seq<(string, string)>, key: string, value: string)
    requires Ascending(ps) && forall i :: 0 <= i < |ps| ==> KeyRank(ps[i].0) < KeyRank(key)
    ensures Ascending(ps + Optional(key, value))
    ensures forall i :: 0 <= i < |ps + Optional(key, value)| ==> KeyRank((ps + Optional(key, value))[i].0) <= KeyRank(key)
  {
  }

  /** `handleSearch`: navigate when the trimmed query is not empty, with
      `q` (the trimmed query) and `advanced=true`, then `from`, `to` and
      `source` for each that is non-empty. */
  function HandleSearch(f: Form): (r: Outcome)
    ensures r.Navigate? <==> !IsBlank(BuildQuery(f))
    ensures r.Navigate? ==> r.params == Params(Trim(BuildQuery(f)), f)
  {
    var q := Trim(BuildQuery(f));
    if q != "" then Navigate(Params(q, f)) else Stay
  }

  lemma BlankConcat(a: string, b: string)
    ensures IsBlank(a + b) <==> IsBlank(a) && IsBlank(b)
  {
    assert forall i :: 0 <= i < |a| ==> (a + b)[i] == a[i];
    assert forall i :: 0 <= i < |b| ==> (a + b)[|a| + i] == b[i];
    if IsBlank(a) && IsBlank(b) {
      forall i | 0 <= i < |a + b|
        ensures IsSpace((a + b)[i])
      {
        if i >= |a| {
          assert (a + b)[i] == b[i - |a|];
        }
      }
    }
  }

  /** The first character of a join is the first character of the first
      part. */
  lemma JoinHead(parts: seq<string>, sep: string)
    requires |parts| >= 1 && parts[0] != ""
    ensures Join(parts, sep) != "" && Join(parts, sep)[0] == parts[0][0]
  {
  }

  /** The form navigates exactly when the all-words field has a non-space
      character or any of the other three word fields is non-empty: the
      quote, the parenthesis and the minus sign those add are never white
      space. */
  lemma NavigatesIffWords(f: Form)
    ensures HandleSearch(f).Navigate? <==>
      !IsBlank(f.allWords) || f.exactPhrase != "" || f.anyWords != "" || f.noneWords != ""
  {
    var p := PhraseSegment(f.exactPhrase);
    var a := AnySegment(f.anyWords);
    var n := NoneSegment(f.noneWords);
    BlankConcat(f.allWords + p + a, n);
    BlankConcat(f.allWords + p, a);
    BlankConcat(f.allWords, p);
    if f.exactPhrase != "" {
      assert p[1] == p[..2][1] == '"';
    }
    if f.anyWords != "" {
      assert a[1] == a[..2][1] == '(';
    }
  }

  /** A cleared form does not navigate. */
  lemma ClearedFormStays()
    ensures HandleSearch(Cleared()) == Stay
  {
    NavigatesIffWords(Cleared());
  }

  /** `[w1, "OR", w2, "OR", ..., wn]`. */
  function Interleave(ws: seq<string>, x: string): (r: seq<string>)
    requires |ws| >= 1
    ensures |r| == 2 * |ws| - 1
    ensures forall i :: 0 <= i < |ws| ==> r[2 * i] == ws[i]
    ensures forall i :: 0 <= i < |ws| - 1 ==> r[2 * i + 1] == x
  {
    if |ws| == 1 then [ws[0]]
    else
      var rest := Interleave(ws[1..], x);
      var r := [ws[0], x] + rest;
      forall i | 1 <= i < |ws|
        ensures r[2 * i] == ws[i]
      {
        var j := i - 1;
        assert r[2 * j + 2] == rest[2 * j];
        assert ws[1..][j] == ws[i];
      }
      forall i | 1 <= i < |ws| - 1
        ensures r[2 * i + 1] == x
      {
        var j := i - 1;
        assert r[2 * j + 3] == rest[2 * j + 1];
      }
      r
  }

  /** A character that occurs in none of the words nor in the separator
      occurs in no element of their interleaving. */
  lemma {:induction false} InterleaveAvoids(ws: seq<string>, x: string, c: char)
    requires |ws| >= 1
    requires forall i :: 0 <= i < |ws| ==> c !in ws[i]
    requires c !in x
    ensures forall k :: 0 <= k < |Interleave(ws, x)| ==> c !in Interleave(ws, x)[k]
  {
    if |ws| > 1 {
      InterleaveAvoids(ws[1..], x, c);
      var rest := Interleave(ws[1..], x);
      assert Interleave(ws, x) == [ws[0], x] + rest;
    }
  }

  /** Joining with " OR " is joining the words interleaved with "OR" by
      single spaces. */
  lemma {:induction false} JoinOr(ws: seq<string>)
    requires |ws| >= 1
    ensures Join(ws, " OR ") == Join(Interleave(ws, "OR"), " ")
  {
    if |ws| > 1 {
      var tail := Join(ws[1..], " OR ");
      JoinOr(ws[1..]);
      var rest := Interleave(ws[1..], "OR");
      assert |rest| >= 1;
      assert Join(ws, " OR ") == ws[0] + " OR " + tail;
      assert Interleave(ws, "OR") == [ws[0]] + (["OR"] + rest);
      JoinCons("OR", rest, " ");
      JoinCons(ws[0], ["OR"] + rest, " ");
      SpacedOr(ws[0], tail);
    }
  }

  /** `" OR "` is the keyword with a space on either side. */
  lemma SpacedOr(a: string, t: string)
    ensures a + " OR " + t == a + " " + ("OR" + " " + t)
  {
    assert " OR " == " " + "OR" + " ";
  }

  /** Joining `[h] + rest` puts `h` and the separator before the rest. */
  lemma JoinCons(h: string, rest: seq<string>, sep: string)
    requires |rest| >= 1
    ensures Join([h] + rest, sep) == h + sep + Join(rest, sep)
  {
    assert ([h] + rest)[1..] == rest;
  }

  /** The any-words group reads back as the typed words separated by the
      keyword OR: split at spaces, it is the words interleaved with "OR". */
  lemma AnyWordsGroupTokens(words: string)
    ensures Split(Join(Split(words, ' '), " OR "), ' ') == Interleave(Split(words, ' '), "OR")
  {
    var ws := Split(words, ' ');
    JoinOr(ws);
    var il := Interleave(ws, "OR");
    InterleaveAvoids(ws, "OR", ' ');
    SplitJoin(il, ' ');
  }

  /** The none-words part reads back as the field: split at spaces it is
      the negated tokens, and dropping each minus sign and joining with
      spaces gives the typed text again. */
  lemma NoneWordsRoundTrip(words: string)
    ensures Split(Join(Negated(words), " "), ' ') == Negated(words)
    ensures Join(Unnegate(Negated(words)), " ") == words
  {
    var neg := Negated(words);
    var ws := Split(words, ' ');
    forall i | 0 <= i < |neg|
      ensures ' ' !in neg[i]
    {
      assert neg[i] == "-" + ws[i];
    }
    SplitJoin(neg, ' ');
    assert Unnegate(neg) == ws;
    JoinSplit(words, ' ');
  }

  /** Every token without its first character. */
  function Unnegate(tokens: seq<string>): (r: seq<string>)
    ensures |r| == |tokens|
    ensures forall i :: 0 <= i < |r| && tokens[i] != "" ==> "-" + r[i] == tokens[i] || tokens[i][0] != '-'
  {
    seq(|tokens|, i requires 0 <= i < |tokens| => if tokens[i] == "" then "" else tokens[i][1..])
  }
}

=== FILE: contentviewer.dfy ===
/** The document page's text helpers: the file-type badge, the splitting
    of text into sentences and paragraphs, the sections of a structured
    document, and the choice between the structured, prose and preview
    bodies. */
module ContentViewer {
  import opened Wrappers
  import opened JsString
  import opened JsValue
  import opened Gateway

  // ---------------------------------------------------------------------
  // File type
  // ---------------------------------------------------------------------

  /** `s.split('.').pop()`: the text after the last dot, or all of `s`
      when it has no dot. */
  function Extension(s: string): (e: string)
    ensures '.' !in e
    ensures EndsWith(s, e)
    ensures |e| < |s| ==> s[|s| - |e| - 1] == '.'
    ensures '.' !in s ==> e == s
  {
    var parts := Split(s, '.');
    var e := parts[|parts| - 1];
    JoinSplit(s, '.');
    if |parts| == 1 then
      e
    else
      JoinAppend(parts[..|parts| - 1], [e], ".");
      assert parts == parts[..|parts| - 1] + [e];
      var front := Join(parts[..|parts| - 1], ".");
      assert s == front + "." + e;
      assert s[|front|] == '.';
      e
  }

  /** The extension is exactly the dot-free text after the final dot,
      whatever comes before it. */
  lemma ExtensionAfterLastDot(p: string, e: string)
    requires '.' !in e
    ensures Extension(p + "." + e) == e
  {
    var s := p + "." + e;
    var x := Extension(s);
    assert s[|p|] == '.';
    assert x == e;
  }

  /** The badge names of the known extensions. */
  function TypeName(ext: string): Option<string>
  {
    if ext == "pdf" then Some("PDF Document")
    else if ext == "doc" || ext == "docx" then Some("Word Document")
    else if ext == "txt" then Some("Text File")
    else if ext == "json" then Some("JSON File")
    else if ext == "html" then Some("HTML File")
    else if ext == "md" then Some("Markdown File")
    else if ext == "xml" then Some("XML File")
    else None
  }

  /** `getFileType(source)`: "Unknown" for a falsy source, else the badge
      of the lower-cased extension, "Document" for any other extension;
      None where `split` is called on a truthy source that is not a
      string. */
  function FileType(source: Value): (r: Option<string>)
    ensures !Truthy(source) ==> r == Some("Unknown")
    ensures Truthy(source) ==> (r.Some? <==> source.JStr?)
    ensures source.JStr? && source.s != "" ==>
              r == Some(TypeName(Lower(Extension(source.s))).GetOr("Document"))
    ensures r.Some? ==> r.value != ""
  {
    if !Truthy(source) then Some("Unknown")
    else if source.JStr? then Some(TypeName(Lower(Extension(source.s))).GetOr("Document"))
    else None
  }

  /** Only the final extension counts: a folder or an earlier extension
      in the path does not change the badge. */
  lemma FileTypeFollowsLastExtension(p: string, q: string, e: string)
    requires '.' !in e
    ensures FileType(JStr(p + "." + e)) == FileType(JStr(q + "." + e))
  {
    ExtensionAfterLastDot(p, e);
    ExtensionAfterLastDot(q, e);
    assert (p + "." + e)[|p|] == '.';
    assert (q + "." + e)[|q|] == '.';
  }

  // ---------------------------------------------------------------------
  // Sentences and paragraphs
  // ---------------------------------------------------------------------

  /** `text.replace(/\s+/g, ' ')`: every run of white space becomes one
      space. */
  function CollapseSpace(s: string): (r: string)
    ensures r == "" <==> s == ""
    ensures |r| <= |s|
    ensures r != "" ==> (IsSpace(r[0]) <==> IsSpace(s[0]))
    ensures forall i :: 0 <= i < |r| && IsSpace(r[i]) ==> r[i] == ' '
    ensures forall i :: 0 <= i < |r| - 1 && IsSpace(r[i]) ==> !IsSpace(r[i + 1])
    decreases |s|
  {
    if |s| == 0 then ""
    else if IsSpace(s[0]) then
      var n := LeadingRun(s, WhiteSpace);
      var rest := CollapseSpace(s[n..]);
      assert rest != "" ==> !IsSpace(rest[0]);
      " " + rest
    else
      var rest := CollapseSpace(s[1..]);
      [s[0]] + rest
  }

  /** Collapsing puts each run of white space back, as one space, where
      it was: the result is the pieces between the runs joined by single
      spaces (`SplitRunsWeave` and `SplitRunsMaximal` say what those
      pieces and runs are). */
  lemma {:induction false} CollapseJoinsPieces(s: string)
    ensures CollapseSpace(s) == Join(SplitRuns(s, WhiteSpace, 1), " ")
    decreases |s|
  {
    if |s| > 0 {
      if IsSpace(s[0]) {
        var n := LeadingRun(s, WhiteSpace);
        CollapseJoinsPieces(s[n..]);
        SkipShape(s, WhiteSpace, 1);
        JoinEmptyHead(SplitRuns(s[n..], WhiteSpace, 1), " ");
      } else {
        CollapseJoinsPieces(s[1..]);
        KeepShape(s, WhiteSpace, 1);
        JoinPrependHead([s[0]], SplitRuns(s[1..], WhiteSpace, 1), " ");
      }
    }
  }

  /** Collapsing keeps every character that is not white space, in
      order: with the white space dropped, the text is unchanged. */
  lemma {:induction false} CollapseKeepsText(s: string)
    ensures DropSeparators(CollapseSpace(s), WhiteSpace) == DropSeparators(s, WhiteSpace)
    decreases |s|
  {
    if |s| > 0 {
      if IsSpace(s[0]) {
        var n := LeadingRun(s, WhiteSpace);
        var rest := CollapseSpace(s[n..]);
        CollapseKeepsText(s[n..]);
        DropSkipsRun(s, n, WhiteSpace);
        assert (" " + rest)[1..] == rest;
      } else {
        var rest := CollapseSpace(s[1..]);
        CollapseKeepsText(s[1..]);
        assert ([s[0]] + rest)[1..] == rest;
      }
    }
  }

  /** The characters a sentence ends with. */
  predicate IsTerminal(c: char)
  {
    c == '.' || c == '!' || c == '?'
  }

  /** The characters a following sentence must start with: an upper-case
      letter, a digit, a quote or an opening bracket. */
  predicate IsSentenceStart(c: char)
  {
    ('A' <= c <= 'Z') || ('0' <= c <= '9') || c == '"' || c == '\'' || c == '(' || c == '['
  }

  /** `t.split(/(?<=[.!?])\s+(?=[A-Z0-9"'([])/)` on text whose white
      space is already collapsed, so that every match is one space:
      `afterTerminal` says whether the character before `t` ends a
      sentence. */
  function SplitSentences(afterTerminal: bool, t: string): (parts: seq<string>)
    ensures |parts| >= 1
    ensures !afterTerminal && t != "" ==> parts[0] != ""
    decreases |t|
  {
    if |t| == 0 then [""]
    else if afterTerminal && t[0] == ' ' && |t| >= 2 && IsSentenceStart(t[1]) then
      [""] + SplitSentences(false, t[1..])
    else
      var rest := SplitSentences(IsTerminal(t[0]), t[1..]);
      [[t[0]] + rest[0]] + rest[1..]
  }

  /** Every piece after the first is non-empty and starts a sentence. */
  predicate StartsSentences(parts: seq<string>)
  {
    forall i :: 1 <= i < |parts| ==> parts[i] != "" && IsSentenceStart(parts[i][0])
  }

  /** Every non-empty piece before the last ends a sentence. */
  predicate EndsSentences(parts: seq<string>)
  {
    forall i :: 0 <= i < |parts| - 1 && parts[i] != "" ==> IsTerminal(parts[i][|parts[i]| - 1])
  }

  /** Every piece after the first begins a sentence. */
  lemma {:induction false} SentenceStarts(afterTerminal: bool, t: string)
    ensures StartsSentences(SplitSentences(afterTerminal, t))
    decreases |t|
  {
    if |t| == 0 {
    } else if afterTerminal && t[0] == ' ' && |t| >= 2 && IsSentenceStart(t[1]) {
      var rest := SplitSentences(false, t[1..]);
      SentenceStarts(false, t[1..]);
      var parts := [""] + rest;
      assert rest[0][0] == t[1];
      forall i | 1 <= i < |parts|
        ensures parts[i] != "" && IsSentenceStart(parts[i][0])
      {
        var j := i - 1;
        assert parts[i] == rest[j];
      }
    } else {
      var rest := SplitSentences(IsTerminal(t[0]), t[1..]);
      SentenceStarts(IsTerminal(t[0]), t[1..]);
      var parts := [[t[0]] + rest[0]] + rest[1..];
      forall i | 1 <= i < |parts|
        ensures parts[i] != "" && IsSentenceStart(parts[i][0])
      {
        var j := i - 1;
        assert parts[i] == rest[1..][j] == rest[i];
      }
    }
  }

  /** Every non-empty piece before the last ends a sentence. */
  lemma {:induction false} SentenceEnds(afterTerminal: bool, t: string)
    ensures EndsSentences(SplitSentences(afterTerminal, t))
    decreases |t|
  {
    if |t| == 0 {
    } else if afterTerminal && t[0] == ' ' && |t| >= 2 && IsSentenceStart(t[1]) {
      var rest := SplitSentences(false, t[1..]);
      SentenceEnds(false, t[1..]);
      var parts := [""] + rest;
      forall i | 0 <= i < |parts| - 1 && parts[i] != ""
        ensures IsTerminal(parts[i][|parts[i]| - 1])
      {
        var j := i - 1;
        assert parts[i] == rest[j];
      }
    } else {
      var rest := SplitSentences(IsTerminal(t[0]), t[1..]);
      SentenceEnds(IsTerminal(t[0]), t[1..]);
      var head := [t[0]] + rest[0];
      var parts := [head] + rest[1..];
      forall i | 0 <= i < |parts| - 1 && parts[i] != ""
        ensures IsTerminal(parts[i][|parts[i]| - 1])
      {
        if i == 0 {
          assert head[|head| - 1] == (if rest[0] == "" then t[0] else rest[0][|rest[0]| - 1]);
        } else {
          var j := i - 1;
          assert parts[i] == rest[1..][j] == rest[i];
        }
      }
    }
  }

  /** `t` has a sentence boundary at `k`: a character ending a sentence,
      one space, and a character starting one. */
  predicate BoundaryAt(t: string, k: int)
  {
    0 <= k && k + 2 < |t| && IsTerminal(t[k]) && t[k + 1] == ' ' && IsSentenceStart(t[k + 2])
  }

  /** No piece contains a sentence boundary, and when the text follows a
      sentence end the first piece does not open with one: every boundary
      was split at. The first piece is the text's prefix up to the first
      split. */
  lemma {:induction false} SentenceBoundariesSplit(afterTerminal: bool, t: string)
    ensures var parts := SplitSentences(afterTerminal, t);
      && |parts[0]| <= |t| && parts[0] == t[..|parts[0]|]
      && (afterTerminal ==> !(|parts[0]| >= 2 && parts[0][0] == ' ' && IsSentenceStart(parts[0][1])))
      && forall i, k :: 0 <= i < |parts| ==> !BoundaryAt(parts[i], k)
    decreases |t|
  {
    if |t| == 0 {
    } else if afterTerminal && t[0] == ' ' && |t| >= 2 && IsSentenceStart(t[1]) {
      var rest := SplitSentences(false, t[1..]);
      SentenceBoundariesSplit(false, t[1..]);
      var parts := [""] + rest;
      forall i, k | 0 <= i < |parts|
        ensures !BoundaryAt(parts[i], k)
      {
        if i > 0 {
          assert parts[i] == rest[i - 1];
        }
      }
    } else {
      var rest := SplitSentences(IsTerminal(t[0]), t[1..]);
      SentenceBoundariesSplit(IsTerminal(t[0]), t[1..]);
      var head := [t[0]] + rest[0];
      var parts := [head] + rest[1..];
      assert head == t[..|head|];
      forall i, k | 0 <= i < |parts|
        ensures !BoundaryAt(parts[i], k)
      {
        if i > 0 {
          assert parts[i] == rest[1..][i - 1] == rest[i];
        } else if k > 0 {
          assert !BoundaryAt(rest[0], k - 1);
        }
      }
    }
  }

  /** Joining the pieces with the spaces they were split at gives the
      text back. */
  lemma {:induction false} JoinSentences(afterTerminal: bool, t: string)
    ensures Join(SplitSentences(afterTerminal, t), " ") == t
    decreases |t|
  {
    if |t| > 0 {
      if afterTerminal && t[0] == ' ' && |t| >= 2 && IsSentenceStart(t[1]) {
        JoinSentences(false, t[1..]);
        var rest := SplitSentences(false, t[1..]);
        assert ([""] + rest)[1..] == rest;
      } else {
        JoinSentences(IsTerminal(t[0]), t[1..]);
        var rest := SplitSentences(IsTerminal(t[0]), t[1..]);
        JoinPrependHead([t[0]], rest, " ");
      }
    }
  }

  /** `parts.filter(p => p && p.trim().length > 0)`. */
  function NonBlank(parts: seq<string>): (r: seq<string>)
    ensures |r| <= |parts|
    ensures forall i :: 0 <= i < |r| ==> !IsBlank(r[i])
  {
    if |parts| == 0 then []
    else
      var rest := NonBlank(parts[1..]);
      if IsBlank(parts[0]) then rest else [parts[0]] + rest
  }

  /** A piece survives exactly when it is one of the parts and not blank. */
  lemma {:induction false} NonBlankMembers(parts: seq<string>)
    ensures forall p :: p in NonBlank(parts) <==> p in parts && !IsBlank(p)
  {
    if |parts| > 0 {
      NonBlankMembers(parts[1..]);
      assert forall p :: p in parts <==> p == parts[0] || p in parts[1..];
    }
  }

  /** Filtering a concatenation filters each part: the kept pieces stay
      in order and keep their multiplicity. */
  lemma {:induction false} NonBlankConcat(a: seq<string>, b: seq<string>)
    ensures NonBlank(a + b) == NonBlank(a) + NonBlank(b)
    decreases |a|
  {
    if |a| > 0 {
      NonBlankConcat(a[1..], b);
      var c := a + b;
      assert c[0] == a[0] && c[1..] == a[1..] + b;
      var h: seq<string> := if IsBlank(a[0]) then [] else [a[0]];
      assert NonBlank(c) == h + NonBlank(a[1..] + b);
      assert NonBlank(a) == h + NonBlank(a[1..]);
      var l, m := NonBlank(a[1..]), NonBlank(b);
      assert h + (l + m) == (h + l) + m;
    } else {
      assert a + b == b;
    }
  }

  /** A single piece is kept exactly when it is not blank. */
  lemma NonBlankOne(p: string)
    ensures NonBlank([p]) == if IsBlank(p) then [] else [p]
  {
  }

  /** `splitIntoSentences(text)`: the non-blank pieces of the collapsed
      text. */
  function Sentences(text: string): (r: seq<string>)
    ensures forall i :: 0 <= i < |r| ==> !IsBlank(r[i])
    ensures forall p :: p in r ==> p in SplitSentences(false, CollapseSpace(text))
  {
    NonBlankMembers(SplitSentences(false, CollapseSpace(text)));
    NonBlank(SplitSentences(false, CollapseSpace(text)))
  }

  /** The sentences, read back with single spaces, are the collapsed
      text when none of them is blank. */
  lemma SentencesReadBack(text: string)
    requires forall p :: p in SplitSentences(false, CollapseSpace(text)) ==> !IsBlank(p)
    ensures Join(Sentences(text), " ") == CollapseSpace(text)
  {
    var parts := SplitSentences(false, CollapseSpace(text));
    NonBlankKeepsAll(parts);
    JoinSentences(false, CollapseSpace(text));
  }

  lemma {:induction false} NonBlankKeepsAll(parts: seq<string>)
    requires forall p :: p in parts ==> !IsBlank(p)
    ensures NonBlank(parts) == parts
  {
    if |parts| > 0 {
      NonBlankKeepsAll(parts[1..]);
      assert parts == [parts[0]] + parts[1..];
    }
  }

  /** A slice of `s[k..]` is a slice of `s`, shifted by `k`. */
  lemma SliceOfDrop<T>(s: seq<T>, k: nat, a: nat, b: nat)
    requires k <= |s| && a <= b <= |s| - k
    ensures s[k..][a..b] == s[k + a .. k + b]
  {
  }

  /** Where group `i` of `n` sentences ends: three past its start, or at
      the last sentence. */
  function GroupEnd(n: nat, i: nat): nat
  {
    if 3 * i + 3 <= n then 3 * i + 3 else n
  }

  /** The sentences grouped three at a time, each group joined with
      spaces. */
  function Groups(s: seq<string>): (r: seq<string>)
    ensures 3 * |r| - 2 <= |s| <= 3 * |r|
  {
    if |s| <= 3 then
      if |s| == 0 then [] else [Join(s, " ")]
    else
      [Join(s[..3], " ")] + Groups(s[3..])
  }

  /** Group `i` joins sentences `3i` up to `3i + 2` (fewer in the last
      group). */
  lemma {:induction false} GroupsAt(s: seq<string>, i: nat)
    requires i < |Groups(s)|
    ensures 3 * i < |s| && Groups(s)[i] == Join(s[3 * i .. GroupEnd(|s|, i)], " ")
    decreases |s|
  {
    if |s| <= 3 {
      assert s[0..|s|] == s;
    } else if i > 0 {
      GroupsAt(s[3..], i - 1);
      assert GroupEnd(|s| - 3, i - 1) == GroupEnd(|s|, i) - 3;
      SliceOfDrop(s, 3, 3 * i - 3, GroupEnd(|s|, i) - 3);
    }
  }

  /** Grouping keeps every sentence, in order: the groups read back with
      spaces are the sentences read back with spaces. */
  lemma {:induction false} GroupsReadBack(s: seq<string>)
    ensures Join(Groups(s), " ") == Join(s, " ")
    decreases |s|
  {
    if |s| > 3 {
      GroupsReadBack(s[3..]);
      JoinAppend(s[..3], s[3..], " ");
      assert s == s[..3] + s[3..];
      var rest := Groups(s[3..]);
      assert Groups(s) == [Join(s[..3], " ")] + rest;
      assert ([Join(s[..3], " ")] + rest)[1..] == rest;
    }
  }

  /** Each string of `ps` trimmed, in place. */
  function Trimmed(ps: seq<string>): (r: seq<string>)
    ensures |r| == |ps| && forall i :: 0 <= i < |ps| ==> r[i] == Trim(ps[i])
  {
    seq(|ps|, i requires 0 <= i < |ps| => Trim(ps[i]))
  }

  /** `str.split(/\n{2,}/).map(p => p.trim()).filter(Boolean)`: the
      pieces between runs of two or more line feeds, trimmed, with the
      empty ones dropped (see `FilledConcat` and `FilledOne` for what
      `Filled` keeps). */
  function BlankLineParagraphs(text: string): (r: seq<string>)
    ensures forall i :: 0 <= i < |r| ==> r[i] != "" && r[i] == Trim(r[i])
    ensures forall i :: 0 <= i < |r| ==> !HasBlankLine(r[i])
    ensures r == Filled(Trimmed(SplitRuns(text, Newline, 2)))
  {
    TrimmedPiecesHaveNoBlankLine(text);
    Filled(Trimmed(SplitRuns(text, Newline, 2)))
  }

  /** `t` holds two line feeds in a row, as `/\n{2,}/` would match. */
  predicate HasBlankLine(t: string)
  {
    exists j :: 0 <= j < |t| - 1 && t[j] == '\n' && t[j + 1] == '\n'
  }

  /** The blank-line pieces, trimmed, hold no two line feeds in a row. */
  lemma TrimmedPiecesHaveNoBlankLine(text: string)
    ensures forall i :: 0 <= i < |Trimmed(SplitRuns(text, Newline, 2))| ==>
              !HasBlankLine(Trimmed(SplitRuns(text, Newline, 2))[i])
  {
    var ps := SplitRuns(text, Newline, 2);
    SplitRunsNoLongRun(text, Newline, 2);
    forall i | 0 <= i < |ps| ensures !HasBlankLine(Trim(ps[i])) {
      assert NoLongRun(ps[i], Newline, 2);
      TrimKeepsNoBlankLine(ps[i]);
    }
  }

  /** Trimming cuts a piece without a run of two line feeds down to a
      part of it, which has none either. */
  lemma TrimKeepsNoBlankLine(p: string)
    requires NoLongRun(p, Newline, 2)
    ensures !HasBlankLine(Trim(p))
  {
    var t := TrimStart(p);
    NoLongRunSuffix(p, |p| - |t|, Newline, 2);
    NoLongRunPrefix(t, |TrimEnd(t)|, Newline, 2);
    assert Trim(p) == TrimEnd(t);
    NoBlankLine(TrimEnd(t));
  }

  /** A string without a run of two line feeds has no two in a row. */
  lemma NoBlankLine(q: string)
    requires NoLongRun(q, Newline, 2)
    ensures !HasBlankLine(q)
  {
    forall j | 0 <= j < |q| - 1 ensures !(q[j] == '\n' && q[j + 1] == '\n') {
      NoLongRunAt(q, j, Newline, 2);
      if q[j] == '\n' && q[j + 1] == '\n' {
        LineFeedPairIsRun(q[j..]);
      }
    }
  }

  /** Two leading line feeds are a run of two. */
  lemma LineFeedPairIsRun(q: string)
    requires |q| >= 2 && q[0] == '\n' && q[1] == '\n'
    ensures LeadingRun(q, Newline) >= 2
  {
    assert q[1..][0] == '\n';
  }

  lemma TrimIdempotent(s: string)
    ensures Trim(Trim(s)) == Trim(s)
  {
    var t := Trim(s);
    if t != "" {
      assert TrimStart(t) == t;
      assert TrimEnd(t) == t;
    }
  }

  /** `ps.filter(Boolean)`: the non-empty strings of `ps`, in order. */
  function Filled(ps: seq<string>): (r: seq<string>)
    ensures |r| <= |ps|
    ensures forall p :: p in r <==> p in ps && p != ""
    ensures forall i :: 0 <= i < |r| ==> r[i] != "" && (r[i] in ps)
  {
    if |ps| == 0 then []
    else
      var rest := Filled(ps[1..]);
      assert forall p :: p in ps <==> p == ps[0] || p in ps[1..];
      if ps[0] == "" then rest else [ps[0]] + rest
  }

  /** Filtering a concatenation filters each part: the kept strings stay
      in order and keep their multiplicity. */
  lemma {:induction false} FilledConcat(a: seq<string>, b: seq<string>)
    ensures Filled(a + b) == Filled(a) + Filled(b)
    decreases |a|
  {
    if |a| > 0 {
      FilledConcat(a[1..], b);
      var c := a + b;
      assert c[0] == a[0] && c[1..] == a[1..] + b;
      var h: seq<string> := if a[0] == "" then [] else [a[0]];
      assert Filled(c) == h + Filled(a[1..] + b);
      assert Filled(a) == h + Filled(a[1..]);
      var l, m := Filled(a[1..]), Filled(b);
      assert h + (l + m) == (h + l) + m;
    } else {
      assert a + b == b;
    }
  }

  /** A single string is kept exactly when it is not empty. */
  lemma FilledOne(p: string)
    ensures Filled([p]) == if p == "" then [] else [p]
  {
  }

  /** `createParagraphNodes(text, 3)`: with two or more sentences, groups
      of three; otherwise the blank-line paragraphs when there are two or
      more, and else the text itself as one paragraph. */
  function Paragraphs(text: string): (r: seq<string>)
    ensures |r| >= 1
    ensures |Sentences(text)| >= 2 ==> |r| == (|Sentences(text)| + 2) / 3
    ensures |Sentences(text)| >= 2 ==> Join(r, " ") == Join(Sentences(text), " ")
    ensures |Sentences(text)| >= 2 ==> forall i :: 0 <= i < |r| ==>
              3 * i < |Sentences(text)| && r[i] == Join(Sentences(text)[3 * i .. GroupEnd(|Sentences(text)|, i)], " ")
    ensures |Sentences(text)| <= 1 && |BlankLineParagraphs(text)| >= 2 ==> r == BlankLineParagraphs(text)
    ensures |Sentences(text)| <= 1 && |BlankLineParagraphs(text)| <= 1 ==> r == [text]
  {
    var s := Sentences(text);
    if |s| <= 1 then
      var paras := BlankLineParagraphs(text);
      if |paras| > 1 then paras else [text]
    else
      GroupsReadBack(s);
      forall i | 0 <= i < |Groups(s)|
        ensures 3 * i < |s| && Groups(s)[i] == Join(s[3 * i .. GroupEnd(|s|, i)], " ")
      {
        GroupsAt(s, i);
      }
      Groups(s)
  }

  // ---------------------------------------------------------------------
  // Structured documents
  // ---------------------------------------------------------------------

  /** The section headings, in the order the page shows them. */
  datatype Label = Summary | Title | Author | Published | Keywords | Address | Location | Content | Images

  function Rank(l: Label): nat
  {
    match l
    case Summary => 0
    case Title => 1
    case Author => 2
    case Published => 3
    case Keywords => 4
    case Address => 5
    case Location => 6
    case Content => 7
    case Images => 8
  }

  const AllLabels: seq<Label> := [Summary, Title, Author, Published, Keywords, Address, Location, Content, Images]

  /** The `||` chain of fields each heading takes its value from. */
  function Candidate(data: Value, l: Label): (v: Value)
    ensures l == Summary ==>
      var a, b, c := Get(data, "summary"), Get(data, "description"), Get(data, "overview");
      && (Truthy(a) ==> v == a) && (!Truthy(a) && Truthy(b) ==> v == b) && (!Truthy(a) && !Truthy(b) ==> v == c)
    ensures l == Title ==> v == Get(data, "title")
    ensures l == Author ==>
      var a, b := Get(data, "author"), Get(data, "byline");
      (Truthy(a) ==> v == a) && (!Truthy(a) ==> v == b)
    ensures l == Published ==>
      var a, b, c := Get(data, "published"), Get(data, "date"), Get(data, "created_at");
      && (Truthy(a) ==> v == a) && (!Truthy(a) && Truthy(b) ==> v == b) && (!Truthy(a) && !Truthy(b) ==> v == c)
    ensures l == Keywords ==>
      var a, b := Get(data, "keywords"), Get(data, "tags");
      (Truthy(a) ==> v == a) && (!Truthy(a) ==> v == b)
    ensures l == Address ==>
      var a, b := Get(data, "Address"), Get(data, "address");
      (Truthy(a) ==> v == a) && (!Truthy(a) ==> v == b)
    ensures l == Location ==>
      var a, b := Get(data, "Location"), Get(data, "location");
      (Truthy(a) ==> v == a) && (!Truthy(a) ==> v == b)
    ensures l == Content ==>
      var a, b := Get(data, "full_text"), Get(data, "content");
      (Truthy(a) ==> v == a) && (!Truthy(a) ==> v == b)
    ensures l == Images ==> v == Get(data, "images")
  {
    match l
    case Summary => Either3(data, "summary", "description", "overview")
    case Title => Get(data, "title")
    case Author => Either(data, "author", "byline")
    case Published => Either3(data, "published", "date", "created_at")
    case Keywords => Either(data, "keywords", "tags")
    case Address => Either(data, "Address", "address")
    case Location => Either(data, "Location", "location")
    case Content => Either(data, "full_text", "content")
    case Images => Get(data, "images")
  }

  /** `data[a] || data[b]`. */
  function Either(data: Value, a: string, b: string): (v: Value)
    ensures Truthy(Get(data, a)) ==> v == Get(data, a)
    ensures !Truthy(Get(data, a)) ==> v == Get(data, b)
  {
    ChainOfTwo(Get(data, a), Get(data, b));
    Chain([Get(data, a), Get(data, b)])
  }

  /** `data[a] || data[b] || data[c]`. */
  function Either3(data: Value, a: string, b: string, c: string): (v: Value)
    ensures Truthy(Get(data, a)) ==> v == Get(data, a)
    ensures !Truthy(Get(data, a)) && Truthy(Get(data, b)) ==> v == Get(data, b)
    ensures !Truthy(Get(data, a)) && !Truthy(Get(data, b)) ==> v == Get(data, c)
  {
    ChainOfThree(Get(data, a), Get(data, b), Get(data, c));
    Chain([Get(data, a), Get(data, b), Get(data, c)])
  }

  /** How a section shows its value. */
  datatype SectionBody =
    | Text(paragraphs: seq<string>)
    | Items(values: seq<Value>)
    | Tree(value: Value)

  datatype Section = Section(heading: Label, body: SectionBody)

  /** `pushIf`: a falsy value, a number or `true` gives no section; a
      string gives its paragraphs, an array a list, an object a tree. */
  function SectionBodyOf(v: Value): (r: Option<SectionBody>)
    ensures r.Some? <==> Truthy(v) && (v.JStr? || v.JArr? || v.JObj?)
    ensures r.Some? && v.JStr? ==> r.value == Text(Paragraphs(v.s))
    ensures r.Some? && v.JArr? ==> r.value == Items(v.items)
    ensures r.Some? && v.JObj? ==> r.value == Tree(v)
  {
    if !Truthy(v) then None
    else match v
      case JStr(s) => Some(Text(Paragraphs(s)))
      case JArr(items) => Some(Items(items))
      case JObj(_) => Some(Tree(v))
      case _ => None
  }

  /** The labels of `ls` are listed in the page's order. */
  predicate InOrder(ls: seq<Label>)
  {
    forall i, j :: 0 <= i < j < |ls| ==> Rank(ls[i]) < Rank(ls[j])
  }

  /** The headings of `secs`, in order. */
  function Headings(secs: seq<Section>): (r: seq<Label>)
    ensures |r| == |secs|
    ensures forall i :: 0 <= i < |r| ==> r[i] == secs[i].heading
  {
    seq(|secs|, i requires 0 <= i < |secs| => secs[i].heading)
  }

  /** The section a heading gets, if any. */
  function SectionFor(data: Value, l: Label): Option<SectionBody>
  {
    SectionBodyOf(Candidate(data, l))
  }

  /** A heading listed before ordered headings ranks below each of them. */
  lemma RanksBelow(l: Label, ls: seq<Label>, later: seq<Label>)
    requires InOrder([l] + ls)
    requires forall x :: x in later ==> x in ls
    ensures forall i :: 0 <= i < |later| ==> Rank(l) < Rank(later[i])
  {
    forall i | 0 <= i < |later|
      ensures Rank(l) < Rank(later[i])
    {
      assert later[i] in later;
      var k :| 0 <= k < |ls| && ls[k] == later[i];
      assert ([l] + ls)[0] == l && ([l] + ls)[k + 1] == ls[k];
    }
  }

  /** The section body of every heading that gets one. */
  function Found(data: Value): (m: map<Label, SectionBody>)
    ensures forall l :: l in m <==> SectionFor(data, l).Some?
    ensures forall l :: l in m ==> Some(m[l]) == SectionFor(data, l)
  {
    AllLabelsListed();
    map l | l in AllLabels && SectionFor(data, l).Some? :: SectionFor(data, l).value
  }

  /** The headings are listed in the page's order. */
  lemma AllLabelsInOrder()
    ensures InOrder(AllLabels)
  {
    assert forall i :: 0 <= i < |AllLabels| ==> Rank(AllLabels[i]) == i;
  }

  lemma AllLabelsListed()
    ensures forall l: Label :: l in AllLabels
  {
    forall l: Label
      ensures l in AllLabels
    {
      assert AllLabels[Rank(l)] == l;
    }
  }

  lemma HeadingsCons(s: Section, rest: seq<Section>)
    ensures Headings([s] + rest) == [s.heading] + Headings(rest)
  {
  }

  /** The sections for the headings `ls`, in order: exactly the headings
      that have a body in `found`, each with that body. */
  function SectionsFor(found: map<Label, SectionBody>, ls: seq<Label>): (r: seq<Section>)
    ensures forall i :: 0 <= i < |r| ==> r[i].heading in found && r[i].body == found[r[i].heading]
    ensures forall l :: l in Headings(r) <==> l in ls && l in found
  {
    if |ls| == 0 then []
    else
      var rest := SectionsFor(found, ls[1..]);
      assert forall l :: l in ls <==> l == ls[0] || l in ls[1..];
      if ls[0] !in found then rest
      else
        var r := [Section(ls[0], found[ls[0]])] + rest;
        HeadingsCons(Section(ls[0], found[ls[0]]), rest);
        r
  }

  /** Ordered headings stay ordered after a lower-ranked heading is put
      in front. */
  lemma InOrderCons(l: Label, ls: seq<Label>)
    requires InOrder(ls)
    requires forall i :: 0 <= i < |ls| ==> Rank(l) < Rank(ls[i])
    ensures InOrder([l] + ls)
  {
    forall i, j | 0 <= i < j < |[l] + ls|
      ensures Rank(([l] + ls)[i]) < Rank(([l] + ls)[j])
    {
      assert ([l] + ls)[j] == ls[j - 1];
      if i > 0 {
        assert ([l] + ls)[i] == ls[i - 1];
      }
    }
  }

  /** Headings listed in the page's order give sections in that order. */
  lemma {:induction false} SectionsInOrder(found: map<Label, SectionBody>, ls: seq<Label>)
    requires InOrder(ls)
    ensures InOrder(Headings(SectionsFor(found, ls)))
  {
    if |ls| > 0 {
      var tail := ls[1..];
      assert InOrder(tail) by {
        assert forall i :: 0 <= i < |tail| ==> tail[i] == ls[i + 1];
      }
      var rest := SectionsFor(found, tail);
      SectionsInOrder(found, tail);
      if ls[0] in found {
        var h := Headings(rest);
        HeadingsCons(Section(ls[0], found[ls[0]]), rest);
        assert ls == [ls[0]] + tail;
        RanksBelow(ls[0], tail, h);
        InOrderCons(ls[0], h);
      }
    }
  }

  /** What a structured document's body shows. */
  datatype Structured = WholeJson(data: Value) | Sections(sections: seq<Section>)

  /** The structured body: the sections that have a value, in the fixed
      order, or the whole JSON when none has. */
  function StructuredBody(data: Value): (r: Structured)
    ensures r.WholeJson? <==> forall l :: SectionFor(data, l).None?
    ensures r.WholeJson? ==> r.data == data
    ensures r.Sections? ==> forall l :: l in Headings(r.sections) <==> SectionFor(data, l).Some?
    ensures r.Sections? ==> forall i :: 0 <= i < |r.sections| ==> Some(r.sections[i].body) == SectionFor(data, r.sections[i].heading)
    ensures r.Sections? ==> InOrder(Headings(r.sections))
  {
    AllLabelsListed();
    var secs := SectionsFor(Found(data), AllLabels);
    AllLabelsInOrder();
    SectionsInOrder(Found(data), AllLabels);
    if |secs| == 0 then
      assert Headings(secs) == [];
      WholeJson(data)
    else
      assert Headings(secs)[0] in Headings(secs);
      Sections(secs)
  }

  /** A non-empty summary is what the Summary heading shows, whatever
      the description or overview say. */
  lemma SummaryBeforeDescription(data: Value, summary: string)
    requires summary != "" && Get(data, "summary") == JStr(summary)
    ensures StructuredBody(data).Sections?
    ensures Section(Summary, Text(Paragraphs(summary))) in StructuredBody(data).sections
  {
    var r := StructuredBody(data);
    assert SectionBodyOf(Candidate(data, Summary)) == Some(Text(Paragraphs(summary)));
    assert Summary in Headings(r.sections);
    var i :| 0 <= i < |r.sections| && Headings(r.sections)[i] == Summary;
    assert r.sections[i] in r.sections;
  }

  // ---------------------------------------------------------------------
  // The document body
  // ---------------------------------------------------------------------

  /** `Math.ceil((length / 1000) * 2)`: the least whole number of minutes
      at 500 characters a minute. */
  function ReadingMinutes(length: nat): (m: nat)
    ensures length <= 500 * m
    ensures m == 0 || 500 * (m - 1) < length
  {
    (length + 499) / 500
  }

  /** The prose body of a document's text: its blank-line paragraphs when
      there are two or more, otherwise its sentence paragraphs. */
  function ProseParagraphs(content: string): (r: seq<string>)
    ensures |r| >= 1
    ensures |BlankLineParagraphs(content)| >= 2 ==> r == BlankLineParagraphs(content)
    ensures |BlankLineParagraphs(content)| <= 1 ==> r == Paragraphs(content)
  {
    var paras := BlankLineParagraphs(content);
    if |paras| > 1 then paras else Paragraphs(content)
  }

  /** What the document page's body shows. */
  datatype Body =
    | StructuredView(structured: Structured)
    | Prose(paragraphs: seq<string>, minutes: nat)
    | Preview(snippet: Value)

  /** The body of the document page: the structured view when the result
      kept its JSON, else the prose of a truthy text content, else the
      snippet preview. None where a truthy content that is not a string
      makes `split` throw. */
  function DocumentBody(doc: SearchResult): (r: Option<Body>)
    ensures Truthy(doc.rawJson) ==> r == Some(StructuredView(StructuredBody(doc.rawJson)))
    ensures !Truthy(doc.rawJson) && !Truthy(doc.content) ==> r == Some(Preview(doc.snippet))
    ensures r.None? <==> !Truthy(doc.rawJson) && Truthy(doc.content) && !doc.content.JStr?
    ensures r.Some? && r.value.Prose? ==> doc.content.JStr? && r.value.minutes == ReadingMinutes(|doc.content.s|)
    ensures !Truthy(doc.rawJson) && Truthy(doc.content) && doc.content.JStr? ==>
              r == Some(Prose(ProseParagraphs(doc.content.s), ReadingMinutes(|doc.content.s|)))
  {
    if Truthy(doc.rawJson) then Some(StructuredView(StructuredBody(doc.rawJson)))
    else if Truthy(doc.content) then
      if doc.content.JStr? then
        Some(Prose(ProseParagraphs(doc.content.s), ReadingMinutes(|doc.content.s|)))
      else None
    else Some(Preview(doc.snippet))
  }
}

=== FILE: filterpanel.dfy ===
/** The filter panel: a draft copy of the filter options that the user
    edits and then applies (closing the panel) or resets to the defaults
    (applying them at once and keeping the panel open). */
module FilterPanel {
  import opened Wrappers
  import opened QueryBuilder

  /** Which custom date input changed. */
  datatype DateField = From | To

  /** The user's actions on an open panel. */
  datatype Event =
    | SortChanged(sortBy: SortBy)
    | DateRangeChanged(dateRange: DateRange)
    | CustomDateChanged(field: DateField, value: string)
    | TimeFrameChanged(timeFrame: Option<TimeFrame>)
    | Apply
    | Reset
    | Close

  /** The draft after an event, the options handed to the results page
      (if any) and whether the panel closes. */
  datatype PanelStep = PanelStep(draft: FilterOptions, emitted: Option<FilterOptions>, closes: bool)

  /** A custom range only ever accompanies the custom date range. */
  predicate WellFormed(f: FilterOptions)
  {
    f.customDateRange.Some? ==> f.dateRange == Custom
  }

  /** The custom date inputs are rendered only while the custom date range
      is selected, so only then can they change. */
  predicate Enabled(draft: FilterOptions, e: Event)
  {
    e.CustomDateChanged? ==> draft.dateRange == Custom
  }

  /** `{...prev.customDateRange, [field]: value}`: the other bound is kept
      when there was a range, and absent when there was none. */
  function SetBound(range: Option<CustomRange>, field: DateField, value: string): (r: CustomRange)
    ensures field == From ==> r.from == Some(value) && r.to == (if range.Some? then range.value.to else None)
    ensures field == To ==> r.to == Some(value) && r.from == (if range.Some? then range.value.from else None)
  {
    var prev := range.GetOr(CustomRange(None, None));
    match field
    case From => prev.(from := Some(value))
    case To => prev.(to := Some(value))
  }

  /** The value a custom date input shows: `customDateRange?.[field] || ''`. */
  function Shown(draft: FilterOptions, field: DateField): (s: string)
    ensures draft.customDateRange.None? ==> s == ""
    ensures draft.customDateRange.Some? ==>
              var c := draft.customDateRange.value;
              var b := if field == From then c.from else c.to;
              (b.Some? ==> s == b.value) && (b.None? ==> s == "")
  {
    match draft.customDateRange
    case None => ""
    case Some(c) =>
      var b := if field == From then c.from else c.to;
      b.GetOr("")
  }

  /** One event on the panel (the handlers of the filter panel). */
  function Step(draft: FilterOptions, e: Event): (r: PanelStep)
    ensures e.SortChanged? ==> r.draft == draft.(sortBy := e.sortBy)
    ensures e.DateRangeChanged? ==>
              (r.draft.sortBy == draft.sortBy && r.draft.timeFrame == draft.timeFrame
               && r.draft.dateRange == e.dateRange
               && r.draft.customDateRange == (if e.dateRange == Custom then draft.customDateRange else None))
    ensures e.CustomDateChanged? ==>
              (r.draft.sortBy == draft.sortBy && r.draft.dateRange == draft.dateRange
               && r.draft.timeFrame == draft.timeFrame
               && r.draft.customDateRange == Some(SetBound(draft.customDateRange, e.field, e.value)))
    ensures e.TimeFrameChanged? ==> r.draft == draft.(timeFrame := e.timeFrame)
    ensures e.Apply? ==> r.draft == draft && r.emitted == Some(draft) && r.closes
    ensures e.Reset? ==> r.draft == DefaultFilters && r.emitted == Some(DefaultFilters) && !r.closes
    ensures e.Close? ==> r.draft == draft && r.emitted.None? && r.closes
    ensures r.emitted.Some? <==> e.Apply? || e.Reset?
    ensures r.closes <==> e.Apply? || e.Close?
  {
    match e
    case SortChanged(s) => PanelStep(draft.(sortBy := s), None, false)
    case DateRangeChanged(d) =>
      PanelStep(draft.(dateRange := d, customDateRange := if d == Custom then draft.customDateRange else None), None, false)
    case CustomDateChanged(field, v) =>
      PanelStep(draft.(customDateRange := Some(SetBound(draft.customDateRange, field, v))), None, false)
    case TimeFrameChanged(t) => PanelStep(draft.(timeFrame := t), None, false)
    case Apply => PanelStep(draft, Some(draft), true)
    case Reset => PanelStep(DefaultFilters, Some(DefaultFilters), false)
    case Close => PanelStep(draft, None, true)
  }

  /** A typed date shows up in its own input, and the other input keeps
      what it showed. */
  lemma TypedDateIsShown(draft: FilterOptions, field: DateField, other: DateField, v: string)
    requires other != field
    ensures Shown(Step(draft, CustomDateChanged(field, v)).draft, field) == v
    ensures Shown(Step(draft, CustomDateChanged(field, v)).draft, other) == Shown(draft, other)
  {
  }

  /** An enabled event keeps the draft well formed, and whatever the panel
      hands to the results page is well formed too. */
  lemma StepKeepsWellFormed(draft: FilterOptions, e: Event)
    requires WellFormed(draft) && Enabled(draft, e)
    ensures WellFormed(Step(draft, e).draft)
    ensures Step(draft, e).emitted.Some? ==> WellFormed(Step(draft, e).emitted.value)
  {
  }

  /** The panel after a sequence of events, with everything it applied
      along the way, until it closes. */
  function Run(draft: FilterOptions, events: seq<Event>): (r: (FilterOptions, seq<FilterOptions>))
    ensures |r.1| <= |events|
    decreases |events|
  {
    if |events| == 0 then (draft, [])
    else
      var s := Step(draft, events[0]);
      var emitted := if s.emitted.Some? then [s.emitted.value] else [];
      if s.closes then (s.draft, emitted)
      else
        var rest := Run(s.draft, events[1..]);
        (rest.0, emitted + rest.1)
  }

  /** Every event the panel lets the user make. */
  predicate AllEnabled(draft: FilterOptions, events: seq<Event>)
    decreases |events|
  {
    |events| == 0 ||
    (Enabled(draft, events[0]) && AllEnabled(Step(draft, events[0]).draft, events[1..]))
  }

  /** Starting from well-formed options, any sequence of possible events
      leaves the draft well formed and applies only well-formed options. */
  lemma {:induction false} RunKeepsWellFormed(draft: FilterOptions, events: seq<Event>)
    requires WellFormed(draft) && AllEnabled(draft, events)
    ensures WellFormed(Run(draft, events).0)
    ensures forall i :: 0 <= i < |Run(draft, events).1| ==> WellFormed(Run(draft, events).1[i])
    decreases |events|
  {
    if |events| > 0 {
      StepKeepsWellFormed(draft, events[0]);
      var s := Step(draft, events[0]);
      if !s.closes {
        RunKeepsWellFormed(s.draft, events[1..]);
        var emitted := if s.emitted.Some? then [s.emitted.value] else [];
        var rest := Run(s.draft, events[1..]);
        assert Run(draft, events).1 == emitted + rest.1;
        forall i | 0 <= i < |emitted + rest.1|
          ensures WellFormed((emitted + rest.1)[i])
        {
          if i >= |emitted| {
            assert (emitted + rest.1)[i] == rest.1[i - |emitted|];
          }
        }
      }
    }
  }

  /** Without the invariant the draft can go wrong: editing a date while
      another range is selected would leave a custom range behind. The
      panel rules this out by hiding the inputs. */
  lemma HiddenInputsMatter()
    ensures !WellFormed(Step(DefaultFilters, CustomDateChanged(From, "2024-01-01")).draft)
  {
  }

  /** Leaving the custom range discards the typed dates: choosing it again
      starts from empty inputs. */
  lemma LeavingCustomForgetsDates(draft: FilterOptions, other: DateRange, field: DateField)
    requires other != Custom
    ensures Shown(Step(Step(draft, DateRangeChanged(other)).draft, DateRangeChanged(Custom)).draft, field) == ""
  {
  }

  /** Reset applies the defaults at once and applying right after applies
      the defaults again. */
  lemma ResetThenApply(draft: FilterOptions)
    ensures Run(draft, [Reset, Apply]).1 == [DefaultFilters, DefaultFilters]
    ensures Run(draft, [Reset, Apply]).0 == DefaultFilters
  {
    assert [Reset, Apply][1..] == [Apply];
    assert [Apply][1..] == [];
  }
}

=== FILE: gateway.dfy ===
/** The search service's three calls as seen by the pages: `search`,
    `advancedSearch` and `getDocument`.  The backend is a parameter
    `send` from request to reply; a reply that never arrives, or arrives
    with an error status, is a `TransportFailure`. */
module Gateway {
  import opened Wrappers
  import opened JsNumber
  import opened JsValue
  import opened Normalizer
  import opened QueryBuilder

  /** What the backend answers to one request: the decoded JSON body, or a
      failure (network error or non-success status). */
  datatype Reply = Delivered(body: Value) | TransportFailure

  /** One search result as the pages see it.  Fields a call does not set
      are `JUndefined` / `None`. */
  datatype SearchResult = SearchResult(
    id: Value,
    title: Value,
    url: Value,
    snippet: Value,
    content: Value,
    score: Value,
    timestamp: Value,
    source: Value,
    images: Images,
    latitude: Option<Num>,
    longitude: Option<Num>,
    address: Value,
    country: Value,
    coordinates: Option<LatLon>,
    price: Option<Num>,
    currency: Value,
    rawJson: Value)

  /** A page of results. */
  datatype SearchResponse = SearchResponse(
    results: seq<SearchResult>,
    total: Value,
    page: int,
    totalPages: Num,
    query: string,
    took: Value)

  const NoImages := Images(JUndefined, JUndefined, JUndefined)

  /** `source.file_path || 'Unknown'`. */
  function SourceLabel(source: Value): (r: Value)
    ensures Truthy(r)
    ensures Truthy(Get(source, "file_path")) ==> r == Get(source, "file_path")
    ensures !Truthy(Get(source, "file_path")) ==> r == JStr("Unknown")
  {
    Or(Get(source, "file_path"), JStr("Unknown"))
  }

  /** The result for one hit.  `full` selects the `search` shape (with
      images, location and price) over the `advancedSearch` shape (text
      fields only).  A nullish hit or a document the normaliser throws on
      makes the whole call throw (`None`). */
  function ShapeHit(hit: Value, parse: Value -> ParseOutcome, full: bool): (r: Option<SearchResult>)
    ensures r.Some? <==> !Nullish(hit) && Extract(Get(hit, "_source"), parse).Some?
    // the text fields: the normaliser's, whichever shape
    ensures r.Some? ==>
      var d := Extract(Get(hit, "_source"), parse).value;
      r.value.title == d.title && r.value.url == d.url && r.value.snippet == d.snippet
    ensures r.Some? ==> Truthy(r.value.title) && Truthy(r.value.url) && Truthy(r.value.snippet)
    // the fields read from the hit and the stored document
    ensures r.Some? ==> r.value.id == Get(hit, "_id") && r.value.score == Get(hit, "_score")
    ensures r.Some? ==>
      && r.value.content == Get(Get(hit, "_source"), "content")
      && r.value.timestamp == Get(Get(hit, "_source"), "created_date")
      && r.value.source == SourceLabel(Get(hit, "_source"))
      && r.value.rawJson == JUndefined
    // images, location and price: only in the `search` shape
    ensures r.Some? && !full ==>
      && r.value.images == NoImages && r.value.coordinates == None && r.value.price == None
      && r.value.latitude == None && r.value.longitude == None
      && r.value.address == JUndefined && r.value.country == JUndefined && r.value.currency == JUndefined
    ensures r.Some? && full ==>
      var d := Extract(Get(hit, "_source"), parse).value;
      && r.value.images == d.images && r.value.coordinates == d.coordinates && r.value.price == d.price
      && r.value.latitude == d.latitude && r.value.longitude == d.longitude
      && r.value.address == d.address && r.value.country == d.country && r.value.currency == d.currency
    ensures r.Some? ==> r.value.latitude.Some? == r.value.coordinates.Some?
  {
    if Nullish(hit) then None
    else
      var source := Get(hit, "_source");
      match Extract(source, parse)
      case None => None
      case Some(d) =>
        var base := SearchResult(
          id := Get(hit, "_id"), title := d.title, url := d.url, snippet := d.snippet,
          content := Get(source, "content"), score := Get(hit, "_score"),
          timestamp := Get(source, "created_date"), source := SourceLabel(source),
          images := NoImages, latitude := None, longitude := None,
          address := JUndefined, country := JUndefined, coordinates := None,
          price := None, currency := JUndefined, rawJson := JUndefined);
        if full then
          Some(base.(images := d.images, latitude := d.latitude, longitude := d.longitude,
                     address := d.address, country := d.country, coordinates := d.coordinates,
                     price := d.price, currency := d.currency))
        else Some(base)
  }

  /** `xs.map(f)` where `f` may throw: all results, in order, or `None`
      as soon as one call throws. */
  function MapAll<A, B>(xs: seq<A>, f: A -> Option<B>): (r: Option<seq<B>>)
    ensures r.None? <==> exists i :: 0 <= i < |xs| && f(xs[i]).None?
    ensures r.Some? ==> |r.value| == |xs|
    ensures r.Some? ==> forall i :: 0 <= i < |xs| ==> Some(r.value[i]) == f(xs[i])
  {
    if |xs| == 0 then Some([])
    else
      match f(xs[0])
      case None => None
      case Some(first) =>
        var rest := MapAll(xs[1..], f);
        assert forall i :: 1 <= i < |xs| ==> xs[1..][i - 1] == xs[i];
        match rest
        case None => None
        case Some(tail) => Some([first] + tail)
  }

  /** `hits.map(shape)`: all results, in hit order, or `None` as soon as
      one hit throws. */
  function MapHits(hits: seq<Value>, parse: Value -> ParseOutcome, full: bool): (r: Option<seq<SearchResult>>)
    ensures r.None? <==> exists i :: 0 <= i < |hits| && ShapeHit(hits[i], parse, full).None?
    ensures r.Some? ==> |r.value| == |hits|
    ensures r.Some? ==> forall i :: 0 <= i < |hits| ==> Some(r.value[i]) == ShapeHit(hits[i], parse, full)
  {
    MapAll(hits, h => ShapeHit(h, parse, full))
  }

  /** `typeof hits.total === 'number' ? hits.total : hits.total?.value || 0`:
      the plain count of older backends, or the `value` of a total
      object; 0 when neither is there. */
  function TotalOf(hits: Value): (r: Value)
    ensures Get(hits, "total").JNum? ==> r == Get(hits, "total")
    ensures !Get(hits, "total").JNum? && Truthy(Get(Get(hits, "total"), "value")) ==>
      r == Get(Get(hits, "total"), "value")
    ensures !Get(hits, "total").JNum? && !Truthy(Get(Get(hits, "total"), "value")) ==> r == JNum(Fin(0.0))
  {
    var t := Get(hits, "total");
    if t.JNum? then t
    else if Nullish(t) then JNum(Fin(0.0))
    else Or(Get(t, "value"), JNum(Fin(0.0)))
  }

  /** `Math.ceil(total / size)` for an integer page size: the division of
      JavaScript numbers, where a zero divisor gives an infinity of the
      dividend's sign (NaN for a zero dividend). */
  function TotalPages(total: Num, size: int): (r: Num)
    ensures size > 0 && total.Fin? ==> r.Fin? && r.x * (size as real) >= total.x && (r.x - 1.0) * (size as real) < total.x
    ensures size > 0 && total.Fin? && total.x == 0.0 ==> r == Fin(0.0)
  {
    if size > 0 then CeilDiv(total, size)
    else if size < 0 then CeilDiv(Negate(total), -size)
    else
      match total
      case Fin(x) => if x > 0.0 then Inf(false) else if x < 0.0 then Inf(true) else NaN
      case _ => total
  }

  /** The response of a search whose backend replied, or `None` when the
      call throws: a reply that is not an object with a `hits` object
      holding a `hits` array, or a hit that cannot be shaped. */
  function Respond(reply: Value, query: string, page: int, size: int,
                   parse: Value -> ParseOutcome, full: bool): (r: Option<SearchResponse>)
    ensures r.Some? ==> r.value.page == page && r.value.query == query
    ensures r.Some? ==> r.value.total == TotalOf(Get(reply, "hits"))
    ensures r.Some? ==> r.value.totalPages == TotalPages(ToNumber(r.value.total), size)
    ensures r.None? <==>
      || Nullish(reply) || Nullish(Get(reply, "hits")) || !Get(Get(reply, "hits"), "hits").JArr?
      || MapHits(Get(Get(reply, "hits"), "hits").items, parse, full).None?
    ensures r.Some? ==>
      && |r.value.results| == |Get(Get(reply, "hits"), "hits").items|
      && forall i :: 0 <= i < |r.value.results| ==>
           Some(r.value.results[i]) == ShapeHit(Get(Get(reply, "hits"), "hits").items[i], parse, full)
    ensures r.Some? ==> r.value.took == Get(reply, "took")
  {
    if Nullish(reply) then None
    else
      var hits := Get(reply, "hits");
      if Nullish(hits) then None
      else
        match Get(hits, "hits")
        case JArr(items) =>
          (match MapHits(items, parse, full)
           case None => None
           case Some(results) =>
             var total := TotalOf(hits);
             Some(SearchResponse(results, total, page, TotalPages(ToNumber(total), size), query, Get(reply, "took"))))
        case _ => None
  }

  /** `search`: send the request for the tab and filters; `None` when the
      call rejects ("Failed to search documents"). */
  function Search(query: string, page: int, size: int, f: FilterOptions, tab: string,
                  serviceIndex: string, now: int, iso: int -> string,
                  send: Request -> Reply, parse: Value -> ParseOutcome): (r: Option<SearchResponse>)
    ensures send(SearchRequest(query, page, size, f, tab, serviceIndex, now, iso)).TransportFailure? ==> r == None
    ensures send(SearchRequest(query, page, size, f, tab, serviceIndex, now, iso)).Delivered? ==>
      r == Respond(send(SearchRequest(query, page, size, f, tab, serviceIndex, now, iso)).body, query, page, size, parse, true)
  {
    match send(SearchRequest(query, page, size, f, tab, serviceIndex, now, iso))
    case TransportFailure => None
    case Delivered(body) => Respond(body, query, page, size, parse, true)
  }

  /** `advancedSearch`: like `search` on the service's own index, with
      text-only results. */
  function AdvancedSearch(query: string, opts: AdvancedOptions, page: int, size: int, serviceIndex: string,
                          send: Request -> Reply, parse: Value -> ParseOutcome): (r: Option<SearchResponse>)
    ensures send(AdvancedRequest(query, opts, page, size, serviceIndex)).TransportFailure? ==> r == None
    ensures send(AdvancedRequest(query, opts, page, size, serviceIndex)).Delivered? ==>
      r == Respond(send(AdvancedRequest(query, opts, page, size, serviceIndex)).body, query, page, size, parse, false)
    ensures r.Some? ==> forall i :: 0 <= i < |r.value.results| ==>
      r.value.results[i].images == NoImages && r.value.results[i].price == None && r.value.results[i].coordinates == None
  {
    match send(AdvancedRequest(query, opts, page, size, serviceIndex))
    case TransportFailure => None
    case Delivered(body) =>
      var r := Respond(body, query, page, size, parse, false);
      assert r.Some? ==> forall i :: 0 <= i < |r.value.results| ==>
        r.value.results[i].images == NoImages && r.value.results[i].price == None && r.value.results[i].coordinates == None
      by {
        if r.Some? {
          var items := Get(Get(body, "hits"), "hits").items;
          forall i | 0 <= i < |r.value.results|
            ensures r.value.results[i].images == NoImages && r.value.results[i].price == None
            ensures r.value.results[i].coordinates == None
          {
            assert Some(r.value.results[i]) == ShapeHit(items[i], parse, false);
          }
        }
      }
      r
  }

  /** An empty result set has zero pages. */
  lemma NoHitsNoPages(reply: Value, query: string, page: int, size: int, parse: Value -> ParseOutcome, full: bool)
    requires size > 0
    requires Get(Get(reply, "hits"), "total") == JNum(Fin(0.0))
    ensures Respond(reply, query, page, size, parse, full).Some? ==>
      Respond(reply, query, page, size, parse, full).value.totalPages == Fin(0.0)
  {
  }

  /** `getDocument`: fetch one document of the service's index by id.
      `None` (the page's "Document not found") when the fetch fails, the
      reply has no truthy `_source`, or normalising throws.  The result
      has score 0, only the text fields, and the parsed `raw_content` as
      `rawJson` when it parses. */
  function GetDocument(id: string, serviceIndex: string, send: Request -> Reply,
                       parse: Value -> ParseOutcome): (r: Option<SearchResult>)
    ensures send(DocumentCall(serviceIndex, id)).TransportFailure? ==> r == None
    ensures send(DocumentCall(serviceIndex, id)).Delivered? && !Truthy(Get(send(DocumentCall(serviceIndex, id)).body, "_source")) ==> r == None
    ensures send(DocumentCall(serviceIndex, id)).Delivered? && Truthy(Get(send(DocumentCall(serviceIndex, id)).body, "_source")) ==>
      (r.Some? <==> Extract(Get(send(DocumentCall(serviceIndex, id)).body, "_source"), parse).Some?)
    ensures r.Some? ==>
      var body := send(DocumentCall(serviceIndex, id)).body;
      var d := Extract(Get(body, "_source"), parse).value;
      && r.value.id == Get(body, "_id")
      && r.value.title == d.title && r.value.url == d.url && r.value.snippet == d.snippet
      && r.value.content == Get(Get(body, "_source"), "content")
      && r.value.timestamp == Get(Get(body, "_source"), "created_date")
      && r.value.source == SourceLabel(Get(body, "_source"))
    ensures r.Some? ==> r.value.score == JNum(Fin(0.0))
    ensures r.Some? ==> Truthy(r.value.title) && Truthy(r.value.url) && Truthy(r.value.snippet)
    ensures r.Some? ==> r.value.images == NoImages && r.value.coordinates == None && r.value.price == None
    ensures r.Some? ==>
      && r.value.latitude == None && r.value.longitude == None
      && r.value.address == JUndefined && r.value.country == JUndefined && r.value.currency == JUndefined
    ensures r.Some? ==>
      var source := Get(send(DocumentCall(serviceIndex, id)).body, "_source");
      && ((Truthy(Get(source, "raw_content")) && parse(Get(source, "raw_content")).Parsed?)
            ==> r.value.rawJson == parse(Get(source, "raw_content")).value)
      && ((!Truthy(Get(source, "raw_content")) || parse(Get(source, "raw_content")).SyntaxError?)
            ==> r.value.rawJson == JUndefined)
  {
    match send(DocumentCall(serviceIndex, id))
    case TransportFailure => None
    case Delivered(body) =>
      var source := Get(body, "_source");
      if !Truthy(source) then None
      else
        match Extract(source, parse)
        case None => None
        case Some(d) =>
          var raw := Get(source, "raw_content");
          var rawJson :=
            if Truthy(raw) then (match parse(raw) case Parsed(v) => v case SyntaxError => JUndefined)
            else JUndefined;
          Some(SearchResult(
            id := Get(body, "_id"), title := d.title, url := d.url, snippet := d.snippet,
            content := Get(source, "content"), score := JNum(Fin(0.0)),
            timestamp := Get(source, "created_date"), source := SourceLabel(source),
            images := NoImages, latitude := None, longitude := None,
            address := JUndefined, country := JUndefined, coordinates := None,
            price := None, currency := JUndefined, rawJson := rawJson))
  }

  /** When the document's JSON text parses to an object, the structured
      view receives exactly the payload the normaliser read. */
  lemma RawJsonIsPayload(id: string, serviceIndex: string, send: Request -> Reply, parse: Value -> ParseOutcome)
    requires send(DocumentCall(serviceIndex, id)).Delivered?
    ensures var source := Get(send(DocumentCall(serviceIndex, id)).body, "_source");
      GetDocument(id, serviceIndex, send, parse).Some? && Truthy(Get(source, "raw_content"))
        && Payload(source, parse).Parsed? ==>
      GetDocument(id, serviceIndex, send, parse).value.rawJson == Payload(source, parse).value
  {
  }
}

=== FILE: jsnumber.dfy ===
/** JavaScript numbers and the two string-to-number conversions the front
    end uses: `parseFloat` (longest numeric prefix) and `Number(string)`
    (whole string).  Finite numbers are exact reals: rounding to the
    nearest binary64 value, overflow to Infinity and underflow to zero are
    not modelled. */
module JsNumber {
  import opened JsString

  /** A JavaScript number: NaN, an infinity, or a finite value. */
  datatype Num = NaN | Inf(negative: bool) | Fin(x: real)

  predicate IsDigit(c: char) { '0' <= c <= '9' }

  predicate AllDigits(s: string) { forall i :: 0 <= i < |s| ==> IsDigit(s[i]) }

  /** The number of leading decimal digits of `s`. */
  function LeadingDigits(s: string): (n: nat)
    ensures n <= |s|
    ensures AllDigits(s[..n])
    ensures n < |s| ==> !IsDigit(s[n])
  {
    if |s| > 0 && IsDigit(s[0]) then
      var n := 1 + LeadingDigits(s[1..]);
      assert s[..n] == [s[0]] + s[1..][..n - 1];
      n
    else 0
  }

  /** The value of a string of decimal digits (0 for the empty string). */
  function DigitsValue(d: string): nat
    requires AllDigits(d)
  {
    if |d| == 0 then 0
    else 10 * DigitsValue(d[..|d| - 1]) + (d[|d| - 1] as int - '0' as int)
  }

  /** 10 raised to an integer power. */
  function Pow10(e: int): (r: real)
    ensures r > 0.0
    decreases if e < 0 then -e else e
  {
    if e == 0 then 1.0
    else if e > 0 then 10.0 * Pow10(e - 1)
    else Pow10(e + 1) / 10.0
  }

  /** `m * 10^e`. */
  function Scaled(m: nat, e: int): (r: real)
    ensures r >= 0.0
  {
    m as real * Pow10(e)
  }

  /** The result of scanning a numeric prefix: how many characters it took
      and the number they denote (`len == 0` and `NaN` when nothing matched). */
  datatype Scan = Scan(len: nat, value: Num)

  /** The exponent part `(e|E)[+-]?digits` at the start of `u`, if any:
      its length and value.  An `e` not followed by digits is not part of
      the literal. */
  function ScanExponent(u: string): (r: (nat, int))
    ensures r.0 <= |u|
  {
    if |u| >= 2 && (u[0] == 'e' || u[0] == 'E') then
      var signed := u[1] == '+' || u[1] == '-';
      var start := if signed then 2 else 1;
      var d := LeadingDigits(u[start..]);
      if d == 0 then (0, 0)
      else
        assert u[start..start + d] == u[start..][..d];
        var v: int := DigitsValue(u[start..start + d]);
        (start + d, if u[1] == '-' then -v else v)
    else (0, 0)
  }

  /** The longest prefix of `t` that is an unsigned decimal literal of the
      ECMAScript StrUnsignedDecimalLiteral grammar: `Infinity`, or digits
      with an optional fraction (at least one digit in all) and an
      optional exponent. */
  function ScanUnsigned(t: string): (r: Scan)
    ensures r.len <= |t|
    ensures r.len == 0 <==> r.value == NaN
    ensures r.value.Fin? ==> r.value.x >= 0.0
  {
    if |t| >= 8 && t[..8] == "Infinity" then Scan(8, Inf(false))
    else
      var i := LeadingDigits(t);
      var hasDot := i < |t| && t[i] == '.';
      var f := if hasDot then LeadingDigits(t[i + 1..]) else 0;
      if i == 0 && f == 0 then Scan(0, NaN)
      else
        var mantEnd := if hasDot then i + 1 + f else i;
        assert hasDot ==> t[i + 1..mantEnd] == t[i + 1..][..f];
        var digits := if hasDot then t[..i] + t[i + 1..mantEnd] else t[..i];
        assert AllDigits(digits);
        var e := ScanExponent(t[mantEnd..]);
        Scan(mantEnd + e.0, Fin(Scaled(DigitsValue(digits), e.1 - f)))
  }

  /** `-n`. */
  function Negate(n: Num): Num
  {
    match n
    case NaN => NaN
    case Inf(neg) => Inf(!neg)
    case Fin(x) => Fin(-x)
  }

  /** The longest prefix of `t` that is a signed decimal literal
      (StrDecimalLiteral: an optional `+` or `-`, then an unsigned one). */
  function ScanDecimal(t: string): (r: Scan)
    ensures r.len <= |t|
    ensures r.len == 0 <==> r.value == NaN
  {
    if |t| > 0 && (t[0] == '+' || t[0] == '-') then
      var u := ScanUnsigned(t[1..]);
      if u.len == 0 then Scan(0, NaN)
      else Scan(u.len + 1, if t[0] == '-' then Negate(u.value) else u.value)
    else ScanUnsigned(t)
  }

  /** `parseFloat(s)` on a string: skip leading white space, then read the
      longest decimal-literal prefix; NaN when there is none. */
  function ParseFloat(s: string): Num
  {
    ScanDecimal(TrimStart(s)).value
  }

  /** The value of digit `c` in base 16 (`-1` when it is not a hex digit). */
  function HexDigit(c: char): int
  {
    if '0' <= c <= '9' then c as int - '0' as int
    else if 'a' <= c <= 'f' then c as int - 'a' as int + 10
    else if 'A' <= c <= 'F' then c as int - 'A' as int + 10
    else -1
  }

  /** All characters of `d` are digits of base `radix`. */
  predicate AllRadixDigits(d: string, radix: nat)
  {
    forall i :: 0 <= i < |d| ==> 0 <= HexDigit(d[i]) < radix
  }

  /** The value of a string of base-`radix` digits. */
  function RadixValue(d: string, radix: nat): nat
    requires AllRadixDigits(d, radix)
  {
    if |d| == 0 then 0
    else radix * RadixValue(d[..|d| - 1], radix) + HexDigit(d[|d| - 1])
  }

  /** The radix a `0x`/`0o`/`0b` prefix (either case) selects, or 0. */
  function RadixOfPrefix(t: string): nat
  {
    if |t| < 2 || t[0] != '0' then 0
    else if t[1] == 'x' || t[1] == 'X' then 16
    else if t[1] == 'o' || t[1] == 'O' then 8
    else if t[1] == 'b' || t[1] == 'B' then 2
    else 0
  }

  /** `Number(s)` on a string (ECMAScript StringToNumber): white space
      around the literal is ignored, an empty or blank string is 0, a
      `0x`/`0o`/`0b` integer literal is read in its radix, and otherwise the
      whole remaining text must be one decimal literal, or the result is NaN. */
  function StringToNumber(s: string): (r: Num)
    ensures IsBlank(s) ==> r == Fin(0.0)
  {
    var t := Trim(s);
    if t == "" then Fin(0.0)
    else
      var radix := RadixOfPrefix(t);
      if radix != 0 then
        var d := t[2..];
        if |d| > 0 && AllRadixDigits(d, radix) then Fin(RadixValue(d, radix) as real) else NaN
      else
        var sc := ScanDecimal(t);
        if sc.len == |t| then sc.value else NaN
  }

  /** The least integer not below `x`. */
  function CeilReal(x: real): (k: int)
    ensures k as real >= x && (k - 1) as real < x
  {
    -((-x).Floor)
  }

  /** `Math.ceil(n / d)` for a positive integer divisor `d`. */
  function CeilDiv(n: Num, d: int): (r: Num)
    requires d > 0
    ensures n.Fin? <==> r.Fin?
    ensures n.Fin? ==> r.x * (d as real) >= n.x && (r.x - 1.0) * (d as real) < n.x
    ensures n.Fin? ==> r.x == r.x.Floor as real
  {
    match n
    case Fin(x) =>
      var q := x / d as real;
      var k := CeilReal(q);
      assert q * (d as real) == x;
      MulMono(q, k as real, d as real);
      MulMono((k - 1) as real, q, d as real);
      assert (k as real - 1.0) * (d as real) <= x;
      assert (k as real - 1.0) * (d as real) != x by {
        if (k as real - 1.0) * (d as real) == x {
          MulCancel((k - 1) as real, q, d as real);
        }
      }
      Fin(k as real)
    case _ => n
  }

  lemma MulMono(a: real, b: real, c: real)
    requires a <= b && c > 0.0
    ensures a * c <= b * c
  {}

  lemma MulCancel(a: real, b: real, c: real)
    requires c > 0.0 && a * c == b * c
    ensures a == b
  {}

  /** The JavaScript comparison `k <= n` for an integer `k`. */
  predicate AtMost(k: int, n: Num)
  {
    match n
    case NaN => false
    case Inf(neg) => !neg
    case Fin(x) => k as real <= x
  }
}

=== FILE: jsstring.dfy ===
/** The JavaScript string operations the search front end relies on:
    whitespace trimming, `substring(0, n)`, `split` on a character or on a
    run of separator characters, `join`, lower-casing and `endsWith`.
    Strings are sequences of code points; JavaScript counts UTF-16 code
    units instead, which only differs for characters outside the Basic
    Multilingual Plane. */
module JsString {

  /** The characters JavaScript's `\s`, `trim()` and `parseFloat` treat as
      white space: the WhiteSpace and LineTerminator productions of
      ECMAScript (tab, vertical tab, form feed, space, no-break space, the
      byte order mark, the Unicode space separators, line feed, carriage
      return, line and paragraph separators). */
  predicate IsSpace(c: char)
  {
    || c == '\t' || c == '\n' || c == '\U{000B}' || c == '\U{000C}' || c == '\r'
    || c == ' ' || c == '\U{00A0}' || c == '\U{1680}'
    || ('\U{2000}' <= c <= '\U{200A}')
    || c == '\U{2028}' || c == '\U{2029}' || c == '\U{202F}' || c == '\U{205F}'
    || c == '\U{3000}' || c == '\U{FEFF}'
  }

  /** A string made only of white space (the empty string included). */
  predicate IsBlank(s: string)
  {
    forall i :: 0 <= i < |s| ==> IsSpace(s[i])
  }

  /** `s.trimStart()`: the longest suffix of `s` that does not start with
      white space (`TrimStartDropsBlank` shows that what it drops is white
      space). */
  function TrimStart(s: string): (r: string)
    ensures |r| <= |s| && r == s[|s| - |r|..]
    ensures r == "" || !IsSpace(r[0])
  {
    if |s| > 0 && IsSpace(s[0]) then TrimStart(s[1..]) else s
  }

  /** What `TrimStart` drops is white space. */
  lemma {:induction false} TrimStartDropsBlank(s: string)
    ensures IsBlank(s[..|s| - |TrimStart(s)|])
    decreases |s|
  {
    if |s| > 0 && IsSpace(s[0]) {
      var k := |s| - |TrimStart(s)|;
      TrimStartDropsBlank(s[1..]);
      assert s[..k] == [s[0]] + s[1..][..k - 1];
    }
  }

  /** `s.trimEnd()`: the longest prefix of `s` that does not end with white space. */
  function TrimEnd(s: string): (r: string)
    ensures |r| <= |s| && r == s[..|r|]
    ensures IsBlank(s[|r|..])
    ensures r == "" || !IsSpace(r[|r| - 1])
  {
    if |s| > 0 && IsSpace(s[|s| - 1]) then
      var r := TrimEnd(s[..|s| - 1]);
      assert s[|r|..] == s[..|s| - 1][|r|..] + [s[|s| - 1]];
      r
    else s
  }

  /** `s.trim()`: `s` without its leading and trailing white space; empty
      exactly when `s` is blank. */
  function Trim(s: string): (r: string)
    ensures r == "" <==> IsBlank(s)
    ensures r == "" || (!IsSpace(r[0]) && !IsSpace(r[|r| - 1]))
  {
    var t := TrimStart(s);
    var r := TrimEnd(t);
    if r == "" then
      TrimStartDropsBlank(s);
      assert IsBlank(t) by { assert t[|r|..] == t; }
      assert s == s[..|s| - |t|] + t;
      r
    else
      r
  }

  /** `s.substring(0, n)`: at most the first `n` characters of `s`. */
  function Take(s: string, n: nat): (r: string)
    ensures |r| == if n < |s| then n else |s|
    ensures r == s[..|r|]
  {
    if n < |s| then s[..n] else s
  }

  /** `s.split(c)` for a one-character separator `c`: the pieces between
      successive occurrences of `c`; the empty string gives `[""]`. */
  function Split(s: string, c: char): (parts: seq<string>)
    ensures |parts| >= 1
    ensures forall i :: 0 <= i < |parts| ==> c !in parts[i]
    decreases |s|
  {
    if |s| == 0 then [""]
    else
      var rest := Split(s[1..], c);
      if s[0] == c then [""] + rest
      else [[s[0]] + rest[0]] + rest[1..]
  }

  /** The first piece of `s.split(c)` is the text before the first `c`. */
  lemma {:induction false} SplitHead(s: string, c: char)
    ensures |Split(s, c)[0]| <= |s| && Split(s, c)[0] == s[..|Split(s, c)[0]|]
    ensures |Split(s, c)[0]| < |s| ==> s[|Split(s, c)[0]|] == c
    decreases |s|
  {
    if |s| > 0 && s[0] != c {
      var rest := Split(s[1..], c);
      SplitHead(s[1..], c);
      var h := Split(s, c)[0];
      assert h == [s[0]] + rest[0];
      assert s[..|h|] == [s[0]] + s[1..][..|rest[0]|];
    }
  }

  /** `parts.join(sep)`. */
  function Join(parts: seq<string>, sep: string): string
  {
    if |parts| == 0 then ""
    else if |parts| == 1 then parts[0]
    else parts[0] + sep + Join(parts[1..], sep)
  }

  /** `s.endsWith(t)`. */
  predicate EndsWith(s: string, t: string)
  {
    |t| <= |s| && s[|s| - |t|..] == t
  }

  /** Lower-cases the ASCII letters A-Z and leaves every other character alone. */
  function LowerChar(c: char): char
  {
    if 'A' <= c <= 'Z' then (c as int + 32) as char else c
  }

  /** `s.toLowerCase()` on ASCII letters.  Every suffix and table key this
      model compares against is ASCII and free of the letter k, and no
      non-ASCII character lower-cases to an ASCII string other than the
      Kelvin sign (to `k`), so the comparisons come out as in JavaScript. */
  function Lower(s: string): (r: string)
    ensures |r| == |s|
    ensures forall i :: 0 <= i < |s| ==> r[i] == LowerChar(s[i])
  {
    seq(|s|, i requires 0 <= i < |s| => LowerChar(s[i]))
  }

  /** The characters a price string keeps: digits, `.` and `-`. */
  predicate IsNumericChar(c: char)
  {
    '0' <= c <= '9' || c == '.' || c == '-'
  }

  /** `s.replace(/[^0-9.-]/g, '')`: the digits, dots and minus signs of
      `s`, in order. */
  function KeepNumeric(s: string): (r: string)
    ensures |r| <= |s|
    ensures forall i :: 0 <= i < |r| ==> IsNumericChar(r[i])
    ensures (forall i :: 0 <= i < |s| ==> IsNumericChar(s[i])) ==> r == s
  {
    if |s| == 0 then ""
    else (if IsNumericChar(s[0]) then [s[0]] else "") + KeepNumeric(s[1..])
  }

  /** Filtering a concatenation filters each part. */
  lemma {:induction false} KeepNumericConcat(a: string, b: string)
    ensures KeepNumeric(a + b) == KeepNumeric(a) + KeepNumeric(b)
    decreases |a|
  {
    if |a| == 0 {
      assert a + b == b;
    } else {
      KeepNumericConcat(a[1..], b);
      var c := a + b;
      assert c[0] == a[0] && c[1..] == a[1..] + b;
      var h := if IsNumericChar(a[0]) then [a[0]] else "";
      assert KeepNumeric(c) == h + KeepNumeric(a[1..] + b);
      AppendAssoc(h, KeepNumeric(a[1..]), KeepNumeric(b));
    }
  }

  /** A string made only of the characters a price string keeps. */
  predicate AllNumeric(s: string)
  {
    forall i :: 0 <= i < |s| ==> IsNumericChar(s[i])
  }

  /** A single character is kept exactly when it is numeric. */
  lemma KeepOne(c: char)
    ensures KeepNumeric([c]) == if IsNumericChar(c) then [c] else []
  {
    assert [c][1..] == [];
  }

  /** A leading currency symbol and a thousands separator between two runs
      of digits are dropped, and the digits are kept as they are. */
  lemma KeepAroundSeparator(symbol: char, a: string, separator: char, b: string)
    requires !IsNumericChar(symbol) && !IsNumericChar(separator) && AllNumeric(a) && AllNumeric(b)
    ensures KeepNumeric([symbol] + a + [separator] + b) == a + b
  {
    KeepOne(symbol);
    KeepOne(separator);
    KeepNumericConcat([symbol], a);
    KeepNumericConcat([symbol] + a, [separator]);
    KeepNumericConcat([symbol] + a + [separator], b);
    assert [] + a == a;
    assert a + [] == a;
  }

  /** The separator classes of the run-matching regular expressions the
      front end uses: `[,\s]`, `\s` and the newline. */
  datatype Separator = CommaOrSpace | WhiteSpace | Newline

  predicate IsSep(sep: Separator, c: char)
  {
    match sep
    case CommaOrSpace => c == ',' || IsSpace(c)
    case WhiteSpace => IsSpace(c)
    case Newline => c == '\n'
  }

  /** The number of leading separator characters of `s`. */
  function LeadingRun(s: string, sep: Separator): (n: nat)
    ensures n <= |s|
    ensures forall i :: 0 <= i < n ==> IsSep(sep, s[i])
    ensures n < |s| ==> !IsSep(sep, s[n])
  {
    if |s| > 0 && IsSep(sep, s[0]) then 1 + LeadingRun(s[1..], sep) else 0
  }

  /** `s.split(re)` for a regular expression `re` that greedily matches
      `minRun` or more separator characters (`/[,\s]+/` is `CommaOrSpace`
      with `minRun == 1`, `/\n{2,}/` is `Newline` with `minRun == 2`): the
      pieces between the maximal separator runs of length at least `minRun`. */
  function SplitRuns(s: string, sep: Separator, minRun: nat): (parts: seq<string>)
    requires minRun >= 1
    ensures |parts| >= 1
    ensures minRun == 1 ==> forall i, j :: 0 <= i < |parts| && 0 <= j < |parts[i]| ==> !IsSep(sep, parts[i][j])
    decreases |s|
  {
    if |s| == 0 then [""]
    else
      var run := LeadingRun(s, sep);
      if run >= minRun then [""] + SplitRuns(s[run..], sep, minRun)
      else
        var rest := SplitRuns(s[1..], sep, minRun);
        [[s[0]] + rest[0]] + rest[1..]
  }

  /** `s` without its separator characters. */
  function DropSeparators(s: string, sep: Separator): string
  {
    if |s| == 0 then ""
    else (if IsSep(sep, s[0]) then "" else [s[0]]) + DropSeparators(s[1..], sep)
  }

  /** Splitting on single-or-longer runs loses exactly the separators:
      concatenated, the pieces are the input with its separator characters
      removed. */
  lemma {:induction false} SplitRunsDropsOnlySeparators(s: string, sep: Separator)
    ensures Concat(SplitRuns(s, sep, 1)) == DropSeparators(s, sep)
    decreases |s|
  {
    if |s| > 0 {
      var run := LeadingRun(s, sep);
      if run >= 1 {
        SplitRunsDropsOnlySeparators(s[run..], sep);
        SkipRunStep(s, sep);
      } else {
        SplitRunsDropsOnlySeparators(s[1..], sep);
        KeepCharStep(s, sep);
      }
    }
  }

  /** A leading separator run adds an empty piece and drops the run. */
  lemma SkipRunStep(s: string, sep: Separator)
    requires |s| > 0 && LeadingRun(s, sep) >= 1
    requires Concat(SplitRuns(s[LeadingRun(s, sep)..], sep, 1)) == DropSeparators(s[LeadingRun(s, sep)..], sep)
    ensures Concat(SplitRuns(s, sep, 1)) == DropSeparators(s, sep)
  {
    var run := LeadingRun(s, sep);
    var rest := SplitRuns(s[run..], sep, 1);
    DropSkipsRun(s, run, sep);
    assert SplitRuns(s, sep, 1) == [""] + rest;
    ConcatCons("", rest);
    assert "" + Concat(rest) == Concat(rest);
  }

  /** A leading kept character joins the first piece and is kept. */
  lemma KeepCharStep(s: string, sep: Separator)
    requires |s| > 0 && LeadingRun(s, sep) == 0
    requires Concat(SplitRuns(s[1..], sep, 1)) == DropSeparators(s[1..], sep)
    ensures Concat(SplitRuns(s, sep, 1)) == DropSeparators(s, sep)
  {
    var rest := SplitRuns(s[1..], sep, 1);
    var head := [s[0]] + rest[0];
    var tail := Concat(rest[1..]);
    assert SplitRuns(s, sep, 1) == [head] + rest[1..];
    ConcatCons(head, rest[1..]);
    AppendAssoc([s[0]], rest[0], tail);
    assert DropSeparators(s, sep) == [s[0]] + DropSeparators(s[1..], sep);
  }

  lemma AppendAssoc(a: string, b: string, c: string)
    ensures (a + b) + c == a + (b + c)
  {
  }

  lemma {:induction false} DropSkipsRun(s: string, run: nat, sep: Separator)
    requires run <= |s|
    requires forall i :: 0 <= i < run ==> IsSep(sep, s[i])
    ensures DropSeparators(s, sep) == DropSeparators(s[run..], sep)
    decreases run
  {
    if run > 0 {
      assert s[1..][run - 1..] == s[run..];
      DropSkipsRun(s[1..], run - 1, sep);
    }
  }

  /** The concatenation of a sequence of strings. */
  function Concat(parts: seq<string>): string
  {
    if |parts| == 0 then "" else parts[0] + Concat(parts[1..])
  }

  lemma ConcatCons(p: string, rest: seq<string>)
    ensures Concat([p] + rest) == p + Concat(rest)
  {
    assert ([p] + rest)[1..] == rest;
  }

  /** Joining the pieces of `Split(s, c)` with `c` gives `s` back. */
  lemma {:induction false} JoinSplit(s: string, c: char)
    ensures Join(Split(s, c), [c]) == s
    decreases |s|
  {
    if |s| > 0 {
      var rest := Split(s[1..], c);
      JoinSplit(s[1..], c);
      if s[0] == c {
        assert Split(s, c) == [""] + rest;
        assert ([""] + rest)[1..] == rest;
      } else {
        assert Split(s, c) == [[s[0]] + rest[0]] + rest[1..];
        JoinPrependHead([s[0]], rest, [c]);
      }
    }
  }

  /** Prepending `h` to the first piece prepends `h` to the joined string. */
  lemma JoinPrependHead(h: string, parts: seq<string>, sep: string)
    requires |parts| >= 1
    ensures Join([h + parts[0]] + parts[1..], sep) == h + Join(parts, sep)
  {
    var ps := [h + parts[0]] + parts[1..];
    if |parts| > 1 {
      assert ps[1..] == parts[1..];
    }
  }

  /** Splitting a string whose first piece `p` holds no separator peels `p` off. */
  lemma {:induction false} SplitPrefix(p: string, t: string, c: char)
    requires c !in p
    ensures Split(p + t, c) == [p + Split(t, c)[0]] + Split(t, c)[1..]
    decreases |p|
  {
    if |p| > 0 {
      var s := p + t;
      assert s[1..] == p[1..] + t;
      SplitPrefix(p[1..], t, c);
      var rest := Split(s[1..], c);
      assert s[0] == p[0] && s[0] != c;
      assert [p[0]] + (p[1..] + Split(t, c)[0]) == p + Split(t, c)[0];
    } else {
      assert p == "" && p + t == t;
      var r := Split(t, c);
      assert p + r[0] == r[0];
      assert r == [r[0]] + r[1..];
    }
  }

  /** Splitting pieces joined with a separator they do not contain gives the
      pieces back. */
  lemma {:induction false} SplitJoin(parts: seq<string>, c: char)
    requires |parts| >= 1
    requires forall i :: 0 <= i < |parts| ==> c !in parts[i]
    ensures Split(Join(parts, [c]), c) == parts
    decreases |parts|
  {
    if |parts| == 1 {
      SplitPrefix(parts[0], "", c);
      assert parts[0] + "" == parts[0];
    } else {
      var j := Join(parts[1..], [c]);
      SplitJoin(parts[1..], c);
      assert Join(parts, [c]) == parts[0] + ([c] + j);
      SplitPrefix(parts[0], [c] + j, c);
      assert ([c] + j)[1..] == j;
      assert Split([c] + j, c) == [""] + Split(j, c);
      assert parts[0] + "" == parts[0];
      assert parts == [parts[0]] + parts[1..];
    }
  }

  /** Joining `a + b` is joining `a`, the separator, and joining `b`. */
  lemma {:induction false} JoinAppend(a: seq<string>, b: seq<string>, sep: string)
    requires |a| >= 1 && |b| >= 1
    ensures Join(a + b, sep) == Join(a, sep) + sep + Join(b, sep)
    decreases |a|
  {
    if |a| == 1 {
      assert (a + b)[1..] == b;
    } else {
      assert (a + b)[1..] == a[1..] + b;
      JoinAppend(a[1..], b, sep);
    }
  }

  // ---------------------------------------------------------------------
  // What `SplitRuns` splits at
  // ---------------------------------------------------------------------

  /** `g` is a run of at least `minRun` separator characters. */
  predicate IsRun(g: string, sep: Separator, minRun: nat)
  {
    |g| >= minRun && forall j :: 0 <= j < |g| ==> IsSep(sep, g[j])
  }

  /** The separator runs `SplitRuns(s, sep, minRun)` splits at, in order. */
  function SplitGaps(s: string, sep: Separator, minRun: nat): (gaps: seq<string>)
    requires minRun >= 1
    ensures forall i :: 0 <= i < |gaps| ==> IsRun(gaps[i], sep, minRun)
    decreases |s|
  {
    if |s| == 0 then []
    else
      var run := LeadingRun(s, sep);
      if run >= minRun then [s[..run]] + SplitGaps(s[run..], sep, minRun)
      else SplitGaps(s[1..], sep, minRun)
  }

  /** The pieces with the runs between them put back:
      `parts[0] + gaps[0] + parts[1] + gaps[1] + … + parts[|gaps|]`. */
  function Weave(parts: seq<string>, gaps: seq<string>): string
    requires |parts| == |gaps| + 1
    decreases |gaps|
  {
    if |gaps| == 0 then parts[0] else parts[0] + gaps[0] + Weave(parts[1..], gaps[1..])
  }

  /** Prepending `h` to the first piece prepends `h` to the woven string. */
  lemma WeavePrependHead(h: string, parts: seq<string>, gaps: seq<string>)
    requires |parts| == |gaps| + 1
    ensures Weave([h + parts[0]] + parts[1..], gaps) == h + Weave(parts, gaps)
  {
    var ps := [h + parts[0]] + parts[1..];
    if |gaps| > 0 {
      assert ps[1..] == parts[1..];
    }
  }

  /** Nothing is lost by the split: the pieces, with the runs they were
      split at put back between them, give `s` again. */
  lemma {:induction false} SplitRunsWeave(s: string, sep: Separator, minRun: nat)
    requires minRun >= 1
    ensures |SplitRuns(s, sep, minRun)| == |SplitGaps(s, sep, minRun)| + 1
    ensures Weave(SplitRuns(s, sep, minRun), SplitGaps(s, sep, minRun)) == s
    decreases |s|
  {
    if |s| == 0 {
    } else if LeadingRun(s, sep) >= minRun {
      SplitRunsWeave(s[LeadingRun(s, sep)..], sep, minRun);
      WeaveSkipStep(s, sep, minRun);
    } else {
      SplitRunsWeave(s[1..], sep, minRun);
      WeaveKeepStep(s, sep, minRun);
    }
  }

  /** A leading run becomes an empty piece followed by that run. */
  lemma WeaveSkipStep(s: string, sep: Separator, minRun: nat)
    requires minRun >= 1 && |s| > 0 && LeadingRun(s, sep) >= minRun
    requires var t := s[LeadingRun(s, sep)..];
      |SplitRuns(t, sep, minRun)| == |SplitGaps(t, sep, minRun)| + 1
      && Weave(SplitRuns(t, sep, minRun), SplitGaps(t, sep, minRun)) == t
    ensures |SplitRuns(s, sep, minRun)| == |SplitGaps(s, sep, minRun)| + 1
    ensures Weave(SplitRuns(s, sep, minRun), SplitGaps(s, sep, minRun)) == s
  {
    var run := LeadingRun(s, sep);
    SkipShape(s, sep, minRun);
    WeaveEmptyHead(s[..run], SplitRuns(s[run..], sep, minRun), SplitGaps(s[run..], sep, minRun));
    assert s[..run] + s[run..] == s;
  }

  /** A leading character that starts no long run begins the first piece. */
  lemma KeepShape(s: string, sep: Separator, minRun: nat)
    requires minRun >= 1 && |s| > 0 && LeadingRun(s, sep) < minRun
    ensures SplitRuns(s, sep, minRun) == [[s[0]] + SplitRuns(s[1..], sep, minRun)[0]] + SplitRuns(s[1..], sep, minRun)[1..]
  {
  }

  /** Joining after an empty first piece starts with the separator. */
  lemma JoinEmptyHead(parts: seq<string>, sep: string)
    requires |parts| >= 1
    ensures Join([""] + parts, sep) == sep + Join(parts, sep)
  {
    var ps := [""] + parts;
    assert ps[1..] == parts;
    assert "" + sep == sep;
  }

  /** A leading long run gives an empty first piece and is the first gap. */
  lemma SkipShape(s: string, sep: Separator, minRun: nat)
    requires minRun >= 1 && |s| > 0 && LeadingRun(s, sep) >= minRun
    ensures SplitRuns(s, sep, minRun) == [""] + SplitRuns(s[LeadingRun(s, sep)..], sep, minRun)
    ensures SplitGaps(s, sep, minRun) == [s[..LeadingRun(s, sep)]] + SplitGaps(s[LeadingRun(s, sep)..], sep, minRun)
  {
  }

  /** An empty first piece followed by the run `g` puts `g` first. */
  lemma WeaveEmptyHead(g: string, parts: seq<string>, gaps: seq<string>)
    requires |parts| == |gaps| + 1
    ensures Weave([""] + parts, [g] + gaps) == g + Weave(parts, gaps)
  {
    var ps := [""] + parts;
    var gs := [g] + gaps;
    assert ps[0] == "" && gs[0] == g;
    assert ps[1..] == parts && gs[1..] == gaps;
    assert Weave(ps, gs) == ps[0] + gs[0] + Weave(ps[1..], gs[1..]);
    assert "" + g == g;
  }

  /** A leading character that starts no long run is the first character
      of the first piece. */
  lemma WeaveKeepStep(s: string, sep: Separator, minRun: nat)
    requires minRun >= 1 && |s| > 0 && LeadingRun(s, sep) < minRun
    requires |SplitRuns(s[1..], sep, minRun)| == |SplitGaps(s[1..], sep, minRun)| + 1
    requires Weave(SplitRuns(s[1..], sep, minRun), SplitGaps(s[1..], sep, minRun)) == s[1..]
    ensures |SplitRuns(s, sep, minRun)| == |SplitGaps(s, sep, minRun)| + 1
    ensures Weave(SplitRuns(s, sep, minRun), SplitGaps(s, sep, minRun)) == s
  {
    var ps := SplitRuns(s[1..], sep, minRun);
    assert SplitRuns(s, sep, minRun) == [[s[0]] + ps[0]] + ps[1..];
    assert SplitGaps(s, sep, minRun) == SplitGaps(s[1..], sep, minRun);
    WeavePrependHead([s[0]], ps, SplitGaps(s[1..], sep, minRun));
    assert [s[0]] + s[1..] == s;
  }

  /** The first piece is where `s` starts, and a second piece means a run
      of at least `minRun` separators follows the first. */
  lemma {:induction false} SplitRunsFirst(s: string, sep: Separator, minRun: nat)
    requires minRun >= 1
    ensures |SplitRuns(s, sep, minRun)[0]| <= |s|
    ensures SplitRuns(s, sep, minRun)[0] == s[..|SplitRuns(s, sep, minRun)[0]|]
    ensures |SplitRuns(s, sep, minRun)| > 1 ==> LeadingRun(s[|SplitRuns(s, sep, minRun)[0]|..], sep) >= minRun
    decreases |s|
  {
    if |s| > 0 && LeadingRun(s, sep) < minRun {
      var ps := SplitRuns(s[1..], sep, minRun);
      SplitRunsFirst(s[1..], sep, minRun);
      var h := [s[0]] + ps[0];
      assert SplitRuns(s, sep, minRun) == [h] + ps[1..];
      assert s[..|h|] == [s[0]] + s[1..][..|ps[0]|];
      assert s[|h|..] == s[1..][|ps[0]|..];
    }
  }

  /** `p` holds no run of `minRun` separator characters: no position of
      `p` starts one (`NoLongRunAt`). */
  predicate NoLongRun(p: string, sep: Separator, minRun: nat)
    decreases |p|
  {
    LeadingRun(p, sep) < minRun && (|p| == 0 || NoLongRun(p[1..], sep, minRun))
  }

  /** No position of a string without a long run starts one. */
  lemma {:induction false} NoLongRunAt(p: string, j: nat, sep: Separator, minRun: nat)
    requires j <= |p| && NoLongRun(p, sep, minRun)
    ensures LeadingRun(p[j..], sep) < minRun
    decreases j
  {
    if j > 0 {
      NoLongRunAt(p[1..], j - 1, sep, minRun);
      assert p[1..][j - 1..] == p[j..];
    }
  }

  /** A prefix of a string without a long run has none either. */
  lemma {:induction false} NoLongRunPrefix(p: string, k: nat, sep: Separator, minRun: nat)
    requires k <= |p| && NoLongRun(p, sep, minRun)
    ensures NoLongRun(p[..k], sep, minRun)
    decreases k
  {
    LeadingRunPrefix(p[..k], p, sep);
    if k > 0 {
      NoLongRunPrefix(p[1..], k - 1, sep, minRun);
      assert p[..k][1..] == p[1..][..k - 1];
    }
  }

  /** A suffix of a string without a long run has none either. */
  lemma {:induction false} NoLongRunSuffix(p: string, k: nat, sep: Separator, minRun: nat)
    requires k <= |p| && NoLongRun(p, sep, minRun)
    ensures NoLongRun(p[k..], sep, minRun)
    decreases k
  {
    if k > 0 {
      NoLongRunSuffix(p[1..], k - 1, sep, minRun);
      assert p[1..][k - 1..] == p[k..];
    }
  }

  /** A prefix has no longer a leading run than the whole string. */
  lemma {:induction false} LeadingRunPrefix(p: string, s: string, sep: Separator)
    requires |p| <= |s| && p == s[..|p|]
    ensures LeadingRun(p, sep) <= LeadingRun(s, sep)
    decreases |p|
  {
    if |p| > 0 && IsSep(sep, p[0]) {
      LeadingRunPrefix(p[1..], s[1..], sep);
    }
  }

  /** No piece of `ps` holds a run of `minRun` separator characters. */
  predicate PiecesNoLongRun(ps: seq<string>, sep: Separator, minRun: nat)
  {
    forall i :: 0 <= i < |ps| ==> NoLongRun(ps[i], sep, minRun)
  }

  /** Every run of `minRun` or more separators is split at: no piece
      holds one. */
  lemma {:induction false} SplitRunsNoLongRun(s: string, sep: Separator, minRun: nat)
    requires minRun >= 1
    ensures PiecesNoLongRun(SplitRuns(s, sep, minRun), sep, minRun)
    decreases |s|
  {
    if |s| == 0 {
      NoLongRunEmpty(sep, minRun);
      assert SplitRuns(s, sep, minRun) == [""];
    } else if LeadingRun(s, sep) >= minRun {
      SplitRunsNoLongRun(s[LeadingRun(s, sep)..], sep, minRun);
      NoLongRunSkipStep(s, sep, minRun);
    } else {
      SplitRunsNoLongRun(s[1..], sep, minRun);
      NoLongRunKeepStep(s, sep, minRun);
    }
  }

  /** A leading long run adds an empty piece, which holds no run. */
  lemma NoLongRunSkipStep(s: string, sep: Separator, minRun: nat)
    requires minRun >= 1 && |s| > 0 && LeadingRun(s, sep) >= minRun
    requires PiecesNoLongRun(SplitRuns(s[LeadingRun(s, sep)..], sep, minRun), sep, minRun)
    ensures PiecesNoLongRun(SplitRuns(s, sep, minRun), sep, minRun)
  {
    var ps := SplitRuns(s[LeadingRun(s, sep)..], sep, minRun);
    var all := SplitRuns(s, sep, minRun);
    assert all == [""] + ps;
    NoLongRunEmpty(sep, minRun);
    forall i | 0 < i < |all| ensures NoLongRun(all[i], sep, minRun) {
      assert all[i] == ps[i - 1];
    }
  }

  /** A leading character that starts no long run joins the first piece
      without making one. */
  lemma NoLongRunKeepStep(s: string, sep: Separator, minRun: nat)
    requires minRun >= 1 && |s| > 0 && LeadingRun(s, sep) < minRun
    requires PiecesNoLongRun(SplitRuns(s[1..], sep, minRun), sep, minRun)
    ensures PiecesNoLongRun(SplitRuns(s, sep, minRun), sep, minRun)
  {
    var ps := SplitRuns(s[1..], sep, minRun);
    var all := SplitRuns(s, sep, minRun);
    SplitRunsFirst(s[1..], sep, minRun);
    assert all == [[s[0]] + ps[0]] + ps[1..];
    NoLongRunHead(s, ps[0], sep, minRun);
    forall i | 0 < i < |all| ensures NoLongRun(all[i], sep, minRun) {
      assert all[i] == ps[i];
    }
  }

  lemma NoLongRunEmpty(sep: Separator, minRun: nat)
    requires minRun >= 1
    ensures NoLongRun("", sep, minRun)
  {
  }

  /** A first piece extended by the character before it keeps no long
      run, when that character does not start one. */
  lemma NoLongRunHead(s: string, p: string, sep: Separator, minRun: nat)
    requires |s| > 0 && LeadingRun(s, sep) < minRun
    requires |p| <= |s| - 1 && p == s[1..][..|p|]
    requires NoLongRun(p, sep, minRun)
    ensures NoLongRun([s[0]] + p, sep, minRun)
  {
    var h := [s[0]] + p;
    assert h == s[..|h|];
    LeadingRunPrefix(h, s, sep);
    assert h[1..] == p;
  }

  /** The runs the pieces `ps` were split at are maximal: a piece after a
      run does not start with a separator, a piece before a run does not
      end with one, and a piece between two runs is not empty. */
  predicate PiecesMaximal(ps: seq<string>, sep: Separator)
  {
    && (forall i :: 0 < i < |ps| ==> ps[i] == "" || !IsSep(sep, ps[i][0]))
    && (forall i :: 0 <= i < |ps| - 1 ==> ps[i] == "" || !IsSep(sep, ps[i][|ps[i]| - 1]))
    && (forall i :: 0 < i < |ps| - 1 ==> ps[i] != "")
  }

  /** `SplitRuns` splits at maximal runs only. */
  lemma {:induction false} SplitRunsMaximal(s: string, sep: Separator, minRun: nat)
    requires minRun >= 1
    ensures PiecesMaximal(SplitRuns(s, sep, minRun), sep)
    decreases |s|
  {
    if |s| == 0 {
      assert SplitRuns(s, sep, minRun) == [""];
    } else if LeadingRun(s, sep) >= minRun {
      SplitRunsMaximal(s[LeadingRun(s, sep)..], sep, minRun);
      MaximalSkipStep(s, sep, minRun);
    } else {
      SplitRunsMaximal(s[1..], sep, minRun);
      MaximalKeepStep(s, sep, minRun);
    }
  }

  /** After a leading run, the next piece starts with no separator and is
      empty only when it is the last. */
  lemma MaximalSkipStep(s: string, sep: Separator, minRun: nat)
    requires minRun >= 1 && |s| > 0 && LeadingRun(s, sep) >= minRun
    requires PiecesMaximal(SplitRuns(s[LeadingRun(s, sep)..], sep, minRun), sep)
    ensures PiecesMaximal(SplitRuns(s, sep, minRun), sep)
  {
    var t := s[LeadingRun(s, sep)..];
    var ps := SplitRuns(t, sep, minRun);
    var all := SplitRuns(s, sep, minRun);
    SplitRunsFirst(t, sep, minRun);
    assert all == [""] + ps;
    assert ps[0] == "" || !IsSep(sep, ps[0][0]) by {
      if ps[0] != "" {
        assert ps[0][0] == t[0];
      }
    }
    assert t[0..] == t;
    assert LeadingRun(t, sep) == 0;
    assert |ps| > 1 ==> ps[0] != "";
    forall i | 0 < i < |all| ensures all[i] == ps[i - 1] { }
  }

  /** A leading character that starts no long run is not a separator
      when a run follows it directly. */
  lemma MaximalKeepStep(s: string, sep: Separator, minRun: nat)
    requires minRun >= 1 && |s| > 0 && LeadingRun(s, sep) < minRun
    requires PiecesMaximal(SplitRuns(s[1..], sep, minRun), sep)
    ensures PiecesMaximal(SplitRuns(s, sep, minRun), sep)
  {
    var ps := SplitRuns(s[1..], sep, minRun);
    assert SplitRuns(s, sep, minRun) == [[s[0]] + ps[0]] + ps[1..];
    if |ps| > 1 && ps[0] == "" {
      RunAfterEmptyPiece(s[1..], sep, minRun);
    }
    MaximalCons(s[0], ps, sep);
  }

  /** Prepending a character to the first piece keeps the pieces maximal
      when that character is no separator or the first piece stays
      followed by nothing. */
  lemma MaximalCons(c: char, ps: seq<string>, sep: Separator)
    requires |ps| >= 1 && PiecesMaximal(ps, sep)
    requires |ps| > 1 && ps[0] == "" ==> !IsSep(sep, c)
    ensures PiecesMaximal([[c] + ps[0]] + ps[1..], sep)
  {
    var h := [c] + ps[0];
    var all := [h] + ps[1..];
    assert h[|h| - 1] == if ps[0] == "" then c else ps[0][|ps[0]| - 1];
    assert forall i :: 0 < i < |all| ==> all[i] == ps[i];
  }

  /** An empty first piece followed by others means `s` starts with a
      long run. */
  lemma RunAfterEmptyPiece(s: string, sep: Separator, minRun: nat)
    requires minRun >= 1
    requires |SplitRuns(s, sep, minRun)| > 1 && SplitRuns(s, sep, minRun)[0] == ""
    ensures LeadingRun(s, sep) >= minRun
  {
    SplitRunsFirst(s, sep, minRun);
    assert s[0..] == s;
  }
}

=== FILE: jsvalue.dfy ===
/** JavaScript values as the front end sees them after `JSON.parse` and
    property reads: truthiness, property access, the `||` operator, and the
    `Number(...)` / `parseFloat(...)` coercions of arbitrary values. */
module JsValue {
  import opened JsString
  import opened JsNumber

  /** A JavaScript value.  `JUndefined` is what reading a missing property
      gives; the other cases are the six JSON value kinds. */
  datatype Value =
    | JUndefined
    | JNull
    | JBool(b: bool)
    | JNum(n: Num)
    | JStr(s: string)
    | JArr(items: seq<Value>)
    | JObj(fields: map<string, Value>)

  /** What `JSON.parse` does with its argument: a value, or a thrown
      SyntaxError. */
  datatype ParseOutcome = Parsed(value: Value) | SyntaxError

  /** JavaScript truthiness: `undefined`, `null`, `false`, `0`, `NaN` and
      `""` are falsy; everything else, empty arrays and objects included, is
      truthy. */
  predicate Truthy(v: Value)
  {
    match v
    case JUndefined => false
    case JNull => false
    case JBool(b) => b
    case JNum(n) => n.Inf? || (n.Fin? && n.x != 0.0)
    case JStr(s) => s != ""
    case JArr(_) => true
    case JObj(_) => true
  }

  /** `null` or `undefined`: reading a property of one throws a TypeError,
      and `?.` short-circuits on one. */
  predicate Nullish(v: Value)
  {
    v.JUndefined? || v.JNull?
  }

  /** `v[key]` on a value that is not nullish.  Only objects have the
      property names this model reads; on any other value they are
      `undefined`. */
  function Get(v: Value, key: string): Value
  {
    match v
    case JObj(m) => if key in m then m[key] else JUndefined
    case _ => JUndefined
  }

  /** `typeof v === 'object' && v`: a (truthy) array or object. */
  predicate IsObjectLike(v: Value)
  {
    v.JArr? || v.JObj?
  }

  /** `a || b`. */
  function Or(a: Value, b: Value): Value
  {
    if Truthy(a) then a else b
  }

  /** `vs[0] || vs[1] || ... || vs[n-1]`: the first truthy operand, or the
      last operand when none is truthy. */
  function Chain(vs: seq<Value>): (r: Value)
    requires |vs| >= 1
    ensures forall i :: 0 <= i < |vs| && Truthy(vs[i]) && (forall j :: 0 <= j < i ==> !Truthy(vs[j])) ==> r == vs[i]
    ensures (forall i :: 0 <= i < |vs| ==> !Truthy(vs[i])) ==> r == vs[|vs| - 1]
  {
    if |vs| == 1 || Truthy(vs[0]) then vs[0]
    else
      var r := Chain(vs[1..]);
      assert forall i :: 1 <= i < |vs| ==> vs[1..][i - 1] == vs[i];
      r
  }

  /** A chain is truthy exactly when one of its operands is. */
  lemma {:induction false} ChainTruthy(vs: seq<Value>)
    requires |vs| >= 1
    ensures Truthy(Chain(vs)) <==> exists i :: 0 <= i < |vs| && Truthy(vs[i])
    decreases |vs|
  {
    if |vs| > 1 && !Truthy(vs[0]) {
      ChainTruthy(vs[1..]);
      if exists i :: 0 <= i < |vs| && Truthy(vs[i]) {
        var i :| 0 <= i < |vs| && Truthy(vs[i]);
        assert vs[1..][i - 1] == vs[i];
      }
    }
  }

  /** `a || b`, case by case. */
  lemma ChainOfTwo(a: Value, b: Value)
    ensures Chain([a, b]) == if Truthy(a) then a else b
  {
    assert [a, b][1..] == [b];
  }

  /** `a || b || c`, case by case. */
  lemma ChainOfThree(a: Value, b: Value, c: Value)
    ensures Chain([a, b, c]) == if Truthy(a) then a else if Truthy(b) then b else c
  {
    assert [a, b, c][1..] == [b, c];
    ChainOfTwo(b, c);
  }

  /** A chain ending in `undefined` yields a truthy value or `undefined`:
      the shape of every `a || b || undefined` in the source. */
  lemma ChainToUndefined(vs: seq<Value>)
    requires |vs| >= 1 && vs[|vs| - 1] == JUndefined
    ensures Truthy(Chain(vs)) || Chain(vs) == JUndefined
  {
    if !Truthy(Chain(vs)) {
      ChainTruthy(vs);
    }
  }

  /** `Number(v)`, the ToNumber coercion of a JSON value.  Arrays convert
      through their string form: `[]` is 0, `[x]` is the number of `x`'s
      string form, and a longer array contains a comma and so is NaN.
      Objects read as `"[object Object]"`, hence NaN. */
  function ToNumber(v: Value): Num
  {
    match v
    case JUndefined => NaN
    case JNull => Fin(0.0)
    case JBool(b) => Fin(if b then 1.0 else 0.0)
    case JNum(n) => n
    case JStr(s) => StringToNumber(s)
    case JObj(_) => NaN
    case JArr(items) =>
      if |items| == 0 then Fin(0.0)
      else if |items| >= 2 then NaN
      else SoleElementToNumber(items[0])
  }

  /** The number of the string form of an array's only element: `null` and
      `undefined` print as the empty string there (so 0), booleans as
      `true`/`false` (so NaN). */
  function SoleElementToNumber(e: Value): Num
  {
    match e
    case JUndefined => Fin(0.0)
    case JNull => Fin(0.0)
    case JBool(_) => NaN
    case JNum(n) => n
    case JStr(s) => StringToNumber(s)
    case JObj(_) => NaN
    case JArr(inner) =>
      if |inner| == 0 then Fin(0.0)
      else if |inner| >= 2 then NaN
      else SoleElementToNumber(inner[0])
  }

  /** `parseFloat(v)` for any value: `parseFloat` reads the longest numeric
      prefix of the value's string form.  A number prints in a form that
      reads back as itself; `null`, `undefined`, booleans and objects print
      as words (NaN); an array prints as its elements joined by commas, and
      a comma ends any numeric prefix, so only its first element counts. */
  function ParseFloatValue(v: Value): Num
  {
    match v
    case JNum(n) => n
    case JStr(s) => ParseFloat(s)
    case JArr(items) => if |items| == 0 then NaN else ParseFloatValue(items[0])
    case _ => NaN
  }
}

=== FILE: normalizer.dfy ===
/** The document normaliser of the search service (`extractDocumentData`):
    it turns one stored document (`_source`) into the display fields of a
    search result.  The document's `raw_content` is a JSON text whose
    payload supplies the title, link, summary, images, location and price;
    when that cannot be read, the fields come from the document's own
    top-level fields instead.

    `JSON.parse` is a parameter `parse`.  A JavaScript exception is modelled
    as a `None` or `Interrupted` outcome at the exact point where the
    original code throws. */
module Normalizer {
  import opened Wrappers
  import opened JsString
  import opened JsNumber
  import opened JsValue

  /** The three image references of a result. */
  datatype Images = Images(imageUrl: Value, imageBase64: Value, thumbnailUrl: Value)

  /** A latitude/longitude pair, in that order. */
  type LatLon = (Num, Num)

  /** The display fields of one result.  Field values are whatever the
      document held (a non-string title stays what it was); `None` and
      `JUndefined` stand for a field left `undefined`. */
  datatype DocFields = DocFields(
    title: Value,
    url: Value,
    snippet: Value,
    images: Images,
    latitude: Option<Num>,
    longitude: Option<Num>,
    address: Value,
    country: Value,
    coordinates: Option<LatLon>,
    price: Option<Num>,
    currency: Value)

  /** The position fields agree with each other and no price is NaN: what
      every normalised document satisfies. */
  predicate Consistent(d: DocFields)
  {
    && (d.coordinates.Some? <==> d.latitude.Some?)
    && (d.coordinates.Some? <==> d.longitude.Some?)
    && (d.coordinates.Some? ==>
          d.latitude.value == d.coordinates.value.0 && d.longitude.value == d.coordinates.value.1)
    && (d.price.Some? ==> d.price.value != NaN)
  }

  // ---------------------------------------------------------------------
  // Reading the payload

  /** `JSON.parse(source.raw_content || '{}')` on a non-nullish document:
      a falsy `raw_content` reads as the empty object. */
  function Payload(source: Value, parse: Value -> ParseOutcome): (r: ParseOutcome)
    ensures Truthy(Get(source, "raw_content")) ==> r == parse(Get(source, "raw_content"))
    ensures !Truthy(Get(source, "raw_content")) ==> r == Parsed(JObj(map[]))
  {
    var raw := Get(source, "raw_content");
    if Truthy(raw) then parse(raw) else Parsed(JObj(map[]))
  }

  /** `v?.substring(0, 200) + '...'`: an excerpt of at most 200 characters
      followed by an ellipsis.  On a nullish `v` the optional chain yields
      `undefined`, which concatenates as the text "undefined"; on any other
      non-string the call of the missing `substring` method throws (`None`). */
  function Excerpt(v: Value): (r: Option<string>)
    ensures r.Some? <==> Nullish(v) || v.JStr?
    ensures Nullish(v) ==> r == Some("undefined...")
    ensures v.JStr? ==>
      && |r.value| <= 203
      && EndsWith(r.value, "...")
      && r.value[..|r.value| - 3] <= v.s
      && (|v.s| <= 200 ==> r.value == v.s + "...")
      && (|v.s| > 200 ==> r.value == v.s[..200] + "...")
  {
    match v
    case JUndefined => Some("undefined...")
    case JNull => Some("undefined...")
    case JStr(s) =>
      var e := Take(s, 200) + "...";
      assert e[..|e| - 3] == Take(s, 200);
      assert e[|e| - 3..] == "...";
      Some(e)
    case _ => None
  }

  /** The title: the payload's, else the document's file name, else
      "Untitled". */
  function Title(payload: Value, source: Value): (r: Value)
    ensures Truthy(r)
    ensures Truthy(Get(payload, "title")) ==> r == Get(payload, "title")
    ensures !Truthy(Get(payload, "title")) && Truthy(Get(source, "file_name")) ==> r == Get(source, "file_name")
    ensures !Truthy(Get(payload, "title")) && !Truthy(Get(source, "file_name")) ==> r == JStr("Untitled")
  {
    var vs := [Get(payload, "title"), Get(source, "file_name"), JStr("Untitled")];
    assert vs[1] == Get(source, "file_name") && vs[2] == JStr("Untitled");
    Chain(vs)
  }

  /** The link: the payload's `url`, else "#". */
  function Url(payload: Value): (r: Value)
    ensures Truthy(r)
    ensures Truthy(Get(payload, "url")) ==> r == Get(payload, "url")
    ensures !Truthy(Get(payload, "url")) ==> r == JStr("#")
  {
    Or(Get(payload, "url"), JStr("#"))
  }

  /** The snippet: the payload's `summary`, else an excerpt of its
      `full_text`.  That excerpt is never falsy (a missing `full_text` gives
      "undefined..."), so the document's `content` and the empty-string
      fallback written after it are never reached.  A `full_text` that is
      neither nullish nor a string makes the excerpt throw (`None`). */
  function PayloadSnippet(payload: Value): (r: Option<Value>)
    ensures r.Some? ==> Truthy(r.value)
    ensures r.None? <==> !Truthy(Get(payload, "summary")) && Excerpt(Get(payload, "full_text")).None?
    ensures Truthy(Get(payload, "summary")) ==> r == Some(Get(payload, "summary"))
    ensures !Truthy(Get(payload, "summary")) && Excerpt(Get(payload, "full_text")).Some? ==>
      r == Some(JStr(Excerpt(Get(payload, "full_text")).value))
  {
    var summary := Get(payload, "summary");
    if Truthy(summary) then Some(summary)
    else
      match Excerpt(Get(payload, "full_text"))
      case Some(e) => Some(JStr(e))
      case None => None
  }

  // ---------------------------------------------------------------------
  // Images

  /** None of the payload's single image fields is truthy, so the image
      URL is looked for in its `images` array. */
  predicate NoSingleImage(payload: Value)
  {
    && !Truthy(Get(payload, "image_url"))
    && !Truthy(Get(payload, "thumbnail"))
    && !Truthy(Get(payload, "thumbnail_url"))
  }

  /** The image references come from an object at the head of the
      payload's `images` array. */
  predicate ObjectFirstImage(payload: Value)
  {
    NoSingleImage(payload) && FirstImage(payload).Some? && IsObjectLike(FirstImage(payload).value)
  }

  /** The image references the payload itself gives: single fields first;
      when they give no image URL, the first element of an `images` array,
      either a URL string or an object with `url`/`src`/`href`,
      `base64`/`data` and `thumbnail`/`thumb`. */
  function PayloadImages(payload: Value): (r: Images)
    // the image URL: `image_url`, `thumbnail`, `thumbnail_url`, then the list
    ensures Truthy(Get(payload, "image_url")) ==> r.imageUrl == Get(payload, "image_url")
    ensures !Truthy(Get(payload, "image_url")) && Truthy(Get(payload, "thumbnail")) ==> r.imageUrl == Get(payload, "thumbnail")
    ensures !Truthy(Get(payload, "image_url")) && !Truthy(Get(payload, "thumbnail")) && Truthy(Get(payload, "thumbnail_url")) ==>
      r.imageUrl == Get(payload, "thumbnail_url")
    ensures NoSingleImage(payload) && FirstImage(payload).Some? && FirstImage(payload).value.JStr? ==>
      r.imageUrl == FirstImage(payload).value
    ensures ObjectFirstImage(payload) ==>
      r.imageUrl == Chain([Get(FirstImage(payload).value, "url"), Get(FirstImage(payload).value, "src"),
                           Get(FirstImage(payload).value, "href")])
    ensures NoSingleImage(payload) && (FirstImage(payload).None? || !(FirstImage(payload).value.JStr? || IsObjectLike(FirstImage(payload).value))) ==>
      r.imageUrl == JUndefined
    // the inline image: `image_base64`, then an object's `base64`/`data`
    ensures Truthy(Get(payload, "image_base64")) ==> r.imageBase64 == Get(payload, "image_base64")
    ensures !Truthy(Get(payload, "image_base64")) && !ObjectFirstImage(payload) ==> r.imageBase64 == JUndefined
    ensures !Truthy(Get(payload, "image_base64")) && ObjectFirstImage(payload) ==>
      r.imageBase64 == Or(Get(FirstImage(payload).value, "base64"), Get(FirstImage(payload).value, "data"))
    // the thumbnail: `thumbnail`, `thumbnail_url`, then an object's `thumbnail`/`thumb`
    ensures Truthy(Get(payload, "thumbnail")) ==> r.thumbnailUrl == Get(payload, "thumbnail")
    ensures !Truthy(Get(payload, "thumbnail")) && Truthy(Get(payload, "thumbnail_url")) ==> r.thumbnailUrl == Get(payload, "thumbnail_url")
    ensures !Truthy(Get(payload, "thumbnail")) && !Truthy(Get(payload, "thumbnail_url")) && !ObjectFirstImage(payload) ==>
      r.thumbnailUrl == JUndefined
    ensures ObjectFirstImage(payload) ==>
      r.thumbnailUrl == Or(Get(FirstImage(payload).value, "thumbnail"), Get(FirstImage(payload).value, "thumb"))
  {
    var single := [Get(payload, "image_url"), Get(payload, "thumbnail"), Get(payload, "thumbnail_url"), JUndefined];
    var url := Chain(single);
    var b64 := Or(Get(payload, "image_base64"), JUndefined);
    var thumbs := [Get(payload, "thumbnail"), Get(payload, "thumbnail_url"), JUndefined];
    var thumb := Chain(thumbs);
    assert single[1] == Get(payload, "thumbnail") && single[2] == Get(payload, "thumbnail_url");
    assert thumbs[1] == Get(payload, "thumbnail_url");
    ChainTruthy(single);
    ChainToUndefined(single);
    ChainToUndefined(thumbs);
    if Truthy(url) then Images(url, b64, thumb)
    else
      match FirstImage(payload)
      case None => Images(url, b64, thumb)
      case Some(first) =>
        if first.JStr? then Images(first, b64, thumb)
        else if IsObjectLike(first) then
          var b := [b64, Get(first, "base64"), Get(first, "data")];
          var t := [thumb, Get(first, "thumbnail"), Get(first, "thumb")];
          assert !Truthy(b64) ==> Chain(b) == Or(Get(first, "base64"), Get(first, "data")) by {
            if !Truthy(b64) {
              ChainAfterFalsy(b64, Get(first, "base64"), Get(first, "data"));
            }
          }
          ChainAfterFalsy(thumb, Get(first, "thumbnail"), Get(first, "thumb"));
          Images(Chain([Get(first, "url"), Get(first, "src"), Get(first, "href")]), Chain(b), Chain(t))
        else Images(url, b64, thumb)
  }

  /** `a || b || c` with a falsy `a` is `b || c`. */
  lemma ChainAfterFalsy(a: Value, b: Value, c: Value)
    requires !Truthy(a)
    ensures Chain([a, b, c]) == Or(b, c)
  {
    assert [a, b, c][1..] == [b, c];
    assert [b, c][1..] == [c];
  }

  /** The first element of the payload's `images`, when that is a non-empty
      array. */
  function FirstImage(payload: Value): (r: Option<Value>)
    ensures r.Some? <==> Get(payload, "images").JArr? && |Get(payload, "images").items| > 0
    ensures r.Some? ==> r.value == Get(payload, "images").items[0]
  {
    match Get(payload, "images")
    case JArr(items) => if |items| > 0 then Some(items[0]) else None
    case _ => None
  }

  /** The document's top-level image fields, used for each image reference
      that is still falsy. */
  function RootImages(img: Images, source: Value): (r: Images)
    ensures Truthy(img.imageUrl) ==> r.imageUrl == img.imageUrl
    ensures !Truthy(img.imageUrl) && Truthy(Get(source, "image_url")) ==> r.imageUrl == Get(source, "image_url")
    ensures !Truthy(img.imageUrl) && !Truthy(Get(source, "image_url")) && Truthy(Get(source, "thumbnail_url")) ==>
      r.imageUrl == Get(source, "thumbnail_url")
    ensures !Truthy(img.imageUrl) && !Truthy(Get(source, "image_url")) && !Truthy(Get(source, "thumbnail_url")) ==>
      r.imageUrl == Get(source, "imageUrl")
    ensures Truthy(img.imageBase64) ==> r.imageBase64 == img.imageBase64
    ensures !Truthy(img.imageBase64) && Truthy(Get(source, "image_base64")) ==> r.imageBase64 == Get(source, "image_base64")
    ensures !Truthy(img.imageBase64) && !Truthy(Get(source, "image_base64")) ==> r.imageBase64 == Get(source, "imageBase64")
    ensures Truthy(img.thumbnailUrl) ==> r.thumbnailUrl == img.thumbnailUrl
    ensures !Truthy(img.thumbnailUrl) && Truthy(Get(source, "thumbnail_url")) ==> r.thumbnailUrl == Get(source, "thumbnail_url")
    ensures !Truthy(img.thumbnailUrl) && !Truthy(Get(source, "thumbnail_url")) ==> r.thumbnailUrl == Get(source, "thumbnailUrl")
  {
    var u := [img.imageUrl, Get(source, "image_url"), Get(source, "thumbnail_url"), Get(source, "imageUrl")];
    var b := [img.imageBase64, Get(source, "image_base64"), Get(source, "imageBase64")];
    var t := [img.thumbnailUrl, Get(source, "thumbnail_url"), Get(source, "thumbnailUrl")];
    assert u[1] == Get(source, "image_url") && u[2] == Get(source, "thumbnail_url") && u[3] == Get(source, "imageUrl");
    assert b[1] == Get(source, "image_base64") && b[2] == Get(source, "imageBase64");
    assert t[1] == Get(source, "thumbnail_url") && t[2] == Get(source, "thumbnailUrl");
    Images(Chain(u), Chain(b), Chain(t))
  }

  /** The image references of the fallback path: top-level fields only. */
  function FallbackImages(source: Value): (r: Images)
    ensures Truthy(Get(source, "image_url")) ==> r.imageUrl == Get(source, "image_url")
    ensures !Truthy(Get(source, "image_url")) && Truthy(Get(source, "thumbnail_url")) ==> r.imageUrl == Get(source, "thumbnail_url")
    ensures !Truthy(Get(source, "image_url")) && !Truthy(Get(source, "thumbnail_url")) ==> r.imageUrl == Get(source, "imageUrl")
    ensures Truthy(Get(source, "image_base64")) ==> r.imageBase64 == Get(source, "image_base64")
    ensures !Truthy(Get(source, "image_base64")) ==> r.imageBase64 == Get(source, "imageBase64")
    ensures Truthy(Get(source, "thumbnail_url")) ==> r.thumbnailUrl == Get(source, "thumbnail_url")
    ensures !Truthy(Get(source, "thumbnail_url")) ==> r.thumbnailUrl == Get(source, "thumbnailUrl")
  {
    var u := [Get(source, "image_url"), Get(source, "thumbnail_url"), Get(source, "imageUrl")];
    var b := [Get(source, "image_base64"), Get(source, "imageBase64")];
    var t := [Get(source, "thumbnail_url"), Get(source, "thumbnailUrl")];
    assert u[1] == Get(source, "thumbnail_url") && u[2] == Get(source, "imageUrl");
    assert b[1] == Get(source, "imageBase64") && t[1] == Get(source, "thumbnailUrl");
    Images(Chain(u), Chain(b), Chain(t))
  }

  /** The fallback path picks exactly the images the payload path would
      pick for a payload without any image fields. */
  lemma FallbackImagesAreRootImages(source: Value)
    ensures FallbackImages(source) == RootImages(Images(JUndefined, JUndefined, JUndefined), source)
  {
    var a := [Get(source, "image_url"), Get(source, "thumbnail_url"), Get(source, "imageUrl")];
    assert ([JUndefined] + a)[1..] == a;
    var b := [Get(source, "image_base64"), Get(source, "imageBase64")];
    assert ([JUndefined] + b)[1..] == b;
    var c := [Get(source, "thumbnail_url"), Get(source, "thumbnailUrl")];
    assert ([JUndefined] + c)[1..] == c;
  }

  /** An image URL the payload provides is never replaced by a top-level
      field. */
  lemma PayloadImageWins(payload: Value, source: Value)
    requires Truthy(Get(payload, "image_url"))
    ensures RootImages(PayloadImages(payload), source).imageUrl == Get(payload, "image_url")
  {
  }

  // ---------------------------------------------------------------------
  // Location

  /** The raw latitude: `Lat`, else `lat`, else `latitude`. */
  function LatField(payload: Value): Value
  {
    Chain([Get(payload, "Lat"), Get(payload, "lat"), Get(payload, "latitude")])
  }

  /** The raw longitude: `Long`, else `long`, else `lng`, else `longitude`. */
  function LonField(payload: Value): Value
  {
    Chain([Get(payload, "Long"), Get(payload, "long"), Get(payload, "lng"), Get(payload, "longitude")])
  }

  /** The first two numbers of a `"lat Long"` text such as
      `"51.5, -0.12"`: the text split at runs of commas and white space,
      each piece read with `parseFloat`; both must be numbers. */
  function LatLongText(text: string): (r: Option<LatLon>)
    ensures r.Some? <==>
      && |SplitRuns(text, CommaOrSpace, 1)| >= 2
      && ParseFloat(SplitRuns(text, CommaOrSpace, 1)[0]) != NaN
      && ParseFloat(SplitRuns(text, CommaOrSpace, 1)[1]) != NaN
    ensures r.Some? ==>
      r.value == (ParseFloat(SplitRuns(text, CommaOrSpace, 1)[0]), ParseFloat(SplitRuns(text, CommaOrSpace, 1)[1]))
  {
    var parts := SplitRuns(text, CommaOrSpace, 1);
    if |parts| >= 2 && ParseFloat(parts[0]) != NaN && ParseFloat(parts[1]) != NaN then
      Some((ParseFloat(parts[0]), ParseFloat(parts[1])))
    else None
  }

  /** The coordinates, from the first source that applies: numeric
      latitude and longitude fields; else a `"lat Long"` string; else a
      `Coordinates` array of at least two entries.  Only the first
      applicable source is consulted, even when it yields nothing. */
  function Coordinates(payload: Value): (r: Option<LatLon>)
    ensures LatField(payload).JNum? && LonField(payload).JNum? ==>
      r == Some((LatField(payload).n, LonField(payload).n))
    ensures !(LatField(payload).JNum? && LonField(payload).JNum?) && r.Some? ==>
      r.value.0 != NaN && r.value.1 != NaN
    ensures !(LatField(payload).JNum? && LonField(payload).JNum?) && Get(payload, "lat Long").JStr? ==>
      r == LatLongText(Get(payload, "lat Long").s)
    ensures !(LatField(payload).JNum? && LonField(payload).JNum?) && !Get(payload, "lat Long").JStr? &&
            Get(payload, "Coordinates").JArr? && |Get(payload, "Coordinates").items| >= 2 ==>
      && (r.Some? <==> (ParseFloatValue(Get(payload, "Coordinates").items[0]) != NaN &&
                        ParseFloatValue(Get(payload, "Coordinates").items[1]) != NaN))
      && (r.Some? ==> r.value == (ParseFloatValue(Get(payload, "Coordinates").items[0]),
                                  ParseFloatValue(Get(payload, "Coordinates").items[1])))
    ensures r.Some? ==>
      || (LatField(payload).JNum? && LonField(payload).JNum?)
      || Get(payload, "lat Long").JStr?
      || (Get(payload, "Coordinates").JArr? && |Get(payload, "Coordinates").items| >= 2)
  {
    var lat := LatField(payload);
    var lon := LonField(payload);
    if lat.JNum? && lon.JNum? then Some((lat.n, lon.n))
    else if Get(payload, "lat Long").JStr? then LatLongText(Get(payload, "lat Long").s)
    else
      match Get(payload, "Coordinates")
      case JArr(items) =>
        if |items| >= 2 then
          var a := ParseFloatValue(items[0]);
          var b := ParseFloatValue(items[1]);
          if a != NaN && b != NaN then Some((a, b)) else None
        else None
      case _ => None
  }

  /** A latitude of exactly 0 under `Lat` or `lat` is falsy, so the `||`
      chain skips it: a document on the equator gets no coordinates from
      its numeric fields. */
  lemma EquatorLatitudeSkipped()
    ensures Coordinates(JObj(map["Lat" := JNum(Fin(0.0)), "Long" := JNum(Fin(10.0))])) == None
  {
    var m := map["Lat" := JNum(Fin(0.0)), "Long" := JNum(Fin(10.0))];
    assert m.Keys == {"Lat", "Long"};
    assert "lat" !in m && "latitude" !in m && "lat Long" !in m && "Coordinates" !in m;
    var p := JObj(m);
    assert LatField(p) == JUndefined by {
      assert Get(p, "Lat") == JNum(Fin(0.0));
      assert Get(p, "lat") == JUndefined && Get(p, "latitude") == JUndefined;
    }
    assert Get(p, "lat Long") == JUndefined && Get(p, "Coordinates") == JUndefined;
  }

  /** A `"lat Long"` string that holds no numbers still wins over the
      `Coordinates` array: a document whose text field is empty gets no
      coordinates, whatever the array holds. */
  lemma EmptyLatLongHidesArray(payload: Value)
    requires !(LatField(payload).JNum? && LonField(payload).JNum?)
    requires Get(payload, "lat Long") == JStr("")
    ensures Coordinates(payload) == None
  {
    assert SplitRuns("", CommaOrSpace, 1) == [""];
  }

  // ---------------------------------------------------------------------
  // Price and currency

  /** The price: absent when the payload has no `price`; otherwise a string
      is read with `parseFloat` after dropping every character other than
      digits, `.` and `-`, and any other value with `Number(...)`; a NaN
      result leaves the price absent. */
  function Price(payload: Value): (r: Option<Num>)
    ensures r.Some? ==> r.value != NaN
    ensures Get(payload, "price") == JUndefined ==> r == None
    ensures Get(payload, "price").JNum? && Get(payload, "price").n.Fin? ==> r == Some(Get(payload, "price").n)
    ensures Get(payload, "price").JStr? ==> r.Some? ==> r.value == ParseFloat(KeepNumeric(Get(payload, "price").s))
    ensures Get(payload, "price").JStr? ==> r.None? ==> ParseFloat(KeepNumeric(Get(payload, "price").s)) == NaN
    ensures Get(payload, "price") != JUndefined && !Get(payload, "price").JStr? ==>
      (r.Some? <==> ToNumber(Get(payload, "price")) != NaN) && (r.Some? ==> r.value == ToNumber(Get(payload, "price")))
  {
    var p := Get(payload, "price");
    if p == JUndefined then None
    else
      var n := if p.JStr? then ParseFloat(KeepNumeric(p.s)) else ToNumber(p);
      if n == NaN then None else Some(n)
  }

  /** A `null` price is not `undefined`, and `Number(null)` is 0: such a
      document is shown with a price of zero. */
  lemma NullPriceIsZero(payload: Value)
    requires Get(payload, "price") == JNull
    ensures Price(payload) == Some(Fin(0.0))
  {
  }

  /** Prices that are neither strings nor numbers go through `Number(...)`:
      `true` is 1, `false` and `[]` are 0, a one-element array is its
      element, and an object or a longer array has no price. */
  lemma NonStringPrices(x: Value)
    ensures Price(JObj(map["price" := JBool(true)])) == Some(Fin(1.0))
    ensures Price(JObj(map["price" := JBool(false)])) == Some(Fin(0.0))
    ensures Price(JObj(map["price" := JArr([])])) == Some(Fin(0.0))
    ensures Price(JObj(map["price" := JArr([JNum(Fin(7.0))])])) == Some(Fin(7.0))
    ensures Price(JObj(map["price" := JArr([x, x])])) == None
    ensures Price(JObj(map["price" := JObj(map[])])) == None
  {
    forall v: Value | v != JUndefined && !v.JStr?
      ensures Price(JObj(map["price" := v])) == (if ToNumber(v) == NaN then None else Some(ToNumber(v)))
    {
      assert Get(JObj(map["price" := v]), "price") == v;
    }
  }

  /** A currency symbol at position `i`. */
  predicate SymbolAt(s: string, i: nat)
    requires i < |s|
  {
    s[i] == '€' || s[i] == '$' || s[i] == '£'
  }

  /** A currency code (USD, EUR or GBP, in any letter case) at position `i`. */
  predicate CodeAt(s: string, i: nat)
  {
    i + 3 <= |s| && IsCode(LowerChar(s[i]), LowerChar(s[i + 1]), LowerChar(s[i + 2]))
  }

  predicate IsCode(a: char, b: char, c: char)
  {
    [a, b, c] == "usd" || [a, b, c] == "eur" || [a, b, c] == "gbp"
  }

  /** The pattern `/[€$£]|USD|EUR|GBP/i` matches at position `i`. */
  predicate CurrencyAt(s: string, i: nat)
    requires i < |s|
  {
    SymbolAt(s, i) || CodeAt(s, i)
  }

  /** The text the pattern matches at position `i`, in its original case. */
  function TokenAt(s: string, i: nat): string
    requires i < |s| && CurrencyAt(s, i)
  {
    if SymbolAt(s, i) then [s[i]] else s[i..i + 3]
  }

  /** The leftmost position at or after `k` where the pattern matches. */
  function FirstCurrency(s: string, k: nat): (r: Option<nat>)
    requires k <= |s|
    ensures r.None? <==> forall i :: k <= i < |s| ==> !CurrencyAt(s, i)
    ensures r.Some? ==>
      k <= r.value < |s| && CurrencyAt(s, r.value) && forall j :: k <= j < r.value ==> !CurrencyAt(s, j)
    decreases |s| - k
  {
    if k == |s| then None
    else if CurrencyAt(s, k) then Some(k)
    else FirstCurrency(s, k + 1)
  }

  /** `s.match(/[€$£]|USD|EUR|GBP/i)?.[0]`: the leftmost currency symbol or
      code in `s`. */
  function CurrencyMatch(s: string): (r: Option<string>)
    ensures r.None? <==> forall i :: 0 <= i < |s| ==> !CurrencyAt(s, i)
    ensures r.Some? ==> r.value != ""
    ensures r.Some? ==>
      exists i :: 0 <= i < |s| && CurrencyAt(s, i) && r.value == TokenAt(s, i)
        && forall j :: 0 <= j < i ==> !CurrencyAt(s, j)
  {
    match FirstCurrency(s, 0)
    case None => None
    case Some(i) => Some(TokenAt(s, i))
  }

  /** The currency: the payload's `currency`, else, for a string price, the
      currency symbol or code found in it. */
  function Currency(payload: Value): (r: Value)
    ensures Truthy(Get(payload, "currency")) ==> r == Get(payload, "currency")
    ensures !Truthy(Get(payload, "currency")) && !Get(payload, "price").JStr? ==> r == JUndefined
    ensures !Truthy(Get(payload, "currency")) && Get(payload, "price").JStr? ==>
      (r == JUndefined <==> forall i :: 0 <= i < |Get(payload, "price").s| ==> !CurrencyAt(Get(payload, "price").s, i))
    ensures !Truthy(Get(payload, "currency")) && Get(payload, "price").JStr? && CurrencyMatch(Get(payload, "price").s).Some? ==>
      r == JStr(CurrencyMatch(Get(payload, "price").s).value)
  {
    var p := Get(payload, "price");
    var found := if p.JStr? && CurrencyMatch(p.s).Some? then JStr(CurrencyMatch(p.s).value) else JUndefined;
    Or(Get(payload, "currency"), found)
  }

  lemma PriceDigits()
    ensures DigitsValue("129900") == 129900
  {
    assert DigitsValue("1") == 1;
    assert "12"[..1] == "1";
    assert DigitsValue("12") == 12;
    assert "129"[..2] == "12";
    assert DigitsValue("129") == 129;
    assert "1299"[..3] == "129";
    assert DigitsValue("1299") == 1299;
    assert "12990"[..4] == "1299";
    assert DigitsValue("12990") == 12990;
    assert "129900"[..5] == "12990";
  }

  lemma PriceLeadingDigits()
    ensures LeadingDigits("1299.00") == 4
  {
  }

  lemma PriceScan()
    ensures ScanUnsigned("1299.00") == Scan(7, Fin(1299.0))
  {
    var t := "1299.00";
    PriceLeadingDigits();
    PriceDigits();
    assert LeadingDigits(t[5..]) == 2;
    assert t[..4] + t[5..7] == "129900";
    assert ScanExponent(t[7..]) == (0, 0);
    assert Pow10(-2) == 0.01;
  }

  lemma PriceDecimal()
    ensures ScanDecimal("1299.00") == Scan(7, Fin(1299.0))
  {
    var t := "1299.00";
    assert t[0] == '1';
    PriceScan();
  }

  lemma PriceTrimmed()
    ensures TrimStart("1299.00") == "1299.00"
  {
    assert !IsSpace("1299.00"[0]);
  }

  lemma PriceText()
    ensures ParseFloat("1299.00") == Fin(1299.0)
  {
    PriceTrimmed();
    PriceDecimal();
  }

  /** A formatted price string: `"$1,299.00"` gives the price 1299 ... */
  lemma FormattedPrice()
    ensures Price(JObj(map["price" := JStr("$1,299.00")])) == Some(Fin(1299.0))
  {
    var p := JObj(map["price" := JStr("$1,299.00")]);
    assert Get(p, "price") == JStr("$1,299.00");
    PriceKeep();
    PriceText();
  }

  lemma PriceKeep()
    ensures KeepNumeric("$1,299.00") == "1299.00"
  {
    assert AllNumeric("299.00");
    assert AllNumeric("1");
    KeepAroundSeparator('$', "1", ',', "299.00");
    assert "$1,299.00" == ['$'] + "1" + [','] + "299.00";
    assert "1" + "299.00" == "1299.00";
  }

  /** ... and the currency `"$"`. */
  lemma FormattedPriceCurrency()
    ensures Currency(JObj(map["price" := JStr("$1,299.00")])) == JStr("$")
  {
    var p := JObj(map["price" := JStr("$1,299.00")]);
    assert Get(p, "price") == JStr("$1,299.00");
    assert Get(p, "currency") == JUndefined;
    assert CurrencyAt("$1,299.00", 0);
    assert CurrencyMatch("$1,299.00") == Some("$");
  }

  // ---------------------------------------------------------------------
  // The two paths

  /** Where the payload path ends: all fields, or an exception after the
      link (`url`) has been assigned. */
  datatype TryOutcome = Completed(fields: DocFields) | Interrupted(url: Value)

  /** The address: `Address`, `address`, `Location`, then `location`;
      undefined when none is truthy. */
  function Address(payload: Value): (r: Value)
    ensures Truthy(r) || r == JUndefined
    ensures Truthy(Get(payload, "Address")) ==> r == Get(payload, "Address")
    ensures !Truthy(Get(payload, "Address")) && Truthy(Get(payload, "address")) ==> r == Get(payload, "address")
    ensures !Truthy(Get(payload, "Address")) && !Truthy(Get(payload, "address")) && Truthy(Get(payload, "Location")) ==>
              r == Get(payload, "Location")
    ensures !Truthy(Get(payload, "Address")) && !Truthy(Get(payload, "address")) && !Truthy(Get(payload, "Location")) ==>
              r == (if Truthy(Get(payload, "location")) then Get(payload, "location") else JUndefined)
  {
    var vs := [Get(payload, "Address"), Get(payload, "address"), Get(payload, "Location"), Get(payload, "location"), JUndefined];
    assert vs[1] == Get(payload, "address") && vs[2] == Get(payload, "Location");
    assert vs[3] == Get(payload, "location") && vs[4] == JUndefined;
    ChainToUndefined(vs);
    Chain(vs)
  }

  /** The country: `Country`, then `country`; undefined when neither is
      truthy. */
  function Country(payload: Value): (r: Value)
    ensures Truthy(r) || r == JUndefined
    ensures Truthy(Get(payload, "Country")) ==> r == Get(payload, "Country")
    ensures !Truthy(Get(payload, "Country")) ==>
              r == (if Truthy(Get(payload, "country")) then Get(payload, "country") else JUndefined)
  {
    var vs := [Get(payload, "Country"), Get(payload, "country"), JUndefined];
    assert vs[1] == Get(payload, "country") && vs[2] == JUndefined;
    ChainToUndefined(vs);
    Chain(vs)
  }

  /** The payload path completes on this document: it is not nullish, its
      JSON text parses to a non-nullish payload, and the snippet does not
      throw. */
  predicate PayloadReadable(source: Value, parse: Value -> ParseOutcome)
  {
    && !Nullish(source)
    && Payload(source, parse).Parsed?
    && !Nullish(Payload(source, parse).value)
    && PayloadSnippet(Payload(source, parse).value).Some?
  }

  /** Each display field is the one the payload (and, for images, the
      document) provides. */
  predicate FromPayload(d: DocFields, payload: Value, source: Value)
  {
    && d.title == Title(payload, source)
    && d.url == Url(payload)
    && PayloadSnippet(payload) == Some(d.snippet)
    && d.images == RootImages(PayloadImages(payload), source)
    && d.coordinates == Coordinates(payload)
    && d.address == Address(payload)
    && d.country == Country(payload)
    && d.price == Price(payload)
    && d.currency == Currency(payload)
  }

  /** The payload path.  It throws when the document is nullish, when the
      JSON text does not parse, when the payload is `null` (reading
      `title` of it), and when the snippet excerpt throws; only in the last
      case has the link already been taken from the payload. */
  function PayloadPath(source: Value, parse: Value -> ParseOutcome): (r: TryOutcome)
    ensures r.Completed? <==> PayloadReadable(source, parse)
    ensures r.Completed? ==> Consistent(r.fields) && FromPayload(r.fields, Payload(source, parse).value, source)
    ensures r.Interrupted? ==> Truthy(r.url)
    ensures Nullish(source) ==> r == Interrupted(JStr("#"))
    ensures !Nullish(source) && Payload(source, parse) == SyntaxError ==> r == Interrupted(JStr("#"))
    ensures !Nullish(source) && Payload(source, parse) == Parsed(JNull) ==> r == Interrupted(JStr("#"))
    ensures r.Interrupted? && !Nullish(source) && Payload(source, parse).Parsed? && !Nullish(Payload(source, parse).value) ==>
      r.url == Url(Payload(source, parse).value)
  {
    if Nullish(source) then Interrupted(JStr("#"))
    else
      match Payload(source, parse)
      case SyntaxError => Interrupted(JStr("#"))
      case Parsed(payload) =>
        if Nullish(payload) then Interrupted(JStr("#"))
        else
          var url := Url(payload);
          match PayloadSnippet(payload)
          case None => Interrupted(url)
          case Some(snippet) =>
            var coords := Coordinates(payload);
            Completed(DocFields(
              title := Title(payload, source),
              url := url,
              snippet := snippet,
              images := RootImages(PayloadImages(payload), source),
              latitude := if coords.Some? then Some(coords.value.0) else None,
              longitude := if coords.Some? then Some(coords.value.1) else None,
              address := Address(payload),
              country := Country(payload),
              coordinates := coords,
              price := Price(payload),
              currency := Currency(payload)))
  }

  /** The fallback path (the `catch` block): title from the file name, a
      snippet from `content`, images from the top-level fields, no
      location or price; the link is whatever the payload path had set.
      It throws itself on a nullish document and on a `content` that is
      neither nullish nor a string. */
  function FallbackPath(source: Value, url: Value): (r: Option<DocFields>)
    ensures r.Some? <==> !Nullish(source) && Excerpt(Get(source, "content")).Some?
    ensures r.Some? ==>
      && r.value.url == url
      && r.value.snippet == JStr(Excerpt(Get(source, "content")).value)
      && r.value.coordinates == None && r.value.latitude == None && r.value.longitude == None
      && r.value.price == None
      && r.value.address == JUndefined && r.value.country == JUndefined && r.value.currency == JUndefined
      && r.value.images == FallbackImages(source)
    ensures r.Some? && Truthy(Get(source, "file_name")) ==> r.value.title == Get(source, "file_name")
    ensures r.Some? && !Truthy(Get(source, "file_name")) ==> r.value.title == JStr("Untitled")
    ensures r.Some? ==> Truthy(r.value.title) && Truthy(r.value.snippet) && Consistent(r.value)
  {
    if Nullish(source) then None
    else
      match Excerpt(Get(source, "content"))
      case None => None
      case Some(snippet) =>
        Some(DocFields(
          title := Or(Get(source, "file_name"), JStr("Untitled")),
          url := url,
          snippet := JStr(snippet),
          images := FallbackImages(source),
          latitude := None,
          longitude := None,
          address := JUndefined,
          country := JUndefined,
          coordinates := None,
          price := None,
          currency := JUndefined))
  }

  /** `extractDocumentData(source)`: the payload path, or the fallback path
      when the payload path throws; `None` when the fallback throws too. */
  function Extract(source: Value, parse: Value -> ParseOutcome): (r: Option<DocFields>)
    ensures Nullish(source) ==> r == None
    ensures r.Some? ==> Consistent(r.value)
    ensures r.Some? ==> Truthy(r.value.title) && Truthy(r.value.url) && Truthy(r.value.snippet)
    ensures PayloadPath(source, parse).Completed? ==> r == Some(PayloadPath(source, parse).fields)
    ensures PayloadPath(source, parse).Interrupted? ==> r == FallbackPath(source, PayloadPath(source, parse).url)
  {
    match PayloadPath(source, parse)
    case Completed(d) => Some(d)
    case Interrupted(url) => FallbackPath(source, url)
  }

  /** A document whose JSON text does not parse is shown from its
      top-level fields: file name as title, "#" as link, no location and no
      price. */
  lemma UnparseableUsesFallback(source: Value, parse: Value -> ParseOutcome)
    requires !Nullish(source) && Get(source, "content").JStr?
    requires Payload(source, parse) == SyntaxError
    ensures Extract(source, parse).Some?
    ensures Extract(source, parse).value.url == JStr("#")
    ensures Extract(source, parse).value.title == Or(Get(source, "file_name"), JStr("Untitled"))
    ensures Extract(source, parse).value.coordinates == None && Extract(source, parse).value.price == None
  {
  }

  /** When the payload's snippet throws, the fallback result keeps the link
      the payload path had already taken from the payload. */
  lemma InterruptedSnippetKeepsLink(source: Value, parse: Value -> ParseOutcome)
    requires !Nullish(source) && Get(source, "content").JStr?
    requires Payload(source, parse).Parsed? && !Nullish(Payload(source, parse).value)
    requires Truthy(Get(Payload(source, parse).value, "url"))
    requires PayloadSnippet(Payload(source, parse).value).None?
    ensures Extract(source, parse).Some?
    ensures Extract(source, parse).value.url == Get(Payload(source, parse).value, "url")
    ensures Extract(source, parse).value.coordinates == None
  {
  }
}

=== FILE: querybuilder.dfy ===
/** The query builder of the search service: the date-window filter, the
    sort keys, the index chosen for a tab, the page offset, and the request
    bodies of the plain and the advanced search.  The current time is an
    integer number of milliseconds and `toISOString` is a parameter `iso`. */
module QueryBuilder {
  import opened Wrappers
  import opened JsString

  datatype SortBy = Relevance | Newest | Oldest

  datatype DateRange = AllTime | Today | Week | Month | Year | Custom

  datatype TimeFrame = LastHour | Last24h | LastWeek | LastMonth

  /** A custom date range as the filter panel builds it: editing one bound
      before the other leaves the other missing. */
  datatype CustomRange = CustomRange(from: Option<string>, to: Option<string>)

  /** The filter options of a search. */
  datatype FilterOptions = FilterOptions(
    sortBy: SortBy,
    dateRange: DateRange,
    customDateRange: Option<CustomRange>,
    timeFrame: Option<TimeFrame>)

  /** `{ sortBy: 'relevance', dateRange: 'all' }`. */
  const DefaultFilters := FilterOptions(Relevance, AllTime, None, None)

  const Hour: nat := 60 * 60 * 1000
  const Day: nat := 24 * Hour

  /** The length of a time frame in milliseconds: an hour, a day, and the
      same 7 and 30 days the week and month date ranges reach back. */
  function TimeFrameMillis(tf: TimeFrame): (d: nat)
    ensures tf == LastHour ==> d == 60 * 60 * 1000
    ensures tf == Last24h ==> d == 24 * 60 * 60 * 1000
    ensures tf == LastWeek ==> d == PresetDays(Week) * Day
    ensures tf == LastMonth ==> d == PresetDays(Month) * Day
  {
    match tf
    case LastHour => Hour
    case Last24h => Day
    case LastWeek => 7 * Day
    case LastMonth => 30 * Day
  }

  /** `iso.split('T')[0]`: the date part of an ISO timestamp, that is, the
      text before its first `T` (all of it when there is none). */
  function DateOnly(iso: string): (r: string)
    ensures 'T' !in r
    ensures |r| <= |iso| && r == iso[..|r|]
    ensures |r| < |iso| ==> iso[|r|] == 'T'
  {
    SplitHead(iso, 'T');
    Split(iso, 'T')[0]
  }

  /** A `created_date` range `[gte, lte]`. */
  datatype DateWindow = DateWindow(gte: string, lte: string)

  /** The two bounds as the filter logic assigns them (`None` while
      `undefined`). */
  datatype Bounds = Bounds(from: Option<string>, to: Option<string>)

  /** A bound that is a non-empty string (`if (fromDate && toDate)`). */
  predicate Present(b: Option<string>)
  {
    b.Some? && b.value != ""
  }

  /** How far back a preset date range reaches, in milliseconds, and the
      bounds it gives: from that instant's date to today's date.  `All`
      and `Custom` give no bounds. */
  function PresetBounds(range: DateRange, now: int, iso: int -> string): (b: Bounds)
    ensures range == AllTime || range == Custom <==> b == Bounds(None, None)
    ensures range == Today ==> b == Bounds(Some(DateOnly(iso(now))), Some(DateOnly(iso(now))))
    ensures range in {Week, Month, Year} ==>
      b == Bounds(Some(DateOnly(iso(now - PresetDays(range) * Day))), Some(DateOnly(iso(now))))
  {
    var today := DateOnly(iso(now));
    match range
    case Today => Bounds(Some(today), Some(today))
    case Week => Bounds(Some(DateOnly(iso(now - 7 * Day))), Some(today))
    case Month => Bounds(Some(DateOnly(iso(now - 30 * Day))), Some(today))
    case Year => Bounds(Some(DateOnly(iso(now - 365 * Day))), Some(today))
    case _ => Bounds(None, None)
  }

  /** The number of days a preset range reaches back: 7, 30 and 365. */
  function PresetDays(range: DateRange): nat
  {
    match range
    case Week => 7
    case Month => 30
    case Year => 365
    case _ => 0
  }

  /** `getDateRangeFilter`: a custom range when one is chosen and given,
      otherwise the preset range; a time frame replaces both bounds
      (as full timestamps) whatever the date range says.  There is a
      filter only when both bounds are non-empty. */
  function DateRangeFilter(f: FilterOptions, now: int, iso: int -> string): (r: Option<DateWindow>)
    ensures r.Some? ==> r.value.gte != "" && r.value.lte != ""
    ensures f.timeFrame.Some? && iso(now) != "" && iso(now - TimeFrameMillis(f.timeFrame.value)) != "" ==>
      r == Some(DateWindow(iso(now - TimeFrameMillis(f.timeFrame.value)), iso(now)))
    ensures f.timeFrame.None? && (f.dateRange == AllTime || (f.dateRange == Custom && f.customDateRange.None?)) ==>
      r == None
    ensures f.timeFrame.Some? ==> (r.Some? <==> iso(now) != "" && iso(now - TimeFrameMillis(f.timeFrame.value)) != "")
    ensures f.timeFrame.None? && f.dateRange == Today ==>
      r == (if DateOnly(iso(now)) == "" then None else Some(DateWindow(DateOnly(iso(now)), DateOnly(iso(now)))))
    ensures f.timeFrame.None? && f.dateRange in {Week, Month, Year} ==>
      (r.Some? <==> DateOnly(iso(now - PresetDays(f.dateRange) * Day)) != "" && DateOnly(iso(now)) != "")
    ensures f.timeFrame.None? && f.dateRange == Custom && f.customDateRange.Some? ==>
      (r.Some? <==> Present(f.customDateRange.value.from) && Present(f.customDateRange.value.to))
    ensures f.timeFrame.None? && f.dateRange == Custom && r.Some? ==>
      r.value == DateWindow(f.customDateRange.value.from.value, f.customDateRange.value.to.value)
    ensures f.timeFrame.None? && f.dateRange in {Week, Month, Year} && r.Some? ==>
      r.value == DateWindow(DateOnly(iso(now - PresetDays(f.dateRange) * Day)), DateOnly(iso(now)))
  {
    var chosen :=
      if f.dateRange == Custom && f.customDateRange.Some? then
        Bounds(f.customDateRange.value.from, f.customDateRange.value.to)
      else PresetBounds(f.dateRange, now, iso);
    var b :=
      if f.timeFrame.Some? then
        Bounds(Some(iso(now - TimeFrameMillis(f.timeFrame.value))), Some(iso(now)))
      else chosen;
    if Present(b.from) && Present(b.to) then Some(DateWindow(b.from.value, b.to.value)) else None
  }

  /** The time frame wins over any date range, custom ones included. */
  lemma TimeFrameOverridesDateRange(f: FilterOptions, g: FilterOptions, now: int, iso: int -> string)
    requires f.timeFrame.Some? && f.timeFrame == g.timeFrame
    ensures DateRangeFilter(f, now, iso) == DateRangeFilter(g, now, iso)
  {
  }

  /** The week and month time frames reach back exactly as far as the week
      and month date ranges: each bound of the date range is the date part
      of the time frame's timestamp. */
  lemma TimeFrameRefinesPreset(f: FilterOptions, now: int, iso: int -> string)
    requires f.timeFrame == Some(LastWeek) || f.timeFrame == Some(LastMonth)
    requires DateRangeFilter(f, now, iso).Some?
    ensures var g := f.(timeFrame := None, dateRange := if f.timeFrame == Some(LastWeek) then Week else Month);
      DateRangeFilter(g, now, iso).Some? ==>
        && DateRangeFilter(g, now, iso).value.gte == DateOnly(DateRangeFilter(f, now, iso).value.gte)
        && DateRangeFilter(g, now, iso).value.lte == DateOnly(DateRangeFilter(f, now, iso).value.lte)
  {
  }

  // ---------------------------------------------------------------------
  // Sorting

  datatype SortField = Score | CreatedDate

  datatype Order = Asc | Desc

  datatype SortKey = SortKey(field: SortField, order: Order)

  /** `getSortOptions`: a primary and a secondary key.  Relevance sorts by
      score, newest-first then oldest-first sort by creation date; the
      score is always descending and is the tie-breaker of the date sorts;
      the date is the tie-breaker of relevance, newest first. */
  function SortKeys(sortBy: SortBy): (r: seq<SortKey>)
    ensures |r| == 2
    ensures r[0].field != r[1].field
    ensures forall k :: 0 <= k < 2 && r[k].field == Score ==> r[k].order == Desc
    ensures r[0].field == Score <==> sortBy == Relevance
    ensures forall k :: 0 <= k < 2 && r[k].field == CreatedDate ==> (r[k].order == Asc <==> sortBy == Oldest)
  {
    match sortBy
    case Newest => [SortKey(CreatedDate, Desc), SortKey(Score, Desc)]
    case Oldest => [SortKey(CreatedDate, Asc), SortKey(Score, Desc)]
    case Relevance => [SortKey(Score, Desc), SortKey(CreatedDate, Desc)]
  }

  // ---------------------------------------------------------------------
  // Index selection

  /** The index of the service when none is configured. */
  const DefaultIndex := "file_index"

  /** The index the service uses by default: the configured name, or
      `file_index` when the setting is empty or unset. */
  function ServiceIndex(configured: string): (r: string)
    ensures r != ""
    ensures configured != "" ==> r == configured
    ensures configured == "" ==> r == "file_index"
  {
    if configured != "" then configured else DefaultIndex
  }

  /** The fixed tab-to-index table. */
  const TabIndex: map<string, string> := map[
    "all" := "file_index",
    "net" := "file_index",
    "images" := "images_index",
    "maps" := "file_index",
    "shopping" := "file_index",
    "videos" := "videos_index",
    "news" := "news_index",
    "books" := "books_index"]

  /** `getIndexForTab`: the table's index for a known tab, the service's
      own index for any other. */
  function IndexForTab(tab: string, serviceIndex: string): (r: string)
    ensures tab in TabIndex ==> r == TabIndex[tab]
    ensures tab !in TabIndex ==> r == serviceIndex
    ensures r in TabIndex.Values || r == serviceIndex
  {
    if tab in TabIndex then TabIndex[tab] else serviceIndex
  }

  /** Only the image, video, news and book tabs leave the document index. */
  lemma DocumentTabs(tab: string, serviceIndex: string)
    requires tab in TabIndex
    ensures IndexForTab(tab, serviceIndex) == "file_index" <==> tab in {"all", "net", "maps", "shopping"}
  {
  }

  // ---------------------------------------------------------------------
  // Pagination

  /** `from = (page - 1) * size`: the offset of the first hit of a page. */
  function PageOffset(page: int, size: int): int
  {
    (page - 1) * size
  }

  /** Page 1 starts at the first hit, and each page starts where the
      previous one ends, so consecutive pages neither overlap nor leave a
      gap. */
  lemma PagesTile(page: int, size: int)
    ensures PageOffset(1, size) == 0
    ensures PageOffset(page + 1, size) == PageOffset(page, size) + size
  {
  }

  // ---------------------------------------------------------------------
  // Request bodies

  /** The text clause: a fuzzy or exact multi-field match, or a phrase
      match, always over `content^3`, `file_name^2` and `raw_content`. */
  datatype Clause = MultiMatch(query: string, fuzzy: bool) | MatchPhrase(query: string)

  /** A filter clause of the boolean query. */
  datatype FilterClause = RangeFilter(gte: string, lte: string) | TermFilter(filePath: string)

  /** A search request body; `filters == []` stands for a body without a
      `filter` key.  The highlight section is constant and not modelled. */
  datatype SearchBody = SearchBody(must: Clause, filters: seq<FilterClause>, from: int, size: int, sort: seq<SortKey>)

  /** A request to the backend: a search on an index, or a fetch of one
      document by id. */
  datatype Request = SearchCall(index: string, body: SearchBody) | DocumentCall(index: string, id: string)

  /** The request `search` sends. */
  function SearchRequest(query: string, page: int, size: int, f: FilterOptions, tab: string,
                         serviceIndex: string, now: int, iso: int -> string): (r: Request)
    ensures r.SearchCall? && r.index == IndexForTab(tab, serviceIndex)
    ensures r.body.must == MultiMatch(query, true)
    ensures r.body.from == PageOffset(page, size) && r.body.size == size
    ensures r.body.sort == SortKeys(f.sortBy)
    ensures DateRangeFilter(f, now, iso).None? <==> r.body.filters == []
    ensures DateRangeFilter(f, now, iso).Some? ==>
      r.body.filters == [RangeFilter(DateRangeFilter(f, now, iso).value.gte, DateRangeFilter(f, now, iso).value.lte)]
  {
    var filters :=
      match DateRangeFilter(f, now, iso)
      case Some(w) => [RangeFilter(w.gte, w.lte)]
      case None => [];
    SearchCall(IndexForTab(tab, serviceIndex),
      SearchBody(MultiMatch(query, true), filters, PageOffset(page, size), size, SortKeys(f.sortBy)))
  }

  /** The options of an advanced search; an empty `source` stands for an
      absent one. */
  datatype AdvancedOptions = AdvancedOptions(dateRange: Option<DateWindow>, source: string, exactPhrase: bool)

  /** The request `advancedSearch` sends: always the service's own index
      and the relevance sort; a phrase match when `exactPhrase` is set and
      a non-fuzzy multi-field match otherwise; a range filter for a date
      range, then a term filter for a non-empty source. */
  function AdvancedRequest(query: string, opts: AdvancedOptions, page: int, size: int, serviceIndex: string): (r: Request)
    ensures r.SearchCall? && r.index == serviceIndex
    ensures r.body.must.MatchPhrase? <==> opts.exactPhrase
    ensures r.body.must.query == query
    ensures r.body.must.MultiMatch? ==> !r.body.must.fuzzy
    ensures r.body.from == PageOffset(page, size) && r.body.size == size
    ensures r.body.sort == SortKeys(Relevance)
    ensures |r.body.filters| == (if opts.dateRange.Some? then 1 else 0) + (if opts.source != "" then 1 else 0)
    ensures forall i :: 0 <= i < |r.body.filters| ==>
      (r.body.filters[i].RangeFilter? <==> i == 0 && opts.dateRange.Some?)
    ensures opts.dateRange.Some? ==> r.body.filters[0] == RangeFilter(opts.dateRange.value.gte, opts.dateRange.value.lte)
    ensures forall p :: TermFilter(p) in r.body.filters <==> opts.source != "" && p == opts.source
  {
    var must := if opts.exactPhrase then MatchPhrase(query) else MultiMatch(query, false);
    var range := if opts.dateRange.Some? then [RangeFilter(opts.dateRange.value.gte, opts.dateRange.value.lte)] else [];
    var term := if opts.source != "" then [TermFilter(opts.source)] else [];
    SearchCall(serviceIndex,
      SearchBody(must, range + term, PageOffset(page, size), size,
        [SortKey(Score, Desc), SortKey(CreatedDate, Desc)]))
  }
}

=== FILE: resultspage.dfy ===
/** The logic of the results page: the page size per tab, the per-tab
    membership tests and counts, the page-change guard, the window of page
    numbers, the filter summary line and the shortened snippet. */
module ResultsPage {
  import opened Wrappers
  import opened JsString
  import opened JsNumber
  import opened JsValue
  import opened Normalizer
  import opened QueryBuilder
  import opened Gateway

  /** Results per request: 50 on the image tab, 10 elsewhere. */
  function PageSize(tab: string): (n: nat)
    ensures n == 10 || n == 50
    ensures n == 50 <==> tab == "images"
  {
    if tab == "images" then 50 else 10
  }

  /** The request a search on `tab` sends for `page`. */
  function PageRequest(query: string, page: int, f: FilterOptions, tab: string,
                       serviceIndex: string, now: int, iso: int -> string): (r: Request)
    ensures r.SearchCall? && r.body.size == PageSize(tab)
    ensures r.body.from == (page - 1) * PageSize(tab)
    ensures r.index == IndexForTab(tab, serviceIndex)
  {
    SearchRequest(query, page, PageSize(tab), f, tab, serviceIndex, now, iso)
  }

  /** Applying new filters searches again, from the first page, for the
      same query on the same tab: of the request of any page under the old
      filters, only the offset, the sort keys and the date filter change. */
  lemma ApplyingFiltersKeepsSearch(query: string, page: int, f: FilterOptions, g: FilterOptions, tab: string,
                                   serviceIndex: string, now: int, iso: int -> string)
    ensures var before := PageRequest(query, page, f, tab, serviceIndex, now, iso);
      var after := PageRequest(query, 1, g, tab, serviceIndex, now, iso);
      && after.index == before.index && after.body.must == before.body.must
      && after.body.size == before.body.size && after.body.from == 0
      && after.body.sort == SortKeys(g.sortBy)
      && (after.body.filters == [] <==> DateRangeFilter(g, now, iso).None?)
  {
  }

  // ---------------------------------------------------------------------
  // Facets

  /** A result with an image: any of the three image references truthy. */
  predicate HasImage(r: SearchResult)
  {
    Truthy(r.images.imageBase64) || Truthy(r.images.imageUrl) || Truthy(r.images.thumbnailUrl)
  }

  /** A result with a place: numeric latitude and longitude, or a truthy
      address or country. */
  predicate HasPlace(r: SearchResult)
  {
    (r.latitude.Some? && r.longitude.Some?) || Truthy(r.address) || Truthy(r.country)
  }

  /** A result with a numeric price. */
  predicate ForSale(r: SearchResult)
  {
    r.price.Some?
  }

  /** `r.source?.toLowerCase()` throws: the source label is there but is
      not a string (a numeric or structured `file_path`). */
  predicate SourceNotText(r: SearchResult)
  {
    !Nullish(r.source) && !r.source.JStr?
  }

  /** A result whose source path ends in `.pdf` or `.epub`, in any letter
      case. */
  predicate IsBook(r: SearchResult)
  {
    r.source.JStr? && (EndsWith(Lower(r.source.s), ".pdf") || EndsWith(Lower(r.source.s), ".epub"))
  }

  /** The page-local facets. */
  datatype Facet = ImageFacet | PlaceFacet | SaleFacet | BookFacet

  predicate InFacet(r: SearchResult, f: Facet)
  {
    match f
    case ImageFacet => HasImage(r)
    case PlaceFacet => HasPlace(r)
    case SaleFacet => ForSale(r)
    case BookFacet => IsBook(r)
  }

  /** `results.filter(test)` for a facet's test: the members of the facet,
      in result order. */
  function Select(rs: seq<SearchResult>, f: Facet): (r: seq<SearchResult>)
    ensures |r| <= |rs|
    ensures forall i :: 0 <= i < |r| ==> InFacet(r[i], f)
  {
    if |rs| == 0 then []
    else
      var rest := Select(rs[1..], f);
      if InFacet(rs[0], f) then [rs[0]] + rest else rest
  }

  /** Each member of the facet is kept as often as it occurs on the page,
      and nothing else is kept. */
  lemma {:induction false} SelectMultiplicity(rs: seq<SearchResult>, f: Facet, x: SearchResult)
    ensures multiset(Select(rs, f))[x] == if InFacet(x, f) then multiset(rs)[x] else 0
    ensures x in Select(rs, f) <==> x in rs && InFacet(x, f)
    decreases |rs|
  {
    if |rs| > 0 {
      SelectMultiplicity(rs[1..], f, x);
      assert rs == [rs[0]] + rs[1..];
      assert multiset(rs) == multiset{rs[0]} + multiset(rs[1..]);
      var rest := Select(rs[1..], f);
      if InFacet(rs[0], f) {
        assert multiset([rs[0]] + rest) == multiset{rs[0]} + multiset(rest);
      }
    }
  }

  /** Filtering a concatenation filters each part and keeps them in order;
      with `SelectOne`, this pins the order of the selected results to the
      order of the page. */
  lemma {:induction false} SelectConcat(a: seq<SearchResult>, b: seq<SearchResult>, f: Facet)
    ensures Select(a + b, f) == Select(a, f) + Select(b, f)
    decreases |a|
  {
    if |a| == 0 {
      assert a + b == b;
      assert Select(a, f) + Select(b, f) == Select(b, f);
    } else {
      var h, t := a[0], a[1..];
      assert a == [h] + t;
      assert a + b == [h] + (t + b);
      SelectConcat(t, b, f);
      SelectCons(h, t + b, f);
      SelectCons(h, t, f);
      if InFacet(h, f) {
        assert [h] + (Select(t, f) + Select(b, f)) == ([h] + Select(t, f)) + Select(b, f);
      }
    }
  }

  lemma SelectCons(x: SearchResult, rest: seq<SearchResult>, f: Facet)
    ensures Select([x] + rest, f) == if InFacet(x, f) then [x] + Select(rest, f) else Select(rest, f)
  {
    var s := [x] + rest;
    assert s[0] == x && s[1..] == rest;
  }

  /** One result is kept exactly when it belongs to the facet. */
  lemma SelectOne(x: SearchResult, f: Facet)
    ensures Select([x], f) == if InFacet(x, f) then [x] else []
  {
    assert [x][1..] == [];
  }

  /** The counts shown on the tabs. */
  datatype TabCounts = TabCounts(net: Value, images: nat, maps: nat, shopping: nat,
                                 videos: Value, news: Value, books: nat)

  /** The tab counts: the backend's total on the web tab, and on the video
      and news tabs only while they are active; page-local facet counts on
      the others; all zero before the first response.  The book test calls
      `toLowerCase` on each result's source, so a source label that is not
      a string makes the page throw while rendering (`None`). */
  function Counts(resp: Option<SearchResponse>, activeTab: string): (c: Option<TabCounts>)
    ensures resp.None? ==> c == Some(TabCounts(JNum(Fin(0.0)), 0, 0, 0, JNum(Fin(0.0)), JNum(Fin(0.0)), 0))
    ensures resp.Some? ==>
      (c.None? <==> exists i :: 0 <= i < |resp.value.results| && SourceNotText(resp.value.results[i]))
    ensures resp.Some? && c.Some? ==>
      var rs := resp.value.results;
      && c.value.images == |Select(rs, ImageFacet)| && c.value.maps == |Select(rs, PlaceFacet)|
      && c.value.shopping == |Select(rs, SaleFacet)| && c.value.books == |Select(rs, BookFacet)|
    ensures resp.Some? && c.Some? && Truthy(resp.value.total) ==> c.value.net == resp.value.total
    ensures resp.Some? && c.Some? && !Truthy(resp.value.total) ==> c.value.net == JNum(Fin(0.0))
    ensures c.Some? && !Truthy(c.value.net) ==> c.value.net == JNum(Fin(0.0))
    ensures c.Some? ==> c.value.videos == (if activeTab == "videos" then c.value.net else JNum(Fin(0.0)))
    ensures c.Some? ==> c.value.news == (if activeTab == "news" then c.value.net else JNum(Fin(0.0)))
  {
    var zero := JNum(Fin(0.0));
    match resp
    case None => Some(TabCounts(zero, 0, 0, 0, zero, zero, 0))
    case Some(sr) =>
      var rs := sr.results;
      if exists i :: 0 <= i < |rs| && SourceNotText(rs[i]) then None
      else
        var net := Or(sr.total, zero);
        Some(TabCounts(net, |Select(rs, ImageFacet)|, |Select(rs, PlaceFacet)|, |Select(rs, SaleFacet)|,
          if activeTab == "videos" then net else zero,
          if activeTab == "news" then net else zero,
          |Select(rs, BookFacet)|))
  }

  /** A result whose document had the number 42 as `file_path` carries
      that number as its source label, and counting the book tab throws on
      it, whatever else the page holds. */
  lemma NumericPathBreaksCounts(resp: SearchResponse, i: nat, activeTab: string)
    requires i < |resp.results| && resp.results[i].source == JNum(Fin(42.0))
    ensures Counts(Some(resp), activeTab).None?
  {
    assert SourceNotText(resp.results[i]);
  }

  /** When every result belongs to a facet, the facet keeps them all. */
  lemma {:induction false} SelectAll(rs: seq<SearchResult>, f: Facet)
    requires forall i :: 0 <= i < |rs| ==> InFacet(rs[i], f)
    ensures Select(rs, f) == rs
  {
    if |rs| > 0 {
      SelectAll(rs[1..], f);
      assert [rs[0]] + rs[1..] == rs;
    }
  }

  /** A page of which every result has a price counts all of them on the
      shopping tab. */
  lemma AllForSaleCounted(resp: SearchResponse, activeTab: string)
    requires forall i :: 0 <= i < |resp.results| ==> ForSale(resp.results[i])
    ensures Counts(Some(resp), activeTab).Some? ==> Counts(Some(resp), activeTab).value.shopping == |resp.results|
  {
    SelectAll(resp.results, SaleFacet);
  }

  /** The facets are independent: one result can be an image, a place, a
      product and a book at once, and is then counted on all four tabs. */
  lemma FacetsOverlap()
    ensures var r := SearchResult(
      id := JStr("1"), title := JStr("Atlas"), url := JStr("#"), snippet := JStr("..."),
      content := JUndefined, score := JNum(Fin(1.0)), timestamp := JUndefined,
      source := JStr("atlas.PDF"),
      images := Images(JStr("a.png"), JUndefined, JUndefined),
      latitude := None, longitude := None, address := JUndefined, country := JStr("FR"),
      coordinates := None, price := Some(Fin(12.0)), currency := JUndefined, rawJson := JUndefined);
      && InFacet(r, ImageFacet) && InFacet(r, PlaceFacet) && InFacet(r, SaleFacet) && InFacet(r, BookFacet)
  {
    var s := "atlas.PDF";
    assert Lower(s)[|s| - 4..] == ".pdf";
  }

  // ---------------------------------------------------------------------
  // Paging

  /** `searchResponse?.totalPages || 1`: the last page the guard allows. */
  function PageLimit(resp: Option<SearchResponse>): (n: Num)
    ensures n != NaN && n != Fin(0.0)
    ensures resp.None? ==> n == Fin(1.0)
    ensures resp.Some? && Truthy(JNum(resp.value.totalPages)) ==> n == resp.value.totalPages
    ensures resp.Some? && !Truthy(JNum(resp.value.totalPages)) ==> n == Fin(1.0)
  {
    if resp.Some? && Truthy(JNum(resp.value.totalPages)) then resp.value.totalPages else Fin(1.0)
  }

  /** What a page change does. */
  datatype PageChange = MoveTo(page: int) | Ignored

  /** `handlePageChange`: move (and navigate) only to a page between 1 and
      the page limit; any other request leaves the page as it is. */
  function HandlePageChange(newPage: int, resp: Option<SearchResponse>): (r: PageChange)
    ensures r.MoveTo? <==> 1 <= newPage && AtMost(newPage, PageLimit(resp))
    ensures r.MoveTo? ==> r.page == newPage
  {
    if newPage >= 1 && AtMost(newPage, PageLimit(resp)) then MoveTo(newPage) else Ignored
  }

  /** With no response yet, or one without pages, the first page is the
      only page one can move to. */
  lemma OnlyFirstPageWithoutPages(newPage: int, resp: Option<SearchResponse>)
    requires resp.None? || resp.value.totalPages == Fin(0.0) || resp.value.totalPages == NaN
    ensures HandlePageChange(newPage, resp).MoveTo? <==> newPage == 1
  {
  }

  /** With `n` pages, exactly the pages 1 to `n` can be moved to. */
  lemma PageGuardRange(newPage: int, resp: SearchResponse, n: nat)
    requires n >= 1 && resp.totalPages == Fin(n as real)
    ensures HandlePageChange(newPage, Some(resp)).MoveTo? <==> 1 <= newPage <= n
  {
  }

  function Max(a: int, b: int): int { if a >= b then a else b }

  function Min(a: int, b: int): int { if a <= b then a else b }

  /** The page numbers of the window: up to five consecutive numbers from
      two before the current page (but not below 1), none above the last
      page. */
  method PageWindow(current: int, totalPages: int) returns (pages: seq<int>)
    ensures |pages| <= 5
    ensures |pages| == Max(0, Min(Min(5, totalPages), totalPages - Max(1, current - 2) + 1))
    ensures forall k :: 0 <= k < |pages| ==> pages[k] == Max(1, current - 2) + k
    ensures forall k :: 0 <= k < |pages| ==> 1 <= pages[k] <= totalPages
    ensures 1 <= current <= totalPages ==> current in pages
  {
    var start := Max(1, current - 2);
    var len := Min(5, totalPages);
    pages := [];
    var i := 0;
    while i < len
      invariant 0 <= i && (len >= 0 ==> i <= len)
      invariant |pages| == Max(0, Min(i, totalPages - start + 1))
      invariant forall k :: 0 <= k < |pages| ==> pages[k] == start + k
    {
      var p := start + i;
      if p <= totalPages {
        pages := pages + [p];
      }
      i := i + 1;
    }
    if 1 <= current <= totalPages {
      assert pages[current - start] == current;
    }
  }

  // ---------------------------------------------------------------------
  // Filter summary

  function SortLabel(s: SortBy): string
  {
    if s == Newest then "Most Recent" else "Oldest First"
  }

  function DateLabel(d: DateRange): string
  {
    match d
    case Custom => "Custom Range"
    case Today => "Today"
    case Week => "This Week"
    case Month => "This Month"
    case _ => "This Year"
  }

  function TimeLabel(t: TimeFrame): string
  {
    match t
    case LastHour => "Last Hour"
    case Last24h => "Last 24h"
    case LastWeek => "Last Week"
    case LastMonth => "Last Month"
  }

  /** The labels of the settings that differ from the defaults: sort,
      then date range, then time frame. */
  function SummaryParts(f: FilterOptions): (parts: seq<string>)
    ensures |parts| == (if f.sortBy != Relevance then 1 else 0) + (if f.dateRange != AllTime then 1 else 0)
                        + (if f.timeFrame.Some? then 1 else 0)
    ensures forall i :: 0 <= i < |parts| ==> parts[i] != "" && parts[i][0] != 'A'
    ensures f.sortBy != Relevance ==> parts[0] == SortLabel(f.sortBy)
    ensures f.dateRange != AllTime ==> parts[if f.sortBy != Relevance then 1 else 0] == DateLabel(f.dateRange)
    ensures f.timeFrame.Some? ==> parts[|parts| - 1] == TimeLabel(f.timeFrame.value)
  {
    (if f.sortBy != Relevance then [SortLabel(f.sortBy)] else [])
    + (if f.dateRange != AllTime then [DateLabel(f.dateRange)] else [])
    + (if f.timeFrame.Some? then [TimeLabel(f.timeFrame.value)] else [])
  }

  /** `getFilterSummary`: the labels joined by " • ", or "All Results". */
  function FilterSummary(f: FilterOptions): (r: string)
    ensures r == "All Results" <==> f == f.(sortBy := Relevance, dateRange := AllTime, timeFrame := None)
    ensures r != "All Results" ==> r == Join(SummaryParts(f), " • ")
  {
    var parts := SummaryParts(f);
    if |parts| > 0 then
      var r := Join(parts, " • ");
      assert r[0] == parts[0][0];
      r
    else "All Results"
  }

  // ---------------------------------------------------------------------
  // Snippet display

  /** The snippet as listed: its first 150 characters, followed by "..."
      when it is longer. */
  function DisplaySnippet(s: string): (r: string)
    ensures |s| <= 150 ==> r == s
    ensures |s| > 150 ==> |r| == 153 && r[..150] == s[..150] && EndsWith(r, "...")
  {
    if |s| > 150 then s[..150] + "..." else s
  }

  /** A document listed by its `full_text` excerpt shows the first 150
      characters of that text, whatever its length beyond that. */
  lemma LongTextListing(payload: Value)
    requires !Truthy(Get(payload, "summary"))
    requires Get(payload, "full_text").JStr? && |Get(payload, "full_text").s| >= 150
    ensures PayloadSnippet(payload).Some? && PayloadSnippet(payload).value.JStr?
    ensures DisplaySnippet(PayloadSnippet(payload).value.s) == Get(payload, "full_text").s[..150] + "..."
  {
    var t := Get(payload, "full_text").s;
    var e := Excerpt(Get(payload, "full_text")).value;
    assert e == Take(t, 200) + "...";
    assert e[..150] == t[..150];
  }
}

=== FILE: wrappers.dfy ===
/** The optional-value type used throughout the model for JavaScript's
    "possibly undefined" results. */
module Wrappers {

  datatype Option<+T> = None | Some(value: T) {

    /** The wrapped value, or `default` when there is none. */
    function GetOr(default: T): T
    {
      match this
      case Some(v) => v
      case None => default
    }
  }
}
